=== FILE: README.md ===
# Photorealistic Rendering using OpenCL — a verified model of the host-side core

This project models, in Dafny, the sequential host code of the OpenCL path
tracer: the parts that prepare data for the GPU before any kernel runs.
Each Dafny module follows one source file.

- `Flatten` (src/main.cpp): the stackless-traversal flattener in
  `initOpenCLBuffers_BVH`. The node array is an arena (`seq<Node>` with
  `Option<nat>` parent and child links). The model covers:
  - the carried `skipNext` flag and the records it emits;
  - the "miss" links, corrected by `numSkipsToHere`;
  - the face and face-normal records;
  - the rounding of the global work size.
- `MathHelp` and `LinearAlgebra` (src/Math/MathHelp.cpp,
  include/Math/linear_algebra.h): the bounding-box folds, surface and
  overlap areas, the longest axis, triangle boxes, centroids and centres,
  `triCalcAABB`, and the `vec4`/`vec3` operations, all over `real`.
- `StringHelpers` (include/string_helper_functions.h): `ltrim`, `rtrim`,
  `trim` and `split`. `split` is related to a reference definition: cut at
  every delimiter, trim each piece, drop the empty ones.
- `ObjParser` (src/Models/obj_parser.cpp): the line dispatch of `load`,
  `parseFace` with its 32-bit index arithmetic, and `parseVertex*`. A file
  is given as its sequence of lines.
- `ModelLoader` (src/Models/model_loader.cpp): `getFacesOfObject` and
  `getFaceNormalsOfObject`, which group indices into triples tagged with a
  running 32-bit id.
- `MeshIO` (include/Model/model_loader.h): the packed `MeshData` accessors,
  their scene-level concatenations, and the vertex ids of `getFaces`.
- `Kernel` (include/CL/cl_kernel.h): the kernel-source preprocessor.
  - Placeholder rules are tried in the source's fixed order.
  - Lines are dropped according to the scene.
  - `#LIGHT_INDICES#` is expanded.
  - `#FILE:` inclusion works over an abstract map from path to lines.
- `Scene` (include/Scene/scene.h) covers `host_scene::load` and `getLights`:
  - settings defaults and the obj block;
  - the mesh-array layout of spheres, SDFs, boxes and quads;
  - per-item material and type flags;
  - `ACTIVE_MATS` and the light list.

  The JSON document is a `Json.Value` tree with total readers.
- `Materials` and `Geometry` (include/Types/material.h,
  include/Scene/geometry.h): the flag constants, the default `Material`
  and the default `Mesh`.
- `Random` (include/Math/random.h): the three 32-bit hashes, over `bv32`,
  with their inverses.
- `Utils` (include/utils.h): `formatBytes`.
- `Interop` (include/GL/cl_gl_interop.h): the pixel reordering inside
  `saveImage`.

`Wrappers` (`Option`, `Result`), `Json` and `Bits` are supporting
definitions: the JSON value tree, and or-folds over `bv32` words.

## Model

| member | source | states |
|---|---|---|
| Flatten.Escape | src/main.cpp:84-104 | The upward walk over right children ends inside the node array or finds nothing; it terminates because parents come before their children |
| Flatten.MissTarget | src/main.cpp:81-110 | A faceless non-root node's miss target, when there is one, is a node of the array |
| Flatten.Record | src/main.cpp:61-71 | An emitted record copies the node's xyz bounds. `bbMin.w` is the face offset when the node has faces, else -1. For the root and for nodes with faces, `bbMax.w` is the offset plus one when there are two or more faces, else -1 |
| Flatten.EmittedBelow | src/main.cpp:53-59 | Every node listed as emitted lies below the bound and was reached with the skip flag clear |
| Flatten.TriCorners | src/main.cpp:115-122 | One corner record per triangle of the node |
| Flatten.TriNormals | src/main.cpp:126-129 | One normal record per triangle of the node |
| Flatten.FlattenNodes | src/main.cpp:42-135 | The loop emits exactly the records, faces and face normals of the reference definitions over all nodes. Both face arrays end with the emitted nodes' total face count |
| Flatten.FlatIsEmittedRecords | src/main.cpp:53-112 | The records are those of the emitted nodes, in input order, each computed with its own face offset |
| Flatten.EmittedBelowSpec | src/main.cpp:51-59 | A node is emitted iff the skip flag is clear on reaching it; emitted nodes are in strictly increasing order |
| Flatten.SkipRule | src/main.cpp:51-76 | An emitted faceless node with `skipNextLeft` drops the next node; a dropped node passes its own `skipNextLeft` on; the first node is never dropped |
| Flatten.FaceCounts | src/main.cpp:56-133 | Both face arrays grow by exactly the face counts of the emitted nodes, and dropped nodes add nothing |
| Flatten.FacesAt | src/main.cpp:115-133 | Face j of emitted node i sits at the node's face offset plus j. Its corners are `faces[3t..3t+2]` for `t = tri.face.w`. Its normal is `facesVN[3u..3u+2]` for `u = tri.normals.w`, with w = 0 |
| Flatten.CornersGrow | src/main.cpp:131 | Later nodes only append to the corner records |
| Flatten.NormalsGrow | src/main.cpp:132 | Later nodes only append to the normal records |
| Flatten.EscapeFindsNearestLeftChild | src/main.cpp:89-103 | The walk succeeds iff some node on the right-child chain up from the parent is a left child. It then yields that node's right sibling |
| Flatten.MissOfLeftChild | src/main.cpp:82-109 | A faceless left child's miss link is its right sibling's `id - numSkipsToHere` |
| Flatten.MissOfRightChild | src/main.cpp:84-104 | A faceless right child's miss link is the corrected id of the right sibling of the nearest left-child ancestor reached from its parent. It is -1 when there is none, including when the parent is the root |
| Flatten.RoundUpWorkSize | src/main.cpp:531-532 | The rounded global size is a multiple of the local size, at least the original and less than one local size above it |
| Flatten.RoundUpIsLeast | src/main.cpp:531-532 | The rounded size is the least multiple of the local size covering width×height pixels |
| MathHelp.PointAABB | src/Math/MathHelp.cpp:11-26 | The point box encloses every vertex, each of its six bounds is attained by a vertex, and its w parts are zero |
| MathHelp.PointAABBIsTightest | src/Math/MathHelp.cpp:11-26 | Any box enclosing all the vertices encloses both corners of the point box |
| MathHelp.BoxUnion | src/Math/MathHelp.cpp:28-48 | The union is below every given minimum and above every given maximum, and keeps the out-parameters' w |
| MathHelp.BoxUnionAttained | src/Math/MathHelp.cpp:28-48 | Every bound of the union is the bound of one of the input boxes |
| MathHelp.BoxUnionIgnoresExtraMaxima | src/Math/MathHelp.cpp:28-48 | Maxima beyond the number of minima are never read |
| MathHelp.SurfaceArea | src/Math/MathHelp.cpp:64-70 | The surface area is non-negative |
| MathHelp.SurfaceAreaSymmetric | src/Math/MathHelp.cpp:64-70 | Swapping the corners keeps the area. For an ordered box it equals 2(xy + yz + xz) of the extents |
| MathHelp.OverlapSA | src/Math/MathHelp.cpp:50-62 | The overlap area is non-negative, and positive iff all three differences are strictly positive |
| MathHelp.LongestAxis | src/Math/MathHelp.cpp:116-125 | The axis is 0 iff x is strictly the largest. It is 1 iff x ≤ y and y > z. Otherwise it is 2, so ties go to y, then to z |
| MathHelp.LongestAxisIsLongest | src/Math/MathHelp.cpp:116-125 | The chosen axis has an extent at least that of each other axis |
| MathHelp.TriangleAABB | src/Math/MathHelp.cpp:72-80 | The triangle's box encloses its three vertices, each bound is attained by one of them, and w is zero |
| MathHelp.TriangleCentroid | src/Math/MathHelp.cpp:90-96 | Three times the centroid is the sum of the vertices on xyz, and w is zero |
| MathHelp.CentroidInsideBox | src/Math/MathHelp.cpp:72-96 | The centroid lies inside the triangle's box |
| MathHelp.TriangleCenter | src/Math/MathHelp.cpp:82-88 | As written, the "center" is half the box's extent on each axis, so it is non-negative |
| MathHelp.TriangleCenterOutsideBox | src/Math/MathHelp.cpp:82-88 | A triangle away from the origin, with x coordinates in [m, m + d] and 2m > d, has its "center" outside its own box |
| MathHelp.TriangleCenterCounterexample | src/Math/MathHelp.cpp:82-88 | For the triangle (10,10,10), (12,10,10), (10,12,10) the "center" lies outside its box |
| MathHelp.TriangleBoxCenter | src/Math/MathHelp.cpp:82-88 | The corrected centre lies in the triangle's box, equidistant from both faces on every axis |
| MathHelp.TriCalcAABB | src/Math/MathHelp.cpp:205-221 | The triangle keeps its face and normal records, and its new box encloses the three vertices its face names |
| MathHelp.TriCalcAABBIgnoresNormals | src/Math/MathHelp.cpp:205-221 | With tessellation off, the result does not depend on the normals and is the triangle box of the indexed vertices |
| LinearAlgebra.Slot | include/Math/linear_algebra.h:48-49 | `operator[]` selects slot 0, 1 or 2 for those indices and slot 3 for every other index |
| LinearAlgebra.Fract | include/Math/linear_algebra.h:108 | `fract` lies in [0, 1) and differs from its argument by an integer |
| LinearAlgebra.IndexReadsSlot | include/Math/linear_algebra.h:48-49 | Reading index i reads the memory component of its slot: x, y, z, or w for any other index |
| LinearAlgebra.SetIndexThenIndex | include/Math/linear_algebra.h:48 | A write through `operator[]` is read back at the same slot; the other slots keep their values |
| LinearAlgebra.ConstructorsFillSlots | include/Math/linear_algebra.h:39-43 | The one-, two- and three-argument constructors and the default constructor fill the missing components with the documented values |
| LinearAlgebra.NotEqualIgnoresW | include/Math/linear_algebra.h:73 | `!=` holds iff the xyz parts differ. Vectors differing only in w are different values, yet `!=` reports them equal |
| LinearAlgebra.MinMax4Bounds | include/Math/linear_algebra.h:89-90 | `min4` and `max4` are componentwise lower and upper bounds of both arguments, each component attained by one of them |
| LinearAlgebra.MinMax3AreXYZOf4 | include/Math/linear_algebra.h:89-104 | `min3` and `max3` are the xyz parts of `min4` and `max4`, with w zero |
| LinearAlgebra.DotCrossUseXYZ | include/Math/linear_algebra.h:97-98 | `dot` and `cross` read only xyz. `dot` is symmetric. `cross` has zero w, is antisymmetric and is orthogonal to both arguments |
| LinearAlgebra.ScalarFirstOperators | include/Math/linear_algebra.h:84-87 | `f + v` and `f * v` are the vector operators applied to `vec4(f)` and v, in either order. `f - v` is `-(v - f)`, that is `f + (-v)` |
| StringHelpers.SkipSpaces | include/string_helper_functions.h:10-14 | The first non-space position at or after i lies in [i, \|s\|] |
| StringHelpers.SkipSpacesSkipsSpaces | include/string_helper_functions.h:10-14 | `ltrim` removes only whitespace, and what it keeps does not start with whitespace |
| StringHelpers.SkipSpacesBack | include/string_helper_functions.h:17-21 | The end of the kept prefix lies at or before the given position |
| StringHelpers.SkipSpacesBackSkipsSpaces | include/string_helper_functions.h:17-21 | `rtrim` removes only whitespace, and what it keeps does not end with whitespace |
| StringHelpers.TrimIsSlice | include/string_helper_functions.h:24-27 | `trim` keeps a contiguous slice. Everything before and after the slice is whitespace, and the slice has none at either end |
| StringHelpers.TrimOfTrimmed | include/string_helper_functions.h:24-27 | A string without whitespace at its ends is left unchanged |
| StringHelpers.TrimIdempotent | include/string_helper_functions.h:24-27 | Trimming twice is trimming once |
| StringHelpers.TrimEmptyIffAllSpace | include/string_helper_functions.h:24-27 | `trim` gives the empty string iff the input is all whitespace |
| StringHelpers.Find | include/string_helper_functions.h:37 | `find` returns the first occurrence at or after the start position, or `npos` when there is none |
| StringHelpers.NextPos | include/string_helper_functions.h:37-38 | The end of the next piece lies between the cursor and the end of the string |
| StringHelpers.Token | include/string_helper_functions.h:39-41 | A piece yields its trim exactly when that is non-empty, and nothing otherwise |
| StringHelpers.SegmentsFrom | include/string_helper_functions.h:35-44 | A string splits into at least one piece, even when it is empty |
| StringHelpers.SegmentsFromJoin | include/string_helper_functions.h:35-44 | Gluing the pieces back together with the delimiter restores the input |
| StringHelpers.SegmentsJoin | include/string_helper_functions.h:35-44 | The pieces of a string, joined with the delimiter, are the string |
| StringHelpers.SegmentsAvoidDelim | include/string_helper_functions.h:37-39 | No piece contains the delimiter |
| StringHelpers.SplitLoopIsFlatMap | include/string_helper_functions.h:35-44 | The `do … while` loop visits exactly the pieces between delimiters, left to right. Its early stop skips only an empty last piece |
| StringHelpers.TokensOfPieces | include/string_helper_functions.h:39-41 | Every kept token is non-empty, trimmed and free of the delimiter |
| StringHelpers.SplitIsTrimmedSegments | include/string_helper_functions.h:29-46 | `split` cuts at every delimiter, trims every piece and drops the empty ones, keeping the input order |
| StringHelpers.SplitTokens | include/string_helper_functions.h:39-44 | Every token of `split` is non-empty, already trimmed and free of the delimiter |
| StringHelpers.SplitWithoutDelim | include/string_helper_functions.h:29-46 | The empty string splits into nothing. A string without the delimiter splits into its trim, or into nothing when the trim is empty |
| ObjParser.KindOf | src/Models/obj_parser.cpp:62-105 | Each of the six line kinds is recognised iff the line starts with that kind's characters, reading '\0' past the end |
| ObjParser.Uint | src/Models/obj_parser.cpp:128-136 | Storing `atol`'s result in a `cl_uint` keeps a value below 2^32 |
| ObjParser.Dec | src/Models/obj_parser.cpp:138 | `a - 1` on a `cl_uint` is the predecessor, except that 0 wraps to 2^32 - 1 |
| ObjParser.TokenIndices | src/Models/obj_parser.cpp:130-163 | A `v//vn` token gives v-1 and vn-1 and no texture index. Otherwise one field gives v, two give v and vt, and three or more give v, vt and vn |
| ObjParser.FaceFields | src/Models/obj_parser.cpp:125-131 | There is one field pair per token after the keyword, each split at "/" and at "//" |
| ObjParser.FaceFromVertices | src/Models/obj_parser.cpp:127-164 | The token loop pushes one vertex index per token, in order, each from that token's vertex field |
| ObjParser.ParseFaceVertices | src/Models/obj_parser.cpp:119-165 | `parseFace` pushes exactly one vertex index per token after the keyword, in order, each the field's number minus one |
| ObjParser.IndexOfExamples | src/Models/obj_parser.cpp:136-138 | Field "1" is index 0. Field "0" and a field of 2^32 both wrap round to 2^32 - 1 |
| ObjParser.Triple | src/Models/obj_parser.cpp:167-181 | A vertex or normal line gives exactly three numbers, from its parts 1 to 3 |
| ObjParser.TexCoord | src/Models/obj_parser.cpp:183-191 | A texture line gives u, v and a weight, which is 0 when the line has no fourth part |
| ObjParser.AddFace | src/Models/obj_parser.cpp:95-103 | A face's indices are appended to the three global lists, and the number of objects is unchanged |
| ObjParser.Load | src/Models/obj_parser.cpp:43-106 | After `load` the state is that of the lines read in order from the cleared state, whatever the parser held before. The face-material list stays empty |
| ObjParser.IgnoredLines | src/Models/obj_parser.cpp:62-105 | Comment lines, and lines not starting with o, v or f, change nothing |
| ObjParser.ObjectLineAppends | src/Models/obj_parser.cpp:67-73 | An `o` line appends an object named by its second part, with no faces, and changes nothing else |
| ObjParser.VertexLinesAppendThree | src/Models/obj_parser.cpp:75-88 | `v `, `vn ` and `vt ` lines append exactly three numbers to their own list. Other `v` lines append nothing, and nothing else changes |
| ObjParser.FaceLineAppends | src/Models/obj_parser.cpp:90-104 | An `f ` line appends its indices to the global lists and to the last object's lists. Before the first `o` line only the globals grow, and the vertex lists are untouched |
| ObjParser.LoadCounts | src/Models/obj_parser.cpp:57-106 | After `load` there is one object per `o` line and three numbers per vertex, normal and texture line |
| ModelLoader.RunningId | src/Models/model_loader.cpp:25 | The id stored in the `cl_uint` w is below 2^32 and congruent to offset + size modulo 2^32 |
| ModelLoader.AppendTriples | src/Models/model_loader.cpp:20-27 | The loop appends \|ids\|/3 records and keeps the earlier ones. Record k holds triple k. Its w is the running id of its position |
| ModelLoader.GetFacesOfObject | src/Models/model_loader.cpp:15-28 | \|facesV\|/3 records are appended and earlier records are kept. The corners of the new records are exactly `facesV`, and each w is offset plus the output size at that point |
| ModelLoader.GetFaceNormalsOfObject | src/Models/model_loader.cpp:30-43 | The same four properties as `getFacesOfObject`, over `facesVN` |
| ModelLoader.AppendedCorners | src/Models/model_loader.cpp:20-27 | Records whose xyz are the consecutive triples of the indices have exactly those indices as corners |
| MeshIO.PtrOffset | include/Model/model_loader.h:60-75 | The pointer accessors start at offsets 0, 3n, 6n and 8n of `second`, where n = `first[1]` |
| MeshIO.Slice | include/Model/model_loader.h:122-125 | Each attribute block has width × n floats and is read from `second` starting at its pointer accessor's offset |
| MeshIO.SlicesAdjacent | include/Model/model_loader.h:60-75 | The four blocks are adjacent: each ends where the next starts, and together they make up `second[..11n]` |
| MeshIO.Indices | include/Model/model_loader.h:77-80 | `getIndices` is `first` without its two header entries |
| MeshIO.Pack3 | include/Model/model_loader.h:127-137 | Packing makes one vector per triple, each with w = 0 |
| MeshIO.Unpack3 | include/Model/model_loader.h:127-137 | Unpacking gives three floats per vector |
| MeshIO.Pack3RoundTrip | include/Model/model_loader.h:127-137 | Unpacking a pack gives back its input, and packing the unpacked form of w = 0 vectors gives them back |
| MeshIO.Pack3At | include/Model/model_loader.h:132-135 | Vector k of a pack is (xs[3k], xs[3k+1], xs[3k+2], 0) |
| MeshIO.Pack3Append | include/Model/model_loader.h:152-163 | Packing a concatenation of whole triples packs the parts in order |
| MeshIO.Group3 | include/Model/model_loader.h:82-92 | `getIndices4` makes one record per triple, each with w = 0 |
| MeshIO.Corners | include/Model/model_loader.h:82-92 | A list of records has three corners per record |
| MeshIO.Group3At | include/Model/model_loader.h:87-90 | Record k holds (xs[3k], xs[3k+1], xs[3k+2], 0) |
| MeshIO.Group3RoundTrip | include/Model/model_loader.h:82-92 | The corners of the records are the input indices |
| MeshIO.CornersOfTriples | include/Model/model_loader.h:82-92 | Records holding the consecutive triples of a list have that list as corners, whatever their w |
| MeshIO.Indices4 | include/Model/model_loader.h:82-92 | One record per index triple of the mesh, whose corners are `getIndices` |
| MeshIO.Slice4 | include/Model/model_loader.h:127-137 | `getPositions4`, `getNormals4` and `getTangents4` give one vector per vertex, which unpack to the block |
| MeshIO.LastReadInside | include/Model/model_loader.h:222-225 | The stride-3 loop reads inside its input iff the length is a multiple of three |
| MeshIO.TexCoordsStrideOverruns | include/Model/model_loader.h:217-227 | `getTextureCoords4` as written reads inside the block iff n is a multiple of 3. For one vertex it reads index 2 of a two-element list |
| MeshIO.TexCoords4AsWritten | include/Model/model_loader.h:217-227 | Where the source is defined, it makes 2n/3 vectors from n vertices, so the vectors do not line up with vertices |
| MeshIO.Pack2 | include/Model/model_loader.h:217-227 | The corrected packing makes one (u, v, 0, 0) vector per pair |
| MeshIO.Unpack2 | include/Model/model_loader.h:217-227 | Unpacking gives two floats per vector |
| MeshIO.Pack2RoundTrip | include/Model/model_loader.h:217-227 | Unpacking the corrected pack gives back the texture coordinates |
| MeshIO.TexCoords4 | include/Model/model_loader.h:217-227 | The corrected `getTextureCoords4` gives one vector per vertex, and they unpack to the texture block |
| MeshIO.FlattenPrefix | include/Model/model_loader.h:94-105 | The concatenation of the first j lists is a prefix of the whole concatenation |
| MeshIO.FlattenStep | include/Model/model_loader.h:98-102 | Each iteration of the scene-level loop appends the next mesh's list |
| MeshIO.FlattenAt | include/Model/model_loader.h:94-105 | Element k of list j sits at the lengths of the lists before it plus k |
| MeshIO.FlattenPack3 | include/Model/model_loader.h:152-163 | Packing mesh by mesh and then concatenating equals packing the concatenation |
| MeshIO.Slices | include/Model/model_loader.h:139-150 | The scene-level loop reads each mesh's block, in mesh order |
| MeshIO.BeforeScaled | include/Model/model_loader.h:139-150 | A block of width w × n per mesh starts at w times the vertex count of the meshes before it |
| MeshIO.SlicesBefore | include/Model/model_loader.h:139-150 | Mesh j's part of a scene-level block starts at width × the vertex count of the meshes before j |
| MeshIO.SceneSliceAt | include/Model/model_loader.h:139-150 | Element k of mesh j's block is found at width × (vertices before j) + k of the scene-level block |
| MeshIO.SceneSlice4IsPacked | include/Model/model_loader.h:152-163 | The scene-level `*4` result is the packing of the scene-level block |
| MeshIO.IndexLists | include/Model/model_loader.h:94-105 | The scene-level loop takes each mesh's `getIndices`, in order |
| MeshIO.SceneIndicesAt | include/Model/model_loader.h:94-105 | The scene-level indices hold each mesh's local indices unchanged, not rebased |
| MeshIO.SceneIndices4Corners | include/Model/model_loader.h:107-118 | The corners of the scene-level `getIndices4` are the scene-level `getIndices` |
| MeshIO.GetFaces | include/Model/model_loader.h:301-342 | There is one mesh per input mesh and one face per index triple. Each corner id is the local index plus the `unsigned` running total of the earlier meshes' vertex counts |
| MeshIO.ShiftFaces | include/Model/model_loader.h:315-336 | Every face of a mesh has its indices moved by the offset |
| MeshIO.FaceIdsInMeshRange | include/Model/model_loader.h:305-337 | With local indices and fewer than 2^32 vertices, mesh j's ids lie in its own range, so meshes share no vertex id |
| MeshIO.IndexRecordAt | include/Model/model_loader.h:82-92 | Record t of `getIndices4` holds entries 3t + 2 to 3t + 4 of `first` |
| Kernel.Decimal | include/CL/cl_kernel.h:119 | `std::to_string` of a non-negative number is a non-empty string of decimal digits |
| Kernel.DecimalRoundTrip | include/CL/cl_kernel.h:119 | Reading the digits back gives the number, and only 0 is written with a leading zero |
| Kernel.IntText | include/CL/cl_kernel.h:119-173 | A signed setting is written with a leading '-' iff it is negative, followed by the decimal digits of its magnitude |
| Kernel.DecimalAll | include/CL/cl_kernel.h:392-394 | One decimal text per light index, in order |
| Kernel.IndexList | include/CL/cl_kernel.h:392-394 | The `#LIGHT_INDICES#` loop writes the decimals joined by single commas |
| Kernel.IndexListEnds | include/CL/cl_kernel.h:392-394 | The index list neither starts nor ends with a comma |
| Kernel.SegmentsOfJoin | include/CL/cl_kernel.h:392-394 | Cutting a join at a separator that no part contains gives back the parts |
| Kernel.IndexListSplits | include/CL/cl_kernel.h:392-394 | Cut at its commas, the index list gives back the decimals of the indices |
| Kernel.RenderRules | include/CL/cl_kernel.h:47-63 | There are two render-setting rules |
| Kernel.MediumRules | include/CL/cl_kernel.h:66-112 | There are five fog rules with a global medium, and none without |
| Kernel.SettingRules | include/CL/cl_kernel.h:115-176 | There are seven bounce and marching rules |
| Kernel.GeometryRules | include/CL/cl_kernel.h:180-222 | There are four geometry rules |
| Kernel.MaterialRules | include/CL/cl_kernel.h:226-345 | There are ten material rules |
| Kernel.AbsRules | include/CL/cl_kernel.h:347-363 | There are two absorptive-refraction rules |
| Kernel.LightRules | include/CL/cl_kernel.h:367-400 | There are three light rules with lights, and none without |
| Kernel.SdfRules | include/CL/cl_kernel.h:404-438 | There are four SDF rules |
| Kernel.FirstMatch | include/CL/cl_kernel.h:47-442 | The chosen rule occurs in the line and no earlier rule does; when no rule is chosen, none occurs |
| Kernel.Substitute | include/CL/cl_kernel.h:48-51 | `replace` swaps the first occurrence of the placeholder for the text and keeps the rest |
| Kernel.RewriteByFirstRule | include/CL/cl_kernel.h:47-438 | The first matching rule decides the line, and later rules are never consulted |
| Kernel.UnmatchedLine | include/CL/cl_kernel.h:442 | A line that no rule matches is emitted unchanged, with a newline |
| Kernel.AtMostOneLine | include/CL/cl_kernel.h:47-442 | Each input line contributes at most one output line |
| Kernel.LaterOccurrencesKept | include/CL/cl_kernel.h:48-51 | Only the first occurrence is replaced, and later occurrences survive, shifted by the change in length |
| Kernel.GeometryRuleAt | include/CL/cl_kernel.h:180-222 | Each geometry rule sits at its place in the fixed order |
| Kernel.MaterialRuleAt | include/CL/cl_kernel.h:226-345 | Each material rule sits at its place in the fixed order |
| Kernel.GeometryLine | include/CL/cl_kernel.h:180-222 | A line first matched by a geometry placeholder is kept with the flag value iff the scene has that geometry, and dropped otherwise |
| Kernel.MaterialLine | include/CL/cl_kernel.h:226-345 | A line first matched by a material placeholder is kept with the flag value iff `ACTIVE_MATS` has that bit, and dropped otherwise |
| Kernel.AbsRulesAlwaysKeep | include/CL/cl_kernel.h:347-363 | `#ABS_REFR#` and `#ABS_REFR2#` follow the material rules and are always substituted |
| Kernel.RenderSettingLines | include/CL/cl_kernel.h:47-63 | `#GLOBAL_MEDIUM#` and `#ALPHA_TESTING#` become "#define …" when their flag is set and the empty string otherwise |
| Kernel.LightIndicesText | include/CL/cl_kernel.h:388-399 | With lights, the `#LIGHT_INDICES#` text cut at commas gives the first `LIGHT_COUNT` indices, and it does not end in a comma |
| Kernel.ConditionalRulesAvoid | include/CL/cl_kernel.h:66-112 | The fog rules and the light rules carry exactly their own placeholders |
| Kernel.MediumRulesOnlyWithMedium | include/CL/cl_kernel.h:66 | A fog placeholder is recognised iff the scene has a global medium |
| Kernel.LightRulesOnlyWithLights | include/CL/cl_kernel.h:367 | A light placeholder is recognised iff the scene has a light |
| Kernel.FogLineWithoutMedium | include/CL/cl_kernel.h:66-112 | Without a global medium, a line whose only placeholders are fog placeholders passes through unchanged |
| Kernel.LightLineWithoutLights | include/CL/cl_kernel.h:367-400 | Without lights, a line whose only placeholders are light placeholders passes through unchanged |
| Kernel.CombineAssociative | include/CL/cl_kernel.h:33-52 | Appending outputs is associative, and the first failure wins |
| Kernel.ParseAppend | include/CL/cl_kernel.h:31-443 | Processing a concatenation of lines gives the output of the first part followed by that of the second |
| Kernel.ParseWithoutIncludes | include/CL/cl_kernel.h:31-443 | Without `#FILE:` lines nothing fails, and every line is rewritten in order |
| Kernel.IncludeLine | include/CL/cl_kernel.h:33-40 | A `#FILE:` line stands for the processed contents of "../kernels/" followed by the rest of the line |
| Kernel.MissingInclude | include/CL/cl_kernel.h:21-38 | Including a missing file fails with that path, whatever follows it |
| Kernel.FuelMonotone | include/CL/cl_kernel.h:38 | More nesting depth never changes a result that was already reached |
| Scene.LoadSettings | include/Scene/scene.h:130-139 | Each setting takes the document's value when present, else its default 12, 4, 4, 12, 12, 128 or 64 |
| Scene.SetColor | include/Scene/scene.h:81-86 | Colour component k takes item k for the first min(n, 4) items, and the others keep their values |
| Scene.ParseMaterial | include/Scene/scene.h:78-103 | The colour, roughness and type each change only when given with the right type; texture and flag are kept |
| Scene.MaterialTypeSelectsFlag | include/Scene/scene.h:92-94 | Types 0 to 11 select exactly the twelve material flags. Types 16 and above leave no bit in the 16-bit field |
| Scene.SetXYZ | include/Scene/scene.h:208-214 | Position components 0 to 2 take the first three numbers, and w is kept |
| Scene.Numbers | include/Scene/scene.h:267-271 | The first n numbers of an array |
| Scene.WriteNumbers | include/Scene/scene.h:267-271 | Joker slots below n take the numbers, and the rest keep their values |
| Scene.PlaceItem | include/Scene/scene.h:202-226 | An item sets its kind's type, with the subtype bit for an SDF, and applies its material. A quad's `joker[12]` is -1 for a true `flip_normal` and 1 otherwise |
| Scene.ParamCount | include/Scene/scene.h:267-271 | All parameters are written when there are at most sixteen |
| Scene.Resize | include/Scene/scene.h:200 | `resize` keeps the existing meshes and fills the rest with default meshes |
| Scene.Place | include/Scene/scene.h:202-227 | The placement loop keeps the number of meshes |
| Scene.ItemBits | include/Scene/scene.h:92-94 | One `ACTIVE_MATS` contribution per item, in array order |
| Scene.EmptyTable | include/Scene/scene.h:41-46 | A fresh scene has zero counts, no meshes and no kind read |
| Scene.KindBits | include/Scene/scene.h:193-368 | One contribution per item of a kind's array |
| Scene.SetHas | include/Scene/scene.h:196 | Setting an `H_*` flag leaves the counts and meshes alone |
| Scene.Recount | include/Scene/scene.h:197-199 | The kind's count is set and added to `s[7]`. The other counts keep their values, the total stays their sum, and the kind's start is the old total |
| Scene.LoadKind | include/Scene/scene.h:193-368 | A kind's block sets its count to its array's size and grows the total and the meshes by it, leaving the other counts alone |
| Scene.LoadKindKeeps | include/Scene/scene.h:200 | A kind's block keeps the meshes of the kinds before it |
| Scene.LoadKindPlaces | include/Scene/scene.h:241 | Item j of a kind's array is placed over a default mesh at `arr_pos + j` |
| Scene.KindAt | include/Scene/scene.h:193-232 | The i-th array block reads the kind whose count slot is i |
| Scene.Stage | include/Scene/scene.h:193-368 | After the first n blocks, the counts of those kinds are set, the later counts are zero, and there is one mesh per counted item |
| Scene.LoadTable | include/Scene/scene.h:193-368 | The counts are the four array sizes, and there is one mesh per counted item |
| Scene.StagePlaces | include/Scene/scene.h:193-368 | Item j of a kind lands at its kind's start plus j, and later blocks keep it there |
| Scene.StageNewest | include/Scene/scene.h:241-337 | The block of a kind places its items after the meshes of the kinds before it |
| Scene.StageStep | include/Scene/scene.h:193-368 | Each stage is the previous stage followed by one kind's block |
| Scene.StageKeeps | include/Scene/scene.h:200-335 | A later block keeps the meshes already placed |
| Scene.LoadTablePlaces | include/Scene/scene.h:199-337 | Spheres fill [0, n0), SDFs start at n0, boxes at n0 + n1 and quads at n0 + n1 + n2; each mesh is its item placed over a default mesh |
| Scene.KindStarts | include/Scene/scene.h:199-337 | The start of each kind's meshes, spelled out, and the total |
| Scene.ObjMaterial | include/Scene/scene.h:152-187 | A given colour array sets colour x, y and z from its items 0 to 2, and colour w is always kept. A given number sets the roughness. Without them, colour and roughness are kept. The type is kept when none is given, and texture and flag are always kept |
| Scene.LoadObj | include/Scene/scene.h:145-150 | `BUILD_BVH` holds iff the scene's "obj" is an object with a string "path". With it the path is read, and without it nothing is |
| Scene.LightsBelowSpec | include/Scene/scene.h:65-72 | The reference light list holds exactly the indices below n whose material has the LIGHT bit, in strictly increasing order |
| Scene.GetLights | include/Scene/scene.h:65-72 | `getLights` appends exactly the light indices below `object_count.s[7]`, in order, and counts one per index |
| Scene.TypeContributions | include/Scene/scene.h:94-176 | One `ACTIVE_MATS` contribution for the obj block and one per mesh |
| Scene.ContributionsUpTo | include/Scene/scene.h:94-176 | After n blocks, one contribution for the obj block and one per mesh placed so far |
| Scene.Load | include/Scene/scene.h:105-372 | A loaded scene's counts and meshes have the mesh-table layout |
| Scene.LoadLayout | include/Scene/scene.h:193-368 | In a loaded scene each kind's count is its array's size, and item j of a kind sits at its kind's start plus j |
| Scene.LoadMeshTypes | include/Scene/scene.h:245-260 | A loaded mesh's type is its kind's flag, or SDF \| (1 << type) for an SDF. A quad's `joker[12]` is its flip sign |
| Scene.LoadWithoutScene | include/Scene/scene.h:142 | Without a "scene" member nothing is loaded: no meshes, lights, BVH or material bits |
| Scene.LoadSettingsAndObj | include/Scene/scene.h:120-146 | A loaded scene has the settings of `LoadSettings` and the medium flag of the document, and `BUILD_BVH` iff there is an obj with a path |
| Scene.LoadLights | include/Scene/scene.h:65-72 | After `load`, `LIGHT_INDICES` lists exactly the light meshes in order, and `LIGHT_COUNT` is its length |
| Scene.ContributionOfItem | include/Scene/scene.h:94 | Item j of a kind contributes after the obj block and after the items of the kinds before it |
| Scene.ContributionOfNewest | include/Scene/scene.h:94 | The block of a kind appends its items' contributions after those of the earlier kinds |
| Scene.ContributionOfObj | include/Scene/scene.h:176 | The obj block contributes first |
| Scene.LoadActiveMats | include/Scene/scene.h:94-176 | `ACTIVE_MATS` is the or of all contributions: the obj material's type first, then item j of a kind at position 1 + its kind's start + j |
| Scene.ActiveMatsHoldsItem | include/Scene/scene.h:94 | Every bit of an item's material type is in `ACTIVE_MATS` |
| Scene.ActiveMatsHoldsObj | include/Scene/scene.h:176 | Every bit of the obj material's type is in `ACTIVE_MATS` |
| Scene.ActiveMatsOnlyContributions | include/Scene/scene.h:94-176 | A flag that no material contributes is not in `ACTIVE_MATS`, so the or-accumulation only gains bits that were contributed |
| Scene.SubtypeBitIsSdfFlag | include/Scene/scene.h:260 | SDF types 5 to 8 give exactly the four SDF subtype flags |
| Materials.DefaultMaterial | include/Types/material.h:78 | The default material is white with w = 0, roughness 0, type DIFF (a single bit), no texture, and `b` set |
| Materials.MaterialFlagsAreSingleBits | include/Types/material.h:9-31 | There are twelve material flags, each a single bit |
| Materials.MaterialFlagsDisjoint | include/Types/material.h:9-31 | No two material flags share a bit, so they are pairwise distinct |
| Materials.MaterialFlagsCoverLowBits | include/Types/material.h:9-31 | Together the flags fill exactly bits 0 to 11, so they fit the 16-bit field |
| Materials.TextureFlagsAreBits | include/Types/material.h:60-66 | `TEX_NULL` is 0, and `TEX_1` to `TEX_4` are four disjoint single bits, matching `TOTAL_TEX_TYPES` |
| Geometry.DefaultMesh | include/Scene/geometry.h:20-26 | A default mesh has type SPHERE, the default material and the zero position |
| Geometry.SdfType | include/Scene/scene.h:245-260 | An SDF mesh's type holds both the SDF bit and its subtype bit |
| Geometry.GeometryFlagsAreBits | include/Scene/geometry.h:8-12 | SPHERE, BOX, SDF and QUAD are `TOTAL_GEOM_TYPES` disjoint single bits inside bits 0 to 3 |
| Geometry.SdfFlagsAreBits | include/Scene/geometry.h:14-18 | The SDF subtypes are `TOTAL_SDF_TYPES` disjoint single bits inside bits 5 to 8 |
| Geometry.SdfTypeDecodes | include/Scene/geometry.h:9-18 | SDF \| subtype decodes back into SDF and that subtype, with no other kind or subtype set |
| Random.BJXorShift | include/Math/random.h:11-20 | 0 is a fixed point |
| Random.BJXorShiftRoundTrip | include/Math/random.h:11-20 | Undoing the five steps last to first gives the seed back |
| Random.BJXorShiftInjective | include/Math/random.h:11-20 | Distinct seeds give distinct hashes |
| Random.GMXorShift | include/Math/random.h:26-33 | 0 is a fixed point |
| Random.GMXorShiftRoundTrip | include/Math/random.h:26-33 | Undoing the three xor-shifts gives the seed back |
| Random.GMXorShiftInjective | include/Math/random.h:26-33 | Distinct seeds give distinct hashes |
| Random.WangHashRoundTrip | include/Math/random.h:39-48 | Undoing the five steps, including the odd multiplications modulo 2^32, gives the seed back |
| Random.WangHashInjective | include/Math/random.h:39-48 | Distinct seeds give distinct hashes |
| Utils.Pow1024 | include/utils.h:33-44 | Every power of 1024 is at least 1 |
| Utils.Level | include/utils.h:29-45 | The reference unit level is one of the four units |
| Utils.FormatBytes | include/utils.h:29-45 | The unit is the one the level names. The value times that power of 1024 gives the byte count back. Below "GB" the value is under 1024, above "bytes" it is at least 1, and counts below 1024 are left as they are |
| Interop.ReorderPixels | include/GL/cl_gl_interop.h:126-138 | 3n bytes become 4n. Output pixel j is input pixel n-1-j with its colour bytes reversed, and every fourth byte is 255 |

## Left out

- The BVH builder is not part of this model: the SAH split, traversal
  ordering and skip marking, and the library-backed builder in
  src/BVH/bvh.cpp. What the flattener relies on from it is stated as the
  precondition `Flatten.WellFormed`: parents come before their children,
  and parent and child links agree. A node with a left child also has a
  right child, and `numSkipsToHere <= id`.
- Flatten.FlattenNodes: the `dummy` node that the walk allocates and never
  frees (src/main.cpp:86) is replaced by a loop over indices.
- Flatten.FlattenNodes: the face record's w is left uninitialised in the
  source (the material line is commented out), so face records are
  modelled as triples (`Corner3`).
- Flatten.FlattenNodes: the buffer sizes and uploads after the loop are
  left out.
- Flatten.FlattenNodes: the precondition `Flatten.Readable` requires every
  face an emitted node names to lie inside `faces` and `facesVN`. The source
  reads `faces[3t..3t+2]` and `facesVN[3u..3u+2]` without a bounds check
  (src/main.cpp:120-128). An out-of-range face index is undefined behaviour
  there, so such inputs are excluded.
- OpenCL and OpenGL plumbing, the render loop, the camera and the UI
  callbacks are left out. Only the pixel reordering of `saveImage` is
  modelled; the readback and the PNG encoding are left out.
- File I/O is replaced by data:
  - an OBJ file is a sequence of lines;
  - a kernel file is a map from path to lines;
  - a JSON document is a `Json.Value` tree.

  The rapidjson parser itself is left out.
- `atol` and `atof` are left out as functions. They are parameters
  (`string -> int`, `string -> real`). `ALPHA_TESTING` and the fog's
  `absorptionOnly` are fields of the preprocessor's context.
- Floating point is modelled over `real`: there is no IEEE rounding, NaN or
  infinity. `formatBytes`' float division is exact in the model.
- The global-medium arithmetic in `load` (include/Scene/scene.h:120-127) is
  left out; only `HAS_GLOBAL_MEDIUM` is modelled. The float-valued kernel
  substitutions (fog parameters, `#INV_LIGHT_COUNT#`) are given as
  ready-made texts in `Kernel.FloatTexts`.
- Scene.ParseMaterial: the `absorptive` branch (include/Scene/scene.h:95-101)
  is left out, because it tests a `REFR` constant that no header of the
  system defines.
- Scene.ObjMaterial: the obj block's `absorptive` branch
  (include/Scene/scene.h:177-186) is left out for the same reason. Its
  effect on `t` and on `ACTIVE_MATS` is not modelled.
- Scene.Load: the document must satisfy `Scene.DocumentOk`. On any other
  document the source's behaviour is undefined: rapidjson asserts, a shift
  is out of range, or a write overruns `joker`. `DocumentOk` excludes:
  - a document that is not an object;
  - a "scene" member that is not an object;
  - a "settings" member that is not an object, or whose present settings
    are not integers (`GetInt`);
  - an item of "spheres", "sdfs", "boxes" or "quads" that is not an object,
    and a "material" member that is not an object;
  - any array read with `GetFloat` whose items are not numbers, or which is
    shorter than the source reads without a size check. These are "pos" (3
    items), "scale" (3), "vertices" (12), the obj material's "color" (3) and
    "params";
  - a material type or SDF type outside [0, 31), where `1 << type` on `int`
    is undefined;
  - more than sixteen SDF "params".

  The global-medium member is not constrained, because its values are not
  modelled.
- Scene.Load: `assert` is modelled as in a build with `NDEBUG` defined,
  where it does nothing. A document without a "scene" member fails the
  assert at include/Scene/scene.h:117 in a debug build. In the model it
  takes the false branch of the test at line 142 (`Scene.LoadWithoutScene`).
- Scene.ParamCount: more than sixteen SDF parameters overrun `joker` in
  the source, which is undefined behaviour. The model writes only the
  first sixteen. `Scene.Load` never reaches that case, because `DocumentOk`
  excludes it. Only `Scene.PlaceItem` and `Scene.LoadTable`, applied to
  items outside `Scene.ItemOk`, show it.
- Geometry.DefaultMesh: `Mesh()` (include/Scene/geometry.h:20-26) leaves
  only `joker` uninitialised. The model gives it as an arbitrary parameter
  `junk`. `position` comes from the `vec4` default constructor, which zeroes
  all four components (include/Math/linear_algebra.h:39). `mat` comes from
  `Material()` (include/Types/material.h:78). The model gives both exactly.
- The `#FILE:` recursion has a fuel bound. Cyclic includes make the source
  recurse without end; in the model they fail with `TooDeep`.
  `Kernel.FuelMonotone` shows that more fuel never changes a result that
  was reached. The source's `exit(1)` on a missing file is a `Failure`.
- MeshIO.GetFaces: only the vertex ids and counts of the faces are
  modelled. The attribute reads at lines 320-332 index the scene-level
  arrays at `offset + f.s[i]` without the per-attribute width, and are
  left out.
- MeshIO.GetFaces: the running `offset` is an `unsigned int` (modulo
  2^32). The 64-bit `size_t` sums elsewhere are unbounded in the model.
- The scene-level `getTextureCoords4` (include/Model/model_loader.h:242-253)
  is left out. It would append the per-mesh result, which is undefined
  unless n is a multiple of 3 (see Findings).
- ModelLoader.GetFacesOfObject, ModelLoader.GetFaceNormalsOfObject,
  MeshIO.Indices4 and MeshIO.GetFaces require the index lists to hold whole
  triples (`|ids| % 3 == 0`, `MeshIO.Triangles`). Their loops read
  `i + 1` and `i + 2` after testing only `i`
  (src/Models/model_loader.cpp:20-23, include/Model/model_loader.h:87-90).
  A non-triangle face such as `f 1 2 3 4` makes `parseFace` push four
  indices, and then those loops read past the end. That is undefined
  behaviour in the source, so meshes with non-triangle faces are excluded.
- ObjParser.Load: the object list's `facesMtl` is never filled by the
  source, and the model leaves it empty. The timing and log message are
  left out.
- ObjParser.Load: the precondition `LinesOk` excludes lines that the source
  reads out of bounds, which is undefined behaviour:
  - an `o` line without a name (src/Models/obj_parser.cpp:70 reads `parts[1]`);
  - a `v ` or `vn ` line with fewer than three numbers (lines 170-172 and
    178-180 read `parts[1..3]`);
  - a `vt ` line with fewer than two numbers (lines 188-189);
  - a face token whose "/" split is empty and which is not `v//vn`
    (line 147 reads `e0[0]`).
- Text is modelled as sequences of Dafny characters, not the bytes of
  `std::string`. Every character the code compares against is ASCII:
  whitespace, the delimiters, the OBJ line prefixes and the kernel
  placeholders. For those, characters and bytes behave alike.
- StringHelpers.Split: the source stores `find`'s result in an `unsigned
  int`. That equals the model for strings shorter than 2^32 characters.
  An empty delimiter makes the source loop forever, so `|delim| > 0` is
  required.
- The parameterised `Material` constructor
  (include/Types/material.h:79) is the datatype constructor
  `Materials.Material`, which stores each argument unchanged by
  definition.
- The older duplicates include/material.h and include/CL/cl_help.h are
  left out.

## Findings

| source | as written | input that shows it | evidently intended | confidence | as-written member | corrected member |
|---|---|---|---|---|---|---|
| src/Math/MathHelp.cpp:82-88 | `getTriangleCenter` returns `(bbMax - bbMin) / 2`, half the box's extent | the triangle (10,10,10), (12,10,10), (10,12,10): its box is [10,12]×[10,12]×[10,10], but the result is (1, 1, 0), outside the box | `(bbMin + bbMax) / 2`, the centre of the triangle's box | high (not executed) | MathHelp.TriangleCenterCounterexample | MathHelp.TriangleBoxCenter |
| include/Model/model_loader.h:217-227 | `getTextureCoords4` packs the 2n texture floats three at a time, like the xyz attributes | a single-vertex mesh (n = 1): the block has two elements and the loop reads index 2 | one (u, v, 0, 0) vector per vertex, read two at a time | high (not executed) | MeshIO.TexCoordsStrideOverruns | MeshIO.TexCoords4 |

=== FILE: bits.dfy ===
/**
 * 32-bit masks used as sets of flags, and the or of a sequence of masks: the
 * shape of `ACTIVE_MATS |= _mat.t` in include/Scene/scene.h and of the
 * `ACTIVE_MATS & FLAG` tests that read it.
 */
module Bits {

  /** Every bit of a is set in mask. */
  predicate Within(a: bv32, mask: bv32) { a | mask == mask }

  /** a and m share a bit: `a & m` is true in C. */
  predicate Meets(a: bv32, m: bv32) { a & m != 0 }

  /** The or of all words, left to right. */
  function OrAll(ws: seq<bv32>): bv32 {
    OrUpTo(ws, |ws|)
  }

  /** The or of the first n words. */
  function OrUpTo(ws: seq<bv32>, n: nat): bv32
    requires n <= |ws|
  {
    if n == 0 then 0 else OrUpTo(ws, n - 1) | ws[n - 1]
  }

  /** Every word or-ed in is inside the result. */
  lemma OrAllContains(ws: seq<bv32>, i: nat)
    requires i < |ws|
    ensures Within(ws[i], OrAll(ws))
  {
    OrUpToContains(ws, |ws|, i);
  }

  lemma {:induction false} OrUpToContains(ws: seq<bv32>, n: nat, i: nat)
    requires i < n <= |ws|
    ensures Within(ws[i], OrUpTo(ws, n))
  {
    if i < n - 1 {
      OrUpToContains(ws, n - 1, i);
    }
  }

  /** Nothing else is: a mask holding every word holds their or. */
  lemma OrAllWithin(ws: seq<bv32>, mask: bv32)
    requires forall i :: 0 <= i < |ws| ==> Within(ws[i], mask)
    ensures Within(OrAll(ws), mask)
  {
    OrUpToWithin(ws, |ws|, mask);
  }

  lemma {:induction false} OrUpToWithin(ws: seq<bv32>, n: nat, mask: bv32)
    requires n <= |ws|
    requires forall i :: 0 <= i < n ==> Within(ws[i], mask)
    ensures Within(OrUpTo(ws, n), mask)
  {
    if n > 0 {
      OrUpToWithin(ws, n - 1, mask);
      OrWithin(OrUpTo(ws, n - 1), ws[n - 1], mask);
    }
  }

  /** A flag that one word has is set in the or of all words. */
  lemma OrAllMeets(ws: seq<bv32>, i: nat, m: bv32)
    requires i < |ws| && Meets(ws[i], m)
    ensures Meets(OrAll(ws), m)
  {
    OrAllContains(ws, i);
    MeetsWithin(ws[i], OrAll(ws), m);
  }

  /** A flag that no word has is not set in the or of all words. */
  lemma OrAllMisses(ws: seq<bv32>, m: bv32)
    requires forall i :: 0 <= i < |ws| ==> !Meets(ws[i], m)
    ensures !Meets(OrAll(ws), m)
  {
    OrUpToMisses(ws, |ws|, m);
  }

  lemma {:induction false} OrUpToMisses(ws: seq<bv32>, n: nat, m: bv32)
    requires n <= |ws|
    requires forall i :: 0 <= i < n ==> !Meets(ws[i], m)
    ensures !Meets(OrUpTo(ws, n), m)
  {
    if n > 0 {
      OrUpToMisses(ws, n - 1, m);
      MeetsOr(OrUpTo(ws, n - 1), ws[n - 1], m);
    }
  }

  // Single steps on three words.

  lemma OrWithin(a: bv32, b: bv32, mask: bv32)
    requires Within(a, mask) && Within(b, mask)
    ensures Within(a | b, mask)
  {
  }

  lemma MeetsOr(a: bv32, b: bv32, m: bv32)
    ensures Meets(a | b, m) <==> Meets(a, m) || Meets(b, m)
  {
    AndDistributes(a, b, m);
    OrZero(a & m, b & m);
  }

  lemma AndDistributes(a: bv32, b: bv32, m: bv32)
    ensures (a | b) & m == (a & m) | (b & m)
  {
  }

  lemma OrZero(x: bv32, y: bv32)
    ensures x | y == 0 <==> x == 0 && y == 0
  {
  }

  lemma MeetsWithin(a: bv32, w: bv32, m: bv32)
    requires Within(a, w) && Meets(a, m)
    ensures Meets(w, m)
  {
  }
}

=== FILE: flatten.dfy ===
/**
 * The stackless-traversal flattener of `initOpenCLBuffers_BVH` in
 * src/main.cpp, and the rounding of the global work size.
 *
 * The BVH comes from a builder that is not part of this model.  Its nodes are
 * given as an arena: a sequence in traversal order whose nodes name their
 * parent and children by index.  What the flattener relies on from the
 * builder is collected in `WellFormed`.
 */
module Flatten {
  import opened Wrappers
  import opened LinearAlgebra
  import opened MathHelp

  /** `BVHNode`: links, faces, bounds, and the traversal fields set by the builder. */
  datatype Node = Node(
    parent: Option<nat>, left: Option<nat>, right: Option<nat>,
    faces: seq<Tri>, bbMin: Vec4, bbMax: Vec4,
    id: nat, numSkipsToHere: nat, skipNextLeft: bool)

  /** `bvhNode_cl`: the bounds, with the face offset in `bbMin.w` and the face or miss link in `bbMax.w`. */
  datatype FlatNode = FlatNode(bbMin: Vec4, bbMax: Vec4)

  /** The three vertex indices of an emitted face (the source leaves the fourth component unset). */
  datatype Corner3 = Corner3(a: nat, b: nat, c: nat)

  // ---------------------------------------------------------------------------
  // The tree.

  /** Node a is the left child of its parent. */
  predicate IsLeftChild(nodes: seq<Node>, a: nat) {
    && a < |nodes| && nodes[a].parent.Some? && nodes[a].parent.value < |nodes|
    && nodes[nodes[a].parent.value].left == Some(a)
  }

  /** Node a is the right child of its parent. */
  predicate IsRightChild(nodes: seq<Node>, a: nat) {
    && a < |nodes| && nodes[a].parent.Some? && nodes[a].parent.value < |nodes|
    && nodes[nodes[a].parent.value].right == Some(a)
  }

  /**
   * What the builder guarantees about node i: a parent comes earlier in the
   * array and has i as one of its two distinct children; children come later
   * and point back; a node with a left child has a right child; and the skip
   * count never exceeds the id.
   */
  predicate NodeOk(nodes: seq<Node>, i: nat)
    requires i < |nodes|
  {
    var n := nodes[i];
    && (n.parent.Some? ==> n.parent.value < i && (IsLeftChild(nodes, i) || IsRightChild(nodes, i)))
    && (n.left.Some? ==> i < n.left.value < |nodes| && nodes[n.left.value].parent == Some(i) && n.right.Some?)
    && (n.right.Some? ==> i < n.right.value < |nodes| && nodes[n.right.value].parent == Some(i) && n.left != n.right)
    && n.numSkipsToHere <= n.id
  }

  predicate WellFormed(nodes: seq<Node>) {
    forall i :: 0 <= i < |nodes| ==> NodeOk(nodes, i)
  }

  /** `id - numSkipsToHere`: a node's position once the skipped nodes are gone. */
  function Corrected(nodes: seq<Node>, r: nat): real
    requires WellFormed(nodes) && r < |nodes|
  {
    assert NodeOk(nodes, r);
    (nodes[r].id - nodes[r].numSkipsToHere) as real
  }

  /**
   * The upward walk of a faceless right child, started at its parent p: climb
   * while the current node is a right child; stop with the right sibling of
   * the first left child met, or with nothing at the root.
   */
  function Escape(nodes: seq<Node>, p: nat): (r: Option<nat>)
    requires WellFormed(nodes) && p < |nodes| && nodes[p].parent.Some?
    ensures r.Some? ==> r.value < |nodes|
    decreases p
  {
    assert NodeOk(nodes, p);
    var g := nodes[p].parent.value;
    assert NodeOk(nodes, g);
    if nodes[g].right == Some(p) then
      if nodes[g].parent.None? then None else Escape(nodes, g)
    else
      nodes[g].right
  }

  /** The node whose corrected id a faceless non-root node's miss link holds, if any. */
  function MissTarget(nodes: seq<Node>, i: nat): (r: Option<nat>)
    requires WellFormed(nodes) && i < |nodes| && nodes[i].parent.Some?
    ensures r.Some? ==> r.value < |nodes|
  {
    assert NodeOk(nodes, i);
    var p := nodes[i].parent.value;
    assert NodeOk(nodes, p);
    if nodes[p].left == Some(i) then nodes[p].right
    else if nodes[p].parent.None? then None
    else Escape(nodes, p)
  }

  /**
   * The record emitted for node i when `offset` faces were emitted before it:
   * the xyz bounds; `bbMin.w` the offset of its first face, or -1 without
   * faces; `bbMax.w` the offset plus one with two faces or more, else -1,
   * replaced for a faceless non-root node by its miss link when there is one.
   */
  function Record(nodes: seq<Node>, i: nat, offset: nat): (r: FlatNode)
    requires WellFormed(nodes) && i < |nodes|
    ensures XYZ(r.bbMin) == XYZ(nodes[i].bbMin) && XYZ(r.bbMax) == XYZ(nodes[i].bbMax)
    ensures r.bbMin.w == if |nodes[i].faces| > 0 then offset as real else -1.0
    ensures nodes[i].parent.None? || |nodes[i].faces| > 0 ==>
      r.bbMax.w == if |nodes[i].faces| > 1 then offset as real + 1.0 else -1.0
  {
    var n := nodes[i];
    var k := |n.faces|;
    var minW := if k > 0 then offset as real else -1.0;
    var maxW := if k > 1 then offset as real + 1.0 else -1.0;
    var link :=
      if n.parent.Some? && k == 0 then
        match MissTarget(nodes, i)
        case Some(r) => Corrected(nodes, r)
        case None => maxW
      else maxW;
    FlatNode(Vec4(n.bbMin.x, n.bbMin.y, n.bbMin.z, minW), Vec4(n.bbMax.x, n.bbMax.y, n.bbMax.z, link))
  }

  // ---------------------------------------------------------------------------
  // Which nodes are emitted, and where their faces go.

  /** `skipNext` when the loop reaches node i. */
  function SkipFlag(nodes: seq<Node>, i: nat): bool
    requires i <= |nodes|
  {
    if i == 0 then false
    else
      var n := nodes[i - 1];
      if SkipFlag(nodes, i - 1) then n.skipNextLeft else |n.faces| == 0 && n.skipNextLeft
  }

  /** The number of faces the emitted nodes before node i contribute: `facesV.size()` on reaching it. */
  function FaceOffset(nodes: seq<Node>, i: nat): nat
    requires i <= |nodes|
  {
    if i == 0 then 0
    else FaceOffset(nodes, i - 1) + if SkipFlag(nodes, i - 1) then 0 else |nodes[i - 1].faces|
  }

  /** The emitted nodes below n, in order. */
  function EmittedBelow(nodes: seq<Node>, n: nat): (e: seq<nat>)
    requires n <= |nodes|
    ensures forall k :: 0 <= k < |e| ==> e[k] < n && !SkipFlag(nodes, e[k])
  {
    if n == 0 then []
    else EmittedBelow(nodes, n - 1) + if SkipFlag(nodes, n - 1) then [] else [n - 1]
  }

  /** Every face a node reads lies inside `faces` and `facesVN`. */
  predicate TrisInRange(tris: seq<Tri>, faces: seq<nat>, facesVN: seq<nat>) {
    forall j :: 0 <= j < |tris| ==> 3 * tris[j].face.w + 2 < |faces| && 3 * tris[j].normals.w + 2 < |facesVN|
  }

  /** The faces of every emitted node can be read (the source reads them unchecked). */
  predicate Readable(nodes: seq<Node>, faces: seq<nat>, facesVN: seq<nat>) {
    forall i :: 0 <= i < |nodes| && !SkipFlag(nodes, i) ==> TrisInRange(nodes[i].faces, faces, facesVN)
  }

  /** `faces[3t..3t+2]` for a triangle whose face index is t. */
  function CornerOf(faces: seq<nat>, t: nat): Corner3
    requires 3 * t + 2 < |faces|
  {
    Corner3(faces[3 * t], faces[3 * t + 1], faces[3 * t + 2])
  }

  /** `facesVN[3u..3u+2]` with w = 0 for a triangle whose normal index is u. */
  function NormalOf(facesVN: seq<nat>, u: nat): Uint4
    requires 3 * u + 2 < |facesVN|
  {
    Uint4(facesVN[3 * u], facesVN[3 * u + 1], facesVN[3 * u + 2], 0)
  }

  /** The face records of one node's triangles, in order. */
  function TriCorners(tris: seq<Tri>, faces: seq<nat>, facesVN: seq<nat>): (r: seq<Corner3>)
    requires TrisInRange(tris, faces, facesVN)
    ensures |r| == |tris|
  {
    seq(|tris|, k requires 0 <= k < |tris| => CornerOf(faces, tris[k].face.w))
  }

  /** The face-normal records of one node's triangles, in order. */
  function TriNormals(tris: seq<Tri>, faces: seq<nat>, facesVN: seq<nat>): (r: seq<Uint4>)
    requires TrisInRange(tris, faces, facesVN)
    ensures |r| == |tris|
  {
    seq(|tris|, k requires 0 <= k < |tris| => NormalOf(facesVN, tris[k].normals.w))
  }

  // The outputs after the first n nodes, one node at a time.

  function FlatBelow(nodes: seq<Node>, n: nat): seq<FlatNode>
    requires WellFormed(nodes) && n <= |nodes|
  {
    if n == 0 then []
    else FlatBelow(nodes, n - 1) + if SkipFlag(nodes, n - 1) then [] else [Record(nodes, n - 1, FaceOffset(nodes, n - 1))]
  }

  function CornersBelow(nodes: seq<Node>, faces: seq<nat>, facesVN: seq<nat>, n: nat): seq<Corner3>
    requires n <= |nodes| && Readable(nodes, faces, facesVN)
  {
    if n == 0 then []
    else if SkipFlag(nodes, n - 1) then CornersBelow(nodes, faces, facesVN, n - 1)
    else
      CornersBelow(nodes, faces, facesVN, n - 1) + TriCorners(nodes[n - 1].faces, faces, facesVN)
  }

  function NormalsBelow(nodes: seq<Node>, faces: seq<nat>, facesVN: seq<nat>, n: nat): seq<Uint4>
    requires n <= |nodes| && Readable(nodes, faces, facesVN)
  {
    if n == 0 then []
    else if SkipFlag(nodes, n - 1) then NormalsBelow(nodes, faces, facesVN, n - 1)
    else
      NormalsBelow(nodes, faces, facesVN, n - 1) + TriNormals(nodes[n - 1].faces, faces, facesVN)
  }

  // ---------------------------------------------------------------------------
  // The loop.

  /**
   * `initOpenCLBuffers_BVH` without the buffer uploads: one pass over the
   * nodes carrying the skip flag, emitting a record per kept node and its
   * faces and face normals.
   */
  method FlattenNodes(nodes: seq<Node>, faces: seq<nat>, facesVN: seq<nat>)
    returns (flat: seq<FlatNode>, facesV: seq<Corner3>, facesN: seq<Uint4>)
    requires WellFormed(nodes) && Readable(nodes, faces, facesVN)
    ensures flat == FlatBelow(nodes, |nodes|)
    ensures facesV == CornersBelow(nodes, faces, facesVN, |nodes|)
    ensures facesN == NormalsBelow(nodes, faces, facesVN, |nodes|)
    ensures |facesV| == |facesN| == FaceOffset(nodes, |nodes|)
  {
    flat, facesV, facesN := [], [], [];
    var skipNext := false;
    var i := 0;
    while i < |nodes|
      invariant i <= |nodes|
      invariant skipNext == SkipFlag(nodes, i)
      invariant flat == FlatBelow(nodes, i)
      invariant facesV == CornersBelow(nodes, faces, facesVN, i)
      invariant facesN == NormalsBelow(nodes, faces, facesVN, i)
      invariant |facesV| == |facesN| == FaceOffset(nodes, i)
    {
      var node := nodes[i];
      if skipNext {
        skipNext := node.skipNextLeft;
        i := i + 1;
        continue;
      }
      var sn := Record(nodes, i, |facesV|);
      if |node.faces| == 0 && node.skipNextLeft {
        skipNext := true;
      }
      flat := flat + [sn];
      var tris := node.faces;
      assert TrisInRange(tris, faces, facesVN);
      var fv: seq<Corner3> := [];
      var fn: seq<Uint4> := [];
      var j := 0;
      while j < |tris|
        invariant j <= |tris|
        invariant fv == TriCorners(tris[..j], faces, facesVN)
        invariant fn == TriNormals(tris[..j], faces, facesVN)
      {
        fv := fv + [CornerOf(faces, tris[j].face.w)];
        fn := fn + [NormalOf(facesVN, tris[j].normals.w)];
        j := j + 1;
      }
      assert tris[..j] == tris;
      facesV := facesV + fv;
      facesN := facesN + fn;
      i := i + 1;
    }
  }

  // ---------------------------------------------------------------------------
  // What the flattener emits.

  /** The records are those of the emitted nodes, in input order, each with its face offset. */
  lemma {:induction false} FlatIsEmittedRecords(nodes: seq<Node>, n: nat)
    requires WellFormed(nodes) && n <= |nodes|
    ensures |FlatBelow(nodes, n)| == |EmittedBelow(nodes, n)|
    ensures forall k :: 0 <= k < |FlatBelow(nodes, n)| ==>
      FlatBelow(nodes, n)[k] == Record(nodes, EmittedBelow(nodes, n)[k], FaceOffset(nodes, EmittedBelow(nodes, n)[k]))
  {
    if n > 0 {
      FlatIsEmittedRecords(nodes, n - 1);
    }
  }

  /** A node is emitted exactly when the skip flag is clear on reaching it, and the emitted nodes are in increasing order. */
  lemma {:induction false} EmittedBelowSpec(nodes: seq<Node>, n: nat)
    requires n <= |nodes|
    ensures forall i :: 0 <= i < n ==> (i in EmittedBelow(nodes, n) <==> !SkipFlag(nodes, i))
    ensures forall k, l :: 0 <= k < l < |EmittedBelow(nodes, n)| ==> EmittedBelow(nodes, n)[k] < EmittedBelow(nodes, n)[l]
  {
    if n > 0 {
      EmittedBelowSpec(nodes, n - 1);
    }
  }

  /** The skip rule: an emitted faceless node with `skipNextLeft` drops the next node; a dropped node passes its own `skipNextLeft` on. */
  lemma SkipRule(nodes: seq<Node>, i: nat)
    requires i + 1 < |nodes|
    ensures !SkipFlag(nodes, i) ==> (SkipFlag(nodes, i + 1) <==> |nodes[i].faces| == 0 && nodes[i].skipNextLeft)
    ensures SkipFlag(nodes, i) ==> (SkipFlag(nodes, i + 1) <==> nodes[i].skipNextLeft)
    ensures !SkipFlag(nodes, 0)
  {
  }

  /** The face arrays grow by exactly the emitted nodes' face counts; the dropped nodes add none. */
  lemma {:induction false} FaceCounts(nodes: seq<Node>, faces: seq<nat>, facesVN: seq<nat>, n: nat)
    requires n <= |nodes| && Readable(nodes, faces, facesVN)
    ensures |CornersBelow(nodes, faces, facesVN, n)| == |NormalsBelow(nodes, faces, facesVN, n)| == FaceOffset(nodes, n)
  {
    if n > 0 {
      FaceCounts(nodes, faces, facesVN, n - 1);
    }
  }

  /**
   * Face j of an emitted node i lands at its face offset plus j: its corners
   * are `faces[3t..3t+2]` and its normal `facesVN[3u..3u+2]` with w = 0.
   */
  lemma {:induction false} FacesAt(nodes: seq<Node>, faces: seq<nat>, facesVN: seq<nat>, n: nat, i: nat, j: nat)
    requires Readable(nodes, faces, facesVN) && i < n <= |nodes| && !SkipFlag(nodes, i) && j < |nodes[i].faces|
    ensures FaceOffset(nodes, i) + j < |CornersBelow(nodes, faces, facesVN, n)|
    ensures FaceOffset(nodes, i) + j < |NormalsBelow(nodes, faces, facesVN, n)|
    ensures var tri := nodes[i].faces[j];
      && 3 * tri.face.w + 2 < |faces| && 3 * tri.normals.w + 2 < |facesVN|
      && CornersBelow(nodes, faces, facesVN, n)[FaceOffset(nodes, i) + j] == CornerOf(faces, tri.face.w)
      && NormalsBelow(nodes, faces, facesVN, n)[FaceOffset(nodes, i) + j] == NormalOf(facesVN, tri.normals.w)
  {
    FaceCounts(nodes, faces, facesVN, i);
    var tris := nodes[i].faces;
    assert TrisInRange(tris, faces, facesVN);
    assert CornersBelow(nodes, faces, facesVN, i + 1) == CornersBelow(nodes, faces, facesVN, i) + TriCorners(tris, faces, facesVN);
    assert NormalsBelow(nodes, faces, facesVN, i + 1) == NormalsBelow(nodes, faces, facesVN, i) + TriNormals(tris, faces, facesVN);
    CornersGrow(nodes, faces, facesVN, i + 1, n);
    NormalsGrow(nodes, faces, facesVN, i + 1, n);
  }

  /** Later nodes only append faces. */
  lemma {:induction false} CornersGrow(nodes: seq<Node>, faces: seq<nat>, facesVN: seq<nat>, m: nat, n: nat)
    requires m <= n <= |nodes| && Readable(nodes, faces, facesVN)
    ensures |CornersBelow(nodes, faces, facesVN, m)| <= |CornersBelow(nodes, faces, facesVN, n)|
    ensures forall k :: 0 <= k < |CornersBelow(nodes, faces, facesVN, m)| ==>
      CornersBelow(nodes, faces, facesVN, n)[k] == CornersBelow(nodes, faces, facesVN, m)[k]
  {
    if m < n {
      CornersGrow(nodes, faces, facesVN, m, n - 1);
    }
  }

  /** Later nodes only append face normals. */
  lemma {:induction false} NormalsGrow(nodes: seq<Node>, faces: seq<nat>, facesVN: seq<nat>, m: nat, n: nat)
    requires m <= n <= |nodes| && Readable(nodes, faces, facesVN)
    ensures |NormalsBelow(nodes, faces, facesVN, m)| <= |NormalsBelow(nodes, faces, facesVN, n)|
    ensures forall k :: 0 <= k < |NormalsBelow(nodes, faces, facesVN, m)| ==>
      NormalsBelow(nodes, faces, facesVN, n)[k] == NormalsBelow(nodes, faces, facesVN, m)[k]
  {
    if m < n {
      NormalsGrow(nodes, faces, facesVN, m, n - 1);
    }
  }

  // ---------------------------------------------------------------------------
  // Miss links.

  /** The chain from p up to its ancestor-or-self a climbs through right children only. */
  predicate RightChain(nodes: seq<Node>, p: nat, a: nat)
    decreases p
  {
    a == p ||
      (IsRightChild(nodes, p) && nodes[p].parent.value < p && RightChain(nodes, nodes[p].parent.value, a))
  }

  /**
   * The walk finds the nearest left child on the way up from p, and the miss
   * link is that node's right sibling; without one the walk finds nothing.
   */
  lemma {:induction false} EscapeFindsNearestLeftChild(nodes: seq<Node>, p: nat)
    requires WellFormed(nodes) && p < |nodes| && nodes[p].parent.Some?
    ensures Escape(nodes, p).Some? <==> exists a: nat :: RightChain(nodes, p, a) && IsLeftChild(nodes, a)
    ensures forall a: nat :: RightChain(nodes, p, a) && IsLeftChild(nodes, a) ==>
      Escape(nodes, p) == nodes[nodes[a].parent.value].right
    decreases p
  {
    assert NodeOk(nodes, p);
    var g := nodes[p].parent.value;
    assert NodeOk(nodes, g);
    if nodes[g].right == Some(p) {
      assert !IsLeftChild(nodes, p);
      forall a: nat | RightChain(nodes, p, a) && IsLeftChild(nodes, a)
        ensures a != p && RightChain(nodes, g, a)
      {
      }
      if nodes[g].parent.None? {
        forall a: nat | RightChain(nodes, g, a)
          ensures !IsLeftChild(nodes, a)
        {
        }
      } else {
        EscapeFindsNearestLeftChild(nodes, g);
        forall a: nat | RightChain(nodes, g, a)
          ensures RightChain(nodes, p, a)
        {
        }
      }
    } else {
      assert IsLeftChild(nodes, p) && RightChain(nodes, p, p);
      forall a: nat | RightChain(nodes, p, a)
        ensures a == p
      {
      }
    }
  }

  /** A faceless left child's miss link is its right sibling's corrected id. */
  lemma MissOfLeftChild(nodes: seq<Node>, i: nat, offset: nat)
    requires WellFormed(nodes) && i < |nodes| && |nodes[i].faces| == 0 && IsLeftChild(nodes, i)
    ensures var p := nodes[i].parent.value;
      && nodes[p].right.Some? && nodes[p].right.value < |nodes|
      && Record(nodes, i, offset).bbMax.w == Corrected(nodes, nodes[p].right.value)
  {
    assert NodeOk(nodes, nodes[i].parent.value);
  }

  /**
   * A faceless right child's miss link is the corrected id of the right
   * sibling of the nearest left child on the way up from its parent, and -1
   * when there is none, in particular when its parent is the root.
   */
  lemma MissOfRightChild(nodes: seq<Node>, i: nat, offset: nat)
    requires WellFormed(nodes) && i < |nodes| && |nodes[i].faces| == 0 && IsRightChild(nodes, i)
    ensures var p := nodes[i].parent.value;
      forall a: nat :: RightChain(nodes, p, a) && IsLeftChild(nodes, a) ==>
        && nodes[nodes[a].parent.value].right.Some?
        && nodes[nodes[a].parent.value].right.value < |nodes|
        && Record(nodes, i, offset).bbMax.w == Corrected(nodes, nodes[nodes[a].parent.value].right.value)
    ensures var p := nodes[i].parent.value;
      (forall a: nat :: RightChain(nodes, p, a) ==> !IsLeftChild(nodes, a)) ==> Record(nodes, i, offset).bbMax.w == -1.0
  {
    assert NodeOk(nodes, i);
    var p := nodes[i].parent.value;
    assert NodeOk(nodes, p);
    assert nodes[p].left != Some(i);
    if nodes[p].parent.Some? {
      EscapeFindsNearestLeftChild(nodes, p);
      forall a: nat | RightChain(nodes, p, a) && IsLeftChild(nodes, a)
        ensures nodes[nodes[a].parent.value].right.Some?
      {
        assert NodeOk(nodes, nodes[a].parent.value);
      }
    } else {
      forall a: nat | RightChain(nodes, p, a)
        ensures !IsLeftChild(nodes, a)
      {
      }
    }
  }

  // ---------------------------------------------------------------------------
  // The global work size.

  /**
   * `global_work_size` rounded up to a multiple of `local_work_size` (the
   * source divides by it, so it must be positive).
   */
  function RoundUpWorkSize(global: nat, local: nat): (r: nat)
    requires local > 0
    ensures r % local == 0 && global <= r < global + local
  {
    DivMod(global, local);
    if global % local != 0 then
      var r := (global / local + 1) * local;
      assert r == global - global % local + local;
      DivModUnique(r, local, global / local + 1, 0);
      r
    else global
  }

  /** The rounded size is the smallest multiple of `local_work_size` that covers every pixel. */
  lemma RoundUpIsLeast(width: nat, height: nat, local: nat, m: nat)
    requires local > 0 && m % local == 0 && width * height <= m
    ensures width * height <= RoundUpWorkSize(width * height, local) <= m
  {
    var g := width * height;
    DivMod(g, local);
    DivMod(m, local);
    if g % local != 0 && m / local <= g / local {
      MulMono(m / local, g / local, local);
    } else if g % local != 0 {
      MulMono(g / local + 1, m / local, local);
    }
  }

  // Division facts.

  lemma DivMod(g: nat, l: nat)
    requires l > 0
    ensures g == (g / l) * l + g % l && g % l < l
  {
  }

  lemma MulAtLeast(a: int, l: int)
    requires a >= 1 && l > 0
    ensures a * l >= l
  {
    assert a * l == (a - 1) * l + l;
    assert (a - 1) * l >= 0;
  }

  lemma MulMono(a: int, b: int, l: int)
    requires a <= b && l > 0
    ensures a * l <= b * l
  {
    assert b * l - a * l == (b - a) * l;
  }

  /** Quotient and remainder are unique. */
  lemma {:induction false} DivModUnique(g: int, l: int, q: int, r: int)
    requires l > 0 && 0 <= r < l && g == q * l + r
    ensures g / l == q && g % l == r
  {
    var q0 := g / l;
    var r0 := g % l;
    assert (q - q0) * l == r0 - r by {
      assert q * l - q0 * l == (q - q0) * l;
    }
    if q > q0 {
      MulAtLeast(q - q0, l);
    } else if q < q0 {
      MulAtLeast(q0 - q, l);
    }
  }
}

=== FILE: geometry.dfy ===
/**
 * The geometry and SDF bit flags and the `Mesh` record of
 * include/Scene/geometry.h.  The flags are plain `int`s in the source; all
 * of them are small non-negative bit masks, so they are modelled as `bv32`.
 */
module Geometry {
  import opened LinearAlgebra
  import opened Materials

  const TOTAL_GEOM_TYPES: int := 4
  const SPHERE: bv32 := 1 << 0
  const BOX: bv32 := 1 << 1
  const SDF: bv32 := 1 << 2
  const QUAD: bv32 := 1 << 3

  const TOTAL_SDF_TYPES: int := 4
  const SDF_SPHERE: bv32 := 1 << 5
  const SDF_BOX: bv32 := 1 << 6
  const SDF_ROUND_BOX: bv32 := 1 << 7
  const SDF_PLANE: bv32 := 1 << 8

  const GeometryFlags: seq<bv32> := [SPHERE, BOX, SDF, QUAD]
  const SdfFlags: seq<bv32> := [SDF_SPHERE, SDF_BOX, SDF_ROUND_BOX, SDF_PLANE]

  /** The bits the geometry kinds use (0 to 3) and the bits the SDF kinds use (5 to 8). */
  const GeometryBits: bv32 := 0x00F
  const SdfBits: bv32 := 0x1E0

  predicate SingleBit(f: bv32) { f != 0 && f & (f - 1) == 0 }

  /** The sixteen floats of shape parameters a mesh carries. */
  type Joker = s: seq<real> | |s| == 16 witness seq(16, _ => 0.0)

  /** `Mesh`: a material, a position, the shape parameters (`joker`) and the type mask `t`. */
  datatype Mesh = Mesh(mat: Material, position: Vec4, joker: Joker, t: bv32)

  /**
   * `Mesh()`: the default material, the zero position and type SPHERE.  The
   * constructor leaves `joker` uninitialised; `junk` stands for whatever it holds.
   */
  function DefaultMesh(junk: Joker): (m: Mesh)
    ensures m.t == SPHERE && m.mat == DefaultMaterial()
    ensures m.position == Zero() && m.joker == junk
  {
    Mesh(DefaultMaterial(), Zero(), junk, SPHERE)
  }

  /** The type mask of an SDF mesh: the SDF kind together with its subtype bit. */
  function SdfType(sub: bv32): (t: bv32)
    ensures t & SDF == SDF && t & sub == sub
  {
    SDF | sub
  }

  /** SPHERE, BOX, SDF and QUAD are four disjoint single bits inside bits 0 to 3. */
  lemma GeometryFlagsAreBits()
    ensures TOTAL_GEOM_TYPES == |GeometryFlags|
    ensures forall i :: 0 <= i < |GeometryFlags| ==> SingleBit(GeometryFlags[i]) && GeometryFlags[i] & GeometryBits == GeometryFlags[i]
    ensures forall i, j :: 0 <= i < j < |GeometryFlags| ==> GeometryFlags[i] & GeometryFlags[j] == 0
  {
  }

  /** The four SDF subtypes are disjoint single bits inside bits 5 to 8. */
  lemma SdfFlagsAreBits()
    ensures TOTAL_SDF_TYPES == |SdfFlags|
    ensures forall i :: 0 <= i < |SdfFlags| ==> SingleBit(SdfFlags[i]) && SdfFlags[i] & SdfBits == SdfFlags[i]
    ensures forall i, j :: 0 <= i < j < |SdfFlags| ==> SdfFlags[i] & SdfFlags[j] == 0
  {
  }

  /**
   * No SDF subtype shares a bit with a geometry kind, so an SDF mesh's type
   * splits back into SDF and its subtype, and no other kind or subtype is set.
   */
  lemma SdfTypeDecodes(i: nat)
    requires i < |SdfFlags|
    ensures SdfType(SdfFlags[i]) & GeometryBits == SDF
    ensures SdfType(SdfFlags[i]) & SdfBits == SdfFlags[i]
    ensures forall g :: 0 <= g < |GeometryFlags| && GeometryFlags[g] != SDF ==> SdfType(SdfFlags[i]) & GeometryFlags[g] == 0
    ensures forall j :: 0 <= j < |SdfFlags| && j != i ==> SdfType(SdfFlags[i]) & SdfFlags[j] == 0
  {
  }
}

=== FILE: interop.dfy ===
/**
 * The byte reordering inside `saveImage` of include/GL/cl_gl_interop.h:
 * the RGB readback (`3 * width * height` bytes, bottom row first) is walked
 * from its last byte to its first, so pixels come out in reverse order with
 * their three colour bytes reversed, and an opaque alpha byte follows each.
 */
module Interop {

  /** The readback walked backwards, three bytes at a time, each group followed by 255. */
  method ReorderPixels(pixels: seq<bv8>) returns (image: seq<bv8>)
    requires |pixels| % 3 == 0
    ensures |image| == 4 * (|pixels| / 3)
    ensures forall j :: 0 <= j < |pixels| / 3 ==> image[4 * j + 3] == 255
    ensures forall j :: 0 <= j < |pixels| / 3 ==>
      image[4 * j] == pixels[3 * (|pixels| / 3 - 1 - j) + 2] &&
      image[4 * j + 1] == pixels[3 * (|pixels| / 3 - 1 - j) + 1] &&
      image[4 * j + 2] == pixels[3 * (|pixels| / 3 - 1 - j)]
  {
    var n := |pixels| / 3;
    image := [];
    var i := |pixels|;
    ghost var done: nat := 0;
    while i > 0
      invariant 0 <= done <= n && i == 3 * (n - done)
      invariant |image| == 4 * done
      invariant forall j :: 0 <= j < done ==> image[4 * j + 3] == 255
      invariant forall j :: 0 <= j < done ==>
        image[4 * j] == pixels[3 * (n - 1 - j) + 2] && image[4 * j + 1] == pixels[3 * (n - 1 - j) + 1] &&
        image[4 * j + 2] == pixels[3 * (n - 1 - j)]
    {
      var p := n - 1 - done;
      assert i - 1 == 3 * p + 2;
      var group := [pixels[i - 1], pixels[i - 2], pixels[i - 3], 255];
      var next := image + group;
      forall j | 0 <= j < done + 1
        ensures next[4 * j + 3] == 255
        ensures next[4 * j] == pixels[3 * (n - 1 - j) + 2] && next[4 * j + 1] == pixels[3 * (n - 1 - j) + 1]
        ensures next[4 * j + 2] == pixels[3 * (n - 1 - j)]
      {
        if j < done {
          assert next[4 * j] == image[4 * j] && next[4 * j + 1] == image[4 * j + 1];
          assert next[4 * j + 2] == image[4 * j + 2] && next[4 * j + 3] == image[4 * j + 3];
        } else {
          assert next[4 * j] == group[0] && next[4 * j + 1] == group[1];
          assert next[4 * j + 2] == group[2] && next[4 * j + 3] == group[3];
        }
      }
      image := next;
      i := i - 3;
      done := done + 1;
    }
    assert done == n;
  }
}

=== FILE: json.dfy ===
/**
 * The parsed scene document, as far as include/Scene/scene.h inspects it.
 * Parsing itself (rapidjson) is not part of this model: a document is given
 * as a tree of values.  A number is `Int` when rapidjson's `IsInt` holds for
 * it (so it fits in 32 bits) and `Real` otherwise; `IsNumber` holds for both.
 */
module Json {

  type Int32 = i: int | -0x8000_0000 <= i < 0x8000_0000

  datatype Value =
    | Null
    | Bool(b: bool)
    | Int(i: Int32)
    | Real(r: real)
    | Str(s: string)
    | Array(items: seq<Value>)
    | Object(members: map<string, Value>)

  predicate IsNumber(v: Value) { v.Int? || v.Real? }

  /**
   * `GetFloat()`: the value of a number, integral or not.  On anything else
   * rapidjson's behaviour is undefined; the model reads 0 there.
   */
  function Num(v: Value): real {
    match v
    case Int(i) => i as real
    case Real(r) => r
    case _ => 0.0
  }

  /**
   * `GetInt()`: the value of an integer.  On anything else rapidjson's
   * behaviour is undefined; the model reads 0 there.
   */
  function IntOf(v: Value): int {
    if v.Int? then v.i else 0
  }

  /**
   * `v[k]` on an array.  Past the end, or on anything but an array, rapidjson's
   * behaviour is undefined; the model reads `Null` there.
   */
  function At(v: Value, k: nat): Value {
    if v.Array? && k < |v.items| then v.items[k] else Null
  }

  /** `HasMember(key)` on an object. */
  predicate Has(v: Value, key: string) { v.Object? && key in v.members }

  /** `operator[](key)` on an object; a missing member reads as `Null`. */
  function Get(v: Value, key: string): Value {
    if Has(v, key) then v.members[key] else Null
  }

  /** The member under `key` is present and an array. */
  predicate HasArray(v: Value, key: string) { Has(v, key) && Get(v, key).Array? }

  /** The member under `key` is present and an object. */
  predicate HasObject(v: Value, key: string) { Has(v, key) && Get(v, key).Object? }

  /** The member under `key` is present and `IsInt`. */
  predicate HasInt(v: Value, key: string) { Has(v, key) && Get(v, key).Int? }

  /** The member under `key` is present and `IsNumber`. */
  predicate HasNumber(v: Value, key: string) { Has(v, key) && IsNumber(Get(v, key)) }

  /** The first `n` items of an array exist and are numbers. */
  predicate NumbersUpTo(v: Value, n: nat) {
    v.Array? && n <= |v.items| && forall k :: 0 <= k < n ==> IsNumber(v.items[k])
  }

  /** The number of items of the array under `key`, or 0 when there is no such array. */
  function ArraySize(v: Value, key: string): nat {
    if HasArray(v, key) then |Get(v, key).items| else 0
  }
}

=== FILE: kernel.dfy ===
/**
 * `cl_help::kernel::parse` of include/CL/cl_kernel.h: the OpenCL kernel
 * source is read line by line; a `#FILE:` line is replaced by the processed
 * contents of another kernel file, and every other line is rewritten by the
 * first placeholder rule that matches it, kept as it is, or dropped.
 *
 * Reading files is abstracted: a file system is a map from paths to the lines
 * `std::getline` yields.  The floating-point substitutions (the fog
 * coefficients and `1.0f / LIGHT_COUNT`) are given as already formatted text.
 */
module Kernel {
  import opened Wrappers
  import opened StringHelpers
  import opened Materials
  import opened Geometry
  import opened Bits
  import Scene

  // ---------------------------------------------------------------------------
  // Decimal text (`std::to_string` of an integer).

  function Digit(d: nat): char
    requires d < 10
  {
    ('0' as int + d) as char
  }

  predicate IsDigit(c: char) { '0' <= c <= '9' }

  /** The decimal digits of n, most significant first, without leading zeros. */
  function Decimal(n: nat): (s: string)
    ensures |s| > 0 && forall i :: 0 <= i < |s| ==> IsDigit(s[i])
  {
    if n < 10 then [Digit(n)] else Decimal(n / 10) + [Digit(n % 10)]
  }

  /** The number a string of decimal digits denotes. */
  function DecimalValue(s: string): nat
    requires forall i :: 0 <= i < |s| ==> IsDigit(s[i])
  {
    if s == [] then 0
    else
      assert IsDigit(s[|s| - 1]);
      DecimalValue(s[..|s| - 1]) * 10 + (s[|s| - 1] as int - '0' as int)
  }

  /** Reading the digits back gives the number, and only 0 is written with a leading zero. */
  lemma {:induction false} DecimalRoundTrip(n: nat)
    ensures DecimalValue(Decimal(n)) == n
    ensures Decimal(n)[0] == '0' <==> n == 0
  {
    if n >= 10 {
      DecimalRoundTrip(n / 10);
      var s := Decimal(n);
      assert s[..|s| - 1] == Decimal(n / 10);
    }
  }

  /** `std::to_string` of a signed integer. */
  function IntText(i: int): (s: string)
    ensures |s| > 0
    ensures i < 0 <==> s[0] == '-'
    ensures i >= 0 ==> s == Decimal(i)
    ensures i < 0 ==> s[1..] == Decimal(-i)
  {
    if i < 0 then "-" + Decimal(-i) else Decimal(i)
  }

  // ---------------------------------------------------------------------------
  // Joining the light indices.

  /** Decimal text of each number, in order. */
  function DecimalAll(ns: seq<nat>): (ds: seq<string>)
    ensures |ds| == |ns| && forall i :: 0 <= i < |ns| ==> ds[i] == Decimal(ns[i])
  {
    if ns == [] then [] else [Decimal(ns[0])] + DecimalAll(ns[1..])
  }

  /**
   * The loop of `#LIGHT_INDICES#`: each index followed by "," unless it is the
   * last.  It writes the same text as joining the decimals with ",".
   */
  function IndexList(ns: seq<nat>): (s: string)
    ensures s == Join(DecimalAll(ns), ",")
  {
    if ns == [] then []
    else if |ns| == 1 then Decimal(ns[0])
    else Decimal(ns[0]) + "," + IndexList(ns[1..])
  }

  /** The index list neither starts nor ends with a comma. */
  lemma IndexListEnds(ns: seq<nat>)
    requires ns != []
    ensures var s := IndexList(ns); s[0] != ',' && s[|s| - 1] != ','
  {
    if |ns| > 1 {
      IndexListEnds(ns[1..]);
    }
  }

  /** Where the first occurrence of a one-character pattern is. */
  lemma FindChar(s: string, c: char, from: nat, k: nat)
    requires from <= k < |s| && s[k] == c && forall j :: from <= j < k ==> s[j] != c
    ensures Find(s, [c], from) == Some(k)
  {
    var f := Find(s, [c], from);
    assert OccursAt(s, [c], k);
    if f.Some? {
      assert s[f.value..f.value + 1][0] == s[f.value];
    }
  }

  /** A string without `c` has no occurrence of it at all. */
  lemma {:induction false} FindNoChar(s: string, c: char, from: nat)
    requires from <= |s| && forall j :: from <= j < |s| ==> s[j] != c
    ensures Find(s, [c], from) == None
    decreases |s| - from
  {
    if from + 1 <= |s| {
      assert s[from..from + 1] != [c] by { assert s[from..from + 1][0] == s[from]; }
      FindNoChar(s, c, from + 1);
    }
  }

  /**
   * Cutting, from `from` on, a string whose rest is a join with a character
   * that no part contains gives back the parts.
   */
  lemma {:induction false} SegmentsOfJoinFrom(s: string, from: nat, parts: seq<string>, c: char)
    requires |parts| > 0 && from <= |s| && s[from..] == Join(parts, [c])
    requires forall i, j :: 0 <= i < |parts| && 0 <= j < |parts[i]| ==> parts[i][j] != c
    ensures SegmentsFrom(s, [c], from) == parts
    decreases |parts|
  {
    var p := parts[0];
    if |parts| == 1 {
      forall j | from <= j < |s| ensures s[j] != c {
        assert s[j] == s[from..][j - from];
      }
      FindNoChar(s, c, from);
      SegmentsFromRest(s, [c], from);
      assert parts == [p];
    } else {
      var rest := Join(parts[1..], [c]);
      var u := s[from..];
      assert u == p + [c] + rest;
      forall j | from <= j < from + |p| ensures s[j] != c {
        assert s[j] == u[j - from];
      }
      assert s[from + |p|] == u[|p|];
      var next := from + |p| + 1;
      FindChar(s, c, from, from + |p|);
      SegmentsFromCut(s, [c], from, from + |p|, next);
      assert s[from..from + |p|] == u[..|p|] == p;
      assert s[next..] == u[|p| + 1..] == rest;
      SegmentsOfJoinFrom(s, next, parts[1..], c);
      assert parts == [p] + parts[1..];
    }
  }

  /** Cutting a join with a character that no part contains gives back the parts. */
  lemma SegmentsOfJoin(parts: seq<string>, c: char)
    requires |parts| > 0
    requires forall i, j :: 0 <= i < |parts| && 0 <= j < |parts[i]| ==> parts[i][j] != c
    ensures Segments(Join(parts, [c]), [c]) == parts
  {
    var s := Join(parts, [c]);
    assert s[0..] == s;
    SegmentsOfJoinFrom(s, 0, parts, c);
  }

  /** The `#LIGHT_INDICES#` text cut at its commas gives the decimals of the indices back. */
  lemma IndexListSplits(ns: seq<nat>)
    requires ns != []
    ensures Segments(IndexList(ns), ",") == DecimalAll(ns)
  {
    var ds := DecimalAll(ns);
    forall i, j | 0 <= i < |ds| && 0 <= j < |ds[i]| ensures ds[i][j] != ',' {
      assert IsDigit(ds[i][j]);
    }
    SegmentsOfJoin(ds, ',');
  }

  // ---------------------------------------------------------------------------
  // Placeholder rules.

  /**
   * One placeholder test: when `name` occurs in the line its first occurrence
   * is replaced by `text` and the line emitted if `keep`, and the line is
   * dropped otherwise.
   */
  datatype Rule = Rule(name: string, keep: bool, text: string)

  function Placeholder(word: string): string { "#" + word + "#" }

  /** What the preformatted floating-point substitutions read. */
  datatype FloatTexts = FloatTexts(
    fogDensity: string, fogSigmaA: string, fogSigmaS: string, fogSigmaT: string,
    invLightCount: string)

  /** Everything the rewriting reads: the scene, the global `ALPHA_TESTING`, the fog's `absorptionOnly` and the float texts. */
  datatype Context = Context(scene: Scene.HostScene, alphaTesting: bool, absorptionOnly: bool, floats: FloatTexts)

  /** `LIGHT_INDICES[i]` is read for every i below `LIGHT_COUNT`. */
  predicate ContextOk(ctx: Context) {
    ctx.scene.lightCount <= |ctx.scene.lightIndices|
  }

  function RenderRules(ctx: Context): (rs: seq<Rule>)
    ensures |rs| == 2
  {
    [Rule(Placeholder("GLOBAL_MEDIUM"), true, if ctx.scene.hasGlobalMedium then "#define GLOBAL_MEDIUM" else ""),
     Rule(Placeholder("ALPHA_TESTING"), true, if ctx.alphaTesting then "#define ALPHA_TESTING" else "")]
  }

  const MediumNames: seq<string> :=
    [Placeholder("GLOBAL_FOG_DENSITY"), Placeholder("GLOBAL_FOG_SIGMA_A"), Placeholder("GLOBAL_FOG_SIGMA_S"),
     Placeholder("GLOBAL_FOG_SIGMA_T"), Placeholder("GLOBAL_FOG_ABS_ONLY")]

  /** The fog placeholders, checked only when the scene has a global medium. */
  function MediumRules(ctx: Context): (rs: seq<Rule>)
    ensures |rs| == if ctx.scene.hasGlobalMedium then 5 else 0
  {
    if ctx.scene.hasGlobalMedium then
      var f := ctx.floats;
      [Rule(MediumNames[0], true, f.fogDensity + "f"),
       Rule(MediumNames[1], true, f.fogSigmaA + "f"),
       Rule(MediumNames[2], true, f.fogSigmaS + "f"),
       Rule(MediumNames[3], true, f.fogSigmaT + "f"),
       Rule(MediumNames[4], true, if ctx.absorptionOnly then "1" else "0")]
    else []
  }

  /** The bounce and marching limits, in the order of `Scene.SettingKeys`. */
  function SettingRules(s: Scene.Settings): (rs: seq<Rule>)
    ensures |rs| == 7
  {
    var vs := Scene.SettingsList(s);
    seq(7, i requires 0 <= i < 7 => Rule(Placeholder(Scene.SettingKeys[i]), true, IntText(vs[i])))
  }

  /** The geometry placeholders, in the order checked: a line is kept only when the scene has that geometry. */
  const GeometryOrder: seq<Scene.Kind> := [Scene.Spheres, Scene.Boxes, Scene.Sdfs, Scene.Quads]

  function GeometryName(kind: Scene.Kind): string {
    match kind
    case Spheres => "SPHERE"
    case Sdfs => "SDF"
    case Boxes => "BOX"
    case Quads => "QUAD"
  }

  /** The `H_*` flag of a kind. */
  function Present(t: Scene.MeshTable, kind: Scene.Kind): bool {
    match kind
    case Spheres => t.hasSphere
    case Sdfs => t.hasSdf
    case Boxes => t.hasBox
    case Quads => t.hasQuad
  }

  function GeometryRule(t: Scene.MeshTable, kind: Scene.Kind): Rule {
    Rule(Placeholder(GeometryName(kind)), Present(t, kind), Decimal(Scene.KindFlag(kind) as nat))
  }

  function GeometryRules(t: Scene.MeshTable): (rs: seq<Rule>)
    ensures |rs| == 4
  {
    seq(4, i requires 0 <= i < 4 => GeometryRule(t, GeometryOrder[i]))
  }

  /** The names of the first ten material flags, in declaration (and test) order. */
  const MaterialNames: seq<string> :=
    ["LIGHT", "DIFF", "COND", "ROUGH_COND", "DIEL", "ROUGH_DIEL", "COAT", "VOL", "TRANS", "SPECSUB"]

  /** Material placeholder i: kept only when `ACTIVE_MATS` has the flag's bit. */
  function MaterialRule(active: bv32, i: nat): Rule
    requires i < 10
  {
    Rule(Placeholder(MaterialNames[i]), Meets(active, MaterialFlags[i] as bv32), Decimal(MaterialFlags[i] as nat))
  }

  function MaterialRules(active: bv32): (rs: seq<Rule>)
    ensures |rs| == 10
  {
    seq(10, i requires 0 <= i < 10 => MaterialRule(active, i))
  }

  /** The two absorptive-refraction placeholders, substituted whatever the scene. */
  function AbsRules(): (rs: seq<Rule>)
    ensures |rs| == 2
  {
    [Rule(Placeholder("ABS_REFR"), true, Decimal(ABS_REFR as nat)),
     Rule(Placeholder("ABS_REFR2"), true, Decimal(ABS_REFR2 as nat))]
  }

  const LightNames: seq<string> := [Placeholder("LIGHT_COUNT"), Placeholder("INV_LIGHT_COUNT"), Placeholder("LIGHT_INDICES")]

  /** The light placeholders, checked only when the scene has a light. */
  function LightRules(ctx: Context): (rs: seq<Rule>)
    requires ContextOk(ctx)
    ensures |rs| == if ctx.scene.lightCount != 0 then 3 else 0
  {
    var sc := ctx.scene;
    if sc.lightCount != 0 then
      [Rule(LightNames[0], true, Decimal(sc.lightCount)),
       Rule(LightNames[1], true, ctx.floats.invLightCount + "f"),
       Rule(LightNames[2], true, IndexList(sc.lightIndices[..sc.lightCount]))]
    else []
  }

  function SdfRules(): (rs: seq<Rule>)
    ensures |rs| == 4
  {
    [Rule(Placeholder("SDF_SPHERE"), true, Decimal(SDF_SPHERE as nat)),
     Rule(Placeholder("SDF_BOX"), true, Decimal(SDF_BOX as nat)),
     Rule(Placeholder("SDF_ROUND_BOX"), true, Decimal(SDF_ROUND_BOX as nat)),
     Rule(Placeholder("SDF_PLANE"), true, Decimal(SDF_PLANE as nat))]
  }

  /** All placeholder rules, in the order the source tests them. */
  function Rules(ctx: Context): seq<Rule>
    requires ContextOk(ctx)
  {
    RenderRules(ctx) + MediumRules(ctx) + SettingRules(ctx.scene.settings) + GeometryRules(ctx.scene.table)
      + MaterialRules(ctx.scene.activeMats) + AbsRules() + LightRules(ctx) + SdfRules()
  }

  // ---------------------------------------------------------------------------
  // Rewriting one line.

  predicate Matches(line: string, r: Rule) { Find(line, r.name, 0).Some? }

  /** The first rule whose placeholder occurs in the line. */
  function FirstMatch(line: string, rules: seq<Rule>): (m: Option<nat>)
    ensures m.Some? ==> m.value < |rules| && Matches(line, rules[m.value])
    ensures m.Some? ==> forall j :: 0 <= j < m.value ==> !Matches(line, rules[j])
    ensures m.None? ==> forall j :: 0 <= j < |rules| ==> !Matches(line, rules[j])
  {
    if rules == [] then None
    else if Matches(line, rules[0]) then Some(0)
    else
      var m := FirstMatch(line, rules[1..]);
      if m.Some? then Some(m.value + 1) else None
  }

  /** `line.replace(pos, name.length(), text)` at the first occurrence of `name`. */
  function Substitute(line: string, name: string, text: string): (r: string)
    requires Find(line, name, 0).Some?
    ensures var p := Find(line, name, 0).value;
      && p + |name| <= |line| && line[p..p + |name|] == name
      && (forall j :: 0 <= j < p ==> !OccursAt(line, name, j))
      && r == line[..p] + text + line[p + |name|..]
  {
    var p := Find(line, name, 0).value;
    line[..p] + text + line[p + |name|..]
  }

  /** What a line turns into once rule r has matched it. */
  function Apply(line: string, r: Rule): string
    requires Matches(line, r)
  {
    if r.keep then Substitute(line, r.name, r.text) + "\n" else ""
  }

  /** The text one non-`#FILE:` line contributes to the source. */
  function RewriteLine(line: string, rules: seq<Rule>): string {
    var m := FirstMatch(line, rules);
    if m.None? then line + "\n" else Apply(line, rules[m.value])
  }

  /** The first rule that matches decides the line; later rules are never consulted. */
  lemma RewriteByFirstRule(line: string, rules: seq<Rule>, i: nat)
    requires i < |rules| && Matches(line, rules[i])
    requires forall j :: 0 <= j < i ==> !Matches(line, rules[j])
    ensures RewriteLine(line, rules) == Apply(line, rules[i])
  {
    var m := FirstMatch(line, rules);
    assert m.Some? && m.value == i;
  }

  /** A line no rule matches is emitted unchanged, with its newline. */
  lemma UnmatchedLine(line: string, rules: seq<Rule>)
    requires forall j :: 0 <= j < |rules| ==> !Matches(line, rules[j])
    ensures RewriteLine(line, rules) == line + "\n"
  {
  }

  predicate NoNewline(s: string) { forall i :: 0 <= i < |s| ==> s[i] != '\n' }

  /** At most one line is emitted: the output is empty or ends in its only newline. */
  lemma AtMostOneLine(line: string, rules: seq<Rule>)
    requires NoNewline(line) && forall j :: 0 <= j < |rules| ==> NoNewline(rules[j].text)
    ensures var out := RewriteLine(line, rules);
      out == [] || (out[|out| - 1] == '\n' && NoNewline(out[..|out| - 1]))
  {
    var out := RewriteLine(line, rules);
    var m := FirstMatch(line, rules);
    if m.Some? && rules[m.value].keep {
      var r := rules[m.value];
      var p := Find(line, r.name, 0).value;
      var body := line[..p] + r.text + line[p + |r.name|..];
      assert out == body + "\n";
      assert out[..|out| - 1] == body;
      forall i | 0 <= i < |body| ensures body[i] != '\n' {
        if i < p {
          assert body[i] == line[i];
        } else if i < p + |r.text| {
          assert body[i] == r.text[i - p];
        } else {
          assert body[i] == line[i - |r.text| + |r.name|];
        }
      }
    } else if m.None? {
      assert out[..|out| - 1] == line;
    }
  }

  /**
   * Only the first occurrence is replaced: every later occurrence of the name
   * survives, moved by the difference in length.
   */
  lemma LaterOccurrencesKept(line: string, name: string, text: string, q: nat)
    requires Find(line, name, 0).Some?
    requires Find(line, name, 0).value + |name| <= q && q + |name| <= |line| && line[q..q + |name|] == name
    ensures var r := Substitute(line, name, text);
      var q' := q - |name| + |text|;
      q' + |name| <= |r| && r[q'..q' + |name|] == name
  {
    var p := Find(line, name, 0).value;
    var r := Substitute(line, name, text);
    var q' := q - |name| + |text|;
    assert r[p + |text|..] == line[p + |name|..];
    assert r[q'..q' + |name|] == line[p + |name|..][q - p - |name|..q - p];
  }

  // ---------------------------------------------------------------------------
  // Where each group sits in the rule list.

  function MediumCount(ctx: Context): nat { if ctx.scene.hasGlobalMedium then 5 else 0 }

  /** The position of the first geometry rule. */
  function GeometryStart(ctx: Context): nat { 2 + MediumCount(ctx) + 7 }

  /** The position of the first material rule. */
  function MaterialStart(ctx: Context): nat { GeometryStart(ctx) + 4 }

  function GeometryPos(kind: Scene.Kind): nat {
    match kind
    case Spheres => 0
    case Boxes => 1
    case Sdfs => 2
    case Quads => 3
  }

  /** Geometry rule `kind` sits at its place in the list. */
  lemma GeometryRuleAt(ctx: Context, kind: Scene.Kind)
    requires ContextOk(ctx)
    ensures GeometryStart(ctx) + GeometryPos(kind) < |Rules(ctx)|
    ensures Rules(ctx)[GeometryStart(ctx) + GeometryPos(kind)] == GeometryRule(ctx.scene.table, kind)
  {
    var pre := RenderRules(ctx) + MediumRules(ctx) + SettingRules(ctx.scene.settings);
    var g := GeometryRules(ctx.scene.table);
    assert Rules(ctx) == (pre + g) + (MaterialRules(ctx.scene.activeMats) + AbsRules() + LightRules(ctx) + SdfRules());
    assert |pre| == GeometryStart(ctx);
    assert g[GeometryPos(kind)] == GeometryRule(ctx.scene.table, GeometryOrder[GeometryPos(kind)]);
  }

  /** Material rule i sits at its place in the list. */
  lemma MaterialRuleAt(ctx: Context, i: nat)
    requires ContextOk(ctx) && i < 10
    ensures MaterialStart(ctx) + i < |Rules(ctx)|
    ensures Rules(ctx)[MaterialStart(ctx) + i] == MaterialRule(ctx.scene.activeMats, i)
  {
    var pre := RenderRules(ctx) + MediumRules(ctx) + SettingRules(ctx.scene.settings) + GeometryRules(ctx.scene.table);
    var ms := MaterialRules(ctx.scene.activeMats);
    assert Rules(ctx) == (pre + ms) + (AbsRules() + LightRules(ctx) + SdfRules());
    assert |pre| == MaterialStart(ctx);
  }

  /**
   * A line whose first matching placeholder is a geometry's is kept, with the
   * flag's value substituted, exactly when the scene has that geometry, and
   * dropped otherwise.
   */
  lemma GeometryLine(ctx: Context, kind: Scene.Kind, line: string)
    requires ContextOk(ctx)
    requires Find(line, Placeholder(GeometryName(kind)), 0).Some?
    requires forall j :: 0 <= j < GeometryStart(ctx) + GeometryPos(kind) ==> !Matches(line, Rules(ctx)[j])
    ensures Present(ctx.scene.table, kind) ==>
      RewriteLine(line, Rules(ctx)) == Substitute(line, Placeholder(GeometryName(kind)), Decimal(Scene.KindFlag(kind) as nat)) + "\n"
    ensures !Present(ctx.scene.table, kind) ==> RewriteLine(line, Rules(ctx)) == []
  {
    GeometryRuleAt(ctx, kind);
    RewriteByFirstRule(line, Rules(ctx), GeometryStart(ctx) + GeometryPos(kind));
  }

  /**
   * A line whose first matching placeholder is material i's is kept, with the
   * flag's value substituted, exactly when `ACTIVE_MATS` has that flag's bit.
   */
  lemma MaterialLine(ctx: Context, i: nat, line: string)
    requires ContextOk(ctx) && i < 10
    requires Find(line, Placeholder(MaterialNames[i]), 0).Some?
    requires forall j :: 0 <= j < MaterialStart(ctx) + i ==> !Matches(line, Rules(ctx)[j])
    ensures Meets(ctx.scene.activeMats, MaterialFlags[i] as bv32) ==>
      RewriteLine(line, Rules(ctx)) == Substitute(line, Placeholder(MaterialNames[i]), Decimal(MaterialFlags[i] as nat)) + "\n"
    ensures !Meets(ctx.scene.activeMats, MaterialFlags[i] as bv32) ==> RewriteLine(line, Rules(ctx)) == []
  {
    MaterialRuleAt(ctx, i);
    RewriteByFirstRule(line, Rules(ctx), MaterialStart(ctx) + i);
  }

  /** The two absorptive-refraction rules follow the material rules and always keep their line, whatever the scene. */
  lemma AbsRulesAlwaysKeep(ctx: Context)
    requires ContextOk(ctx)
    ensures MaterialStart(ctx) + 11 < |Rules(ctx)|
    ensures Rules(ctx)[MaterialStart(ctx) + 10] == Rule(Placeholder("ABS_REFR"), true, Decimal(ABS_REFR as nat))
    ensures Rules(ctx)[MaterialStart(ctx) + 11] == Rule(Placeholder("ABS_REFR2"), true, Decimal(ABS_REFR2 as nat))
  {
    var pre := RenderRules(ctx) + MediumRules(ctx) + SettingRules(ctx.scene.settings) + GeometryRules(ctx.scene.table)
      + MaterialRules(ctx.scene.activeMats);
    assert Rules(ctx) == (pre + AbsRules()) + (LightRules(ctx) + SdfRules());
    assert |pre| == MaterialStart(ctx) + 10;
  }

  /**
   * "#GLOBAL_MEDIUM#" is checked first and becomes "#define GLOBAL_MEDIUM" or
   * nothing; "#ALPHA_TESTING#" likewise on a line without the former.
   */
  lemma RenderSettingLines(ctx: Context, line: string)
    requires ContextOk(ctx)
    ensures Matches(line, Rule(Placeholder("GLOBAL_MEDIUM"), true, "")) ==>
      RewriteLine(line, Rules(ctx)) ==
        Substitute(line, Placeholder("GLOBAL_MEDIUM"), if ctx.scene.hasGlobalMedium then "#define GLOBAL_MEDIUM" else "") + "\n"
    ensures !Matches(line, Rule(Placeholder("GLOBAL_MEDIUM"), true, "")) && Matches(line, Rule(Placeholder("ALPHA_TESTING"), true, "")) ==>
      RewriteLine(line, Rules(ctx)) ==
        Substitute(line, Placeholder("ALPHA_TESTING"), if ctx.alphaTesting then "#define ALPHA_TESTING" else "") + "\n"
  {
    var rs := Rules(ctx);
    assert rs[0] == RenderRules(ctx)[0] && rs[1] == RenderRules(ctx)[1];
    if Matches(line, rs[0]) {
      RewriteByFirstRule(line, rs, 0);
    } else if Matches(line, rs[1]) {
      RewriteByFirstRule(line, rs, 1);
    }
  }

  /** The position of the "#LIGHT_INDICES#" rule when there are lights. */
  function LightIndicesPos(ctx: Context): nat { MaterialStart(ctx) + 12 + 2 }

  /**
   * With lights, the "#LIGHT_INDICES#" rule substitutes the first
   * `LIGHT_COUNT` indices in decimal, separated by single commas: cut at the
   * commas the text gives back each index, and it does not end in a comma.
   */
  lemma LightIndicesText(ctx: Context)
    requires ContextOk(ctx) && ctx.scene.lightCount != 0
    ensures LightIndicesPos(ctx) < |Rules(ctx)|
    ensures var r := Rules(ctx)[LightIndicesPos(ctx)];
      var ns := ctx.scene.lightIndices[..ctx.scene.lightCount];
      && r.name == Placeholder("LIGHT_INDICES") && r.keep
      && Segments(r.text, ",") == DecimalAll(ns)
      && r.text[|r.text| - 1] != ','
  {
    var sc := ctx.scene;
    var pre := RenderRules(ctx) + MediumRules(ctx) + SettingRules(sc.settings) + GeometryRules(sc.table)
      + MaterialRules(sc.activeMats) + AbsRules();
    assert Rules(ctx) == (pre + LightRules(ctx)) + SdfRules();
    assert |pre| == MaterialStart(ctx) + 12;
    var ns := sc.lightIndices[..sc.lightCount];
    IndexListSplits(ns);
    IndexListEnds(ns);
  }

  // ---------------------------------------------------------------------------
  // The conditional groups.

  /** No rule of the list is named by `names`. */
  predicate Avoids(rules: seq<Rule>, names: seq<string>) {
    forall j :: 0 <= j < |rules| ==> rules[j].name !in names
  }

  const GroupNames: seq<string> := MediumNames + LightNames

  /**
   * The fog and light placeholders are told apart from every other name by
   * length and second character.
   */
  lemma NotGroupName(n: string)
    requires |n| > 1 && n[1] != 'I'
    requires n[1] == 'G' ==> |n| < 20
    requires n[1] == 'L' ==> |n| != 13 && |n| != 15
    ensures n !in GroupNames
  {
  }

  lemma RenderRulesAvoid(ctx: Context)
    ensures Avoids(RenderRules(ctx), GroupNames)
  {
    var rs := RenderRules(ctx);
    NotGroupName(rs[0].name);
    NotGroupName(rs[1].name);
  }

  lemma SettingRulesAvoid(s: Scene.Settings)
    ensures Avoids(SettingRules(s), GroupNames)
  {
    var rs := SettingRules(s);
    forall j | 0 <= j < 7 ensures rs[j].name !in GroupNames {
      var key := Scene.SettingKeys[j];
      assert rs[j].name == Placeholder(key);
      assert key[0] == 'M' || key[0] == 'S';
      NotGroupName(Placeholder(key));
    }
  }

  lemma GeometryRulesAvoid(t: Scene.MeshTable)
    ensures Avoids(GeometryRules(t), GroupNames)
  {
    var rs := GeometryRules(t);
    forall j | 0 <= j < 4 ensures rs[j].name !in GroupNames {
      assert rs[j] == GeometryRule(t, GeometryOrder[j]);
    }
  }

  lemma MaterialRulesAvoid(active: bv32)
    ensures Avoids(MaterialRules(active), GroupNames)
  {
    var rs := MaterialRules(active);
    forall j | 0 <= j < 10 ensures rs[j].name !in GroupNames {
      assert rs[j].name == Placeholder(MaterialNames[j]);
    }
  }

  lemma FixedRulesAvoid()
    ensures Avoids(AbsRules(), GroupNames) && Avoids(SdfRules(), GroupNames)
  {
    var a := AbsRules();
    var d := SdfRules();
    NotGroupName(a[0].name);
    NotGroupName(a[1].name);
    NotGroupName(d[0].name);
    NotGroupName(d[1].name);
    NotGroupName(d[2].name);
    NotGroupName(d[3].name);
  }

  lemma ConditionalRulesAvoid(ctx: Context)
    requires ContextOk(ctx)
    ensures Avoids(MediumRules(ctx), LightNames) && Avoids(LightRules(ctx), MediumNames)
    ensures forall j :: 0 <= j < |MediumRules(ctx)| ==> MediumRules(ctx)[j].name == MediumNames[j]
    ensures forall j :: 0 <= j < |LightRules(ctx)| ==> LightRules(ctx)[j].name == LightNames[j]
  {
  }

  /** Everything but the two conditional groups. */
  lemma FixedGroupsAvoid(ctx: Context)
    requires ContextOk(ctx)
    ensures var sc := ctx.scene;
      && Avoids(RenderRules(ctx), GroupNames) && Avoids(SettingRules(sc.settings), GroupNames)
      && Avoids(GeometryRules(sc.table), GroupNames) && Avoids(MaterialRules(sc.activeMats), GroupNames)
      && Avoids(AbsRules(), GroupNames) && Avoids(SdfRules(), GroupNames)
  {
    RenderRulesAvoid(ctx);
    SettingRulesAvoid(ctx.scene.settings);
    GeometryRulesAvoid(ctx.scene.table);
    MaterialRulesAvoid(ctx.scene.activeMats);
    FixedRulesAvoid();
  }

  lemma AvoidsAppend(a: seq<Rule>, b: seq<Rule>, names: seq<string>)
    requires Avoids(a, names) && Avoids(b, names)
    ensures Avoids(a + b, names)
  {
    forall j | 0 <= j < |a + b| ensures (a + b)[j].name !in names {
      if j < |a| { assert (a + b)[j] == a[j]; } else { assert (a + b)[j] == b[j - |a|]; }
    }
  }

  lemma AvoidsGroups(rules: seq<Rule>)
    requires Avoids(rules, GroupNames)
    ensures Avoids(rules, MediumNames) && Avoids(rules, LightNames)
  {
  }

  /** Avoiding both groups' names, group by group for the fixed groups. */
  lemma FixedGroupsAvoidEach(ctx: Context)
    requires ContextOk(ctx)
    ensures var sc := ctx.scene;
      && Avoids(RenderRules(ctx), MediumNames) && Avoids(SettingRules(sc.settings), MediumNames)
      && Avoids(GeometryRules(sc.table), MediumNames) && Avoids(MaterialRules(sc.activeMats), MediumNames)
      && Avoids(AbsRules(), MediumNames) && Avoids(SdfRules(), MediumNames)
    ensures var sc := ctx.scene;
      && Avoids(RenderRules(ctx), LightNames) && Avoids(SettingRules(sc.settings), LightNames)
      && Avoids(GeometryRules(sc.table), LightNames) && Avoids(MaterialRules(sc.activeMats), LightNames)
      && Avoids(AbsRules(), LightNames) && Avoids(SdfRules(), LightNames)
  {
    var sc := ctx.scene;
    FixedGroupsAvoid(ctx);
    AvoidsGroups(RenderRules(ctx));
    AvoidsGroups(SettingRules(sc.settings));
    AvoidsGroups(GeometryRules(sc.table));
    AvoidsGroups(MaterialRules(sc.activeMats));
    AvoidsGroups(AbsRules());
    AvoidsGroups(SdfRules());
  }

  /** A list made of eight parts avoids the names when each part does. */
  lemma AvoidsEight(p1: seq<Rule>, p2: seq<Rule>, p3: seq<Rule>, p4: seq<Rule>,
                    p5: seq<Rule>, p6: seq<Rule>, p7: seq<Rule>, p8: seq<Rule>, names: seq<string>)
    requires Avoids(p1, names) && Avoids(p2, names) && Avoids(p3, names) && Avoids(p4, names)
    requires Avoids(p5, names) && Avoids(p6, names) && Avoids(p7, names) && Avoids(p8, names)
    ensures Avoids(p1 + p2 + p3 + p4 + p5 + p6 + p7 + p8, names)
  {
    AvoidsAppend(p1, p2, names);
    AvoidsAppend(p1 + p2, p3, names);
    AvoidsAppend(p1 + p2 + p3, p4, names);
    AvoidsAppend(p1 + p2 + p3 + p4, p5, names);
    AvoidsAppend(p1 + p2 + p3 + p4 + p5, p6, names);
    AvoidsAppend(p1 + p2 + p3 + p4 + p5 + p6, p7, names);
    AvoidsAppend(p1 + p2 + p3 + p4 + p5 + p6 + p7, p8, names);
  }

  /** A fog placeholder is recognised exactly when the scene has a global medium. */
  lemma MediumRulesOnlyWithMedium(ctx: Context)
    requires ContextOk(ctx)
    ensures (exists j :: 0 <= j < |Rules(ctx)| && Rules(ctx)[j].name in MediumNames) <==> ctx.scene.hasGlobalMedium
  {
    var sc := ctx.scene;
    ConditionalRulesAvoid(ctx);
    if sc.hasGlobalMedium {
      assert Rules(ctx)[2] == MediumRules(ctx)[0];
    } else {
      FixedGroupsAvoidEach(ctx);
      AvoidsEight(RenderRules(ctx), MediumRules(ctx), SettingRules(sc.settings), GeometryRules(sc.table),
        MaterialRules(sc.activeMats), AbsRules(), LightRules(ctx), SdfRules(), MediumNames);
    }
  }

  /** A light placeholder is recognised exactly when the scene has a light. */
  lemma LightRulesOnlyWithLights(ctx: Context)
    requires ContextOk(ctx)
    ensures (exists j :: 0 <= j < |Rules(ctx)| && Rules(ctx)[j].name in LightNames) <==> ctx.scene.lightCount != 0
  {
    var sc := ctx.scene;
    ConditionalRulesAvoid(ctx);
    if sc.lightCount != 0 {
      var k := 2 + MediumCount(ctx) + 7 + 4 + 10 + 2;
      assert Rules(ctx)[k] == LightRules(ctx)[0];
    } else {
      FixedGroupsAvoidEach(ctx);
      AvoidsEight(RenderRules(ctx), MediumRules(ctx), SettingRules(sc.settings), GeometryRules(sc.table),
        MaterialRules(sc.activeMats), AbsRules(), LightRules(ctx), SdfRules(), LightNames);
    }
  }

  /** Without a global medium, a line whose only placeholders are fog placeholders passes through unchanged. */
  lemma FogLineWithoutMedium(ctx: Context, line: string)
    requires ContextOk(ctx) && !ctx.scene.hasGlobalMedium
    requires forall j :: 0 <= j < |Rules(ctx)| && Matches(line, Rules(ctx)[j]) ==> Rules(ctx)[j].name in MediumNames
    ensures RewriteLine(line, Rules(ctx)) == line + "\n"
  {
    MediumRulesOnlyWithMedium(ctx);
  }

  /** Without lights, a line whose only placeholders are light placeholders passes through unchanged. */
  lemma LightLineWithoutLights(ctx: Context, line: string)
    requires ContextOk(ctx) && ctx.scene.lightCount == 0
    requires forall j :: 0 <= j < |Rules(ctx)| && Matches(line, Rules(ctx)[j]) ==> Rules(ctx)[j].name in LightNames
    ensures RewriteLine(line, Rules(ctx)) == line + "\n"
  {
    LightRulesOnlyWithLights(ctx);
  }

  // ---------------------------------------------------------------------------
  // Whole files.

  /** A file system: the lines of each readable file. */
  type Files = map<string, seq<string>>

  /** Why `parse` gives up: a file it cannot open (the source exits), or includes nested deeper than the fuel. */
  datatype ParseError = MissingFile(path: string) | TooDeep(path: string)

  const IncludeTag: string := "#FILE:"
  const KernelDir: string := "../kernels/"

  /** `line.substr(0, 6) == "#FILE:"`. */
  predicate IsInclude(line: string) { |line| >= 6 && line[..6] == IncludeTag }

  /** The file a `#FILE:` line names. */
  function IncludePath(line: string): string
    requires IsInclude(line)
  {
    KernelDir + line[6..]
  }

  /** Two pieces of output in order; the first failure wins. */
  function Combine(a: Result<string, ParseError>, b: Result<string, ParseError>): Result<string, ParseError> {
    if a.Failure? then a else if b.Failure? then b else Success(a.value + b.value)
  }

  /**
   * The processed text of `lines`.  A `#FILE:` line contributes the processed
   * file it names, searched with one unit of fuel less; every other line is
   * rewritten by the rules.  Cyclic includes make the source recurse without
   * end, which the fuel turns into `TooDeep`.
   */
  function ParseLines(files: Files, lines: seq<string>, rules: seq<Rule>, fuel: nat): Result<string, ParseError>
    decreases fuel, |lines|
  {
    if lines == [] then Success([])
    else
      var line := lines[0];
      var head :=
        if !IsInclude(line) then Success(RewriteLine(line, rules))
        else if fuel == 0 then Failure(TooDeep(IncludePath(line)))
        else if IncludePath(line) !in files then Failure(MissingFile(IncludePath(line)))
        else ParseLines(files, files[IncludePath(line)], rules, fuel - 1);
      Combine(head, ParseLines(files, lines[1..], rules, fuel))
  }

  /** `parse(filepath, scene)`: the file's processed text, or why there is none. */
  function Parse(files: Files, path: string, rules: seq<Rule>, fuel: nat): Result<string, ParseError> {
    if path !in files then Failure(MissingFile(path)) else ParseLines(files, files[path], rules, fuel)
  }

  /** The kernel source for a scene. */
  function KernelSource(files: Files, path: string, ctx: Context, fuel: nat): Result<string, ParseError>
    requires ContextOk(ctx)
  {
    Parse(files, path, Rules(ctx), fuel)
  }

  /** The rewritten lines, concatenated in order. */
  function RewriteAll(lines: seq<string>, rules: seq<Rule>): string {
    if lines == [] then [] else RewriteLine(lines[0], rules) + RewriteAll(lines[1..], rules)
  }

  lemma CombineAssociative(a: Result<string, ParseError>, b: Result<string, ParseError>, c: Result<string, ParseError>)
    ensures Combine(Combine(a, b), c) == Combine(a, Combine(b, c))
  {
    if a.Success? && b.Success? && c.Success? {
      assert (a.value + b.value) + c.value == a.value + (b.value + c.value);
    }
  }

  /** The output of `a + b` is the output of `a` followed by that of `b`, and the first failure in line order wins. */
  lemma {:induction false} ParseAppend(files: Files, a: seq<string>, b: seq<string>, rules: seq<Rule>, fuel: nat)
    ensures ParseLines(files, a + b, rules, fuel) == Combine(ParseLines(files, a, rules, fuel), ParseLines(files, b, rules, fuel))
    decreases |a|
  {
    if a == [] {
      assert a + b == b;
      var r := ParseLines(files, b, rules, fuel);
      if r.Success? { assert [] + r.value == r.value; }
    } else {
      assert (a + b)[0] == a[0] && (a + b)[1..] == a[1..] + b;
      ParseAppend(files, a[1..], b, rules, fuel);
      var line := a[0];
      var head :=
        if !IsInclude(line) then Success(RewriteLine(line, rules))
        else if fuel == 0 then Failure(TooDeep(IncludePath(line)))
        else if IncludePath(line) !in files then Failure(MissingFile(IncludePath(line)))
        else ParseLines(files, files[IncludePath(line)], rules, fuel - 1);
      CombineAssociative(head, ParseLines(files, a[1..], rules, fuel), ParseLines(files, b, rules, fuel));
    }
  }

  /** Without `#FILE:` lines nothing can fail, and every line is rewritten in order. */
  lemma {:induction false} ParseWithoutIncludes(files: Files, lines: seq<string>, rules: seq<Rule>, fuel: nat)
    requires forall i :: 0 <= i < |lines| ==> !IsInclude(lines[i])
    ensures ParseLines(files, lines, rules, fuel) == Success(RewriteAll(lines, rules))
    decreases |lines|
  {
    if lines != [] {
      ParseWithoutIncludes(files, lines[1..], rules, fuel);
    }
  }

  /** A `#FILE:` line stands for the processed contents of "../kernels/" followed by the rest of the line. */
  lemma IncludeLine(files: Files, line: string, rules: seq<Rule>, fuel: nat)
    requires IsInclude(line) && fuel > 0
    ensures ParseLines(files, [line], rules, fuel) == Parse(files, KernelDir + line[6..], rules, fuel - 1)
  {
    var r := Parse(files, KernelDir + line[6..], rules, fuel - 1);
    assert [line][1..] == [];
    if r.Success? { assert r.value + [] == r.value; }
  }

  /** Including a file that does not exist fails with that file's path, whatever comes after it. */
  lemma MissingInclude(files: Files, line: string, rest: seq<string>, rules: seq<Rule>, fuel: nat)
    requires IsInclude(line) && fuel > 0 && IncludePath(line) !in files
    ensures ParseLines(files, [line] + rest, rules, fuel) == Failure(MissingFile(IncludePath(line)))
  {
    assert ([line] + rest)[0] == line;
  }

  /** More fuel never changes a result that was reached: the fuel only cuts off runaway nesting. */
  lemma {:induction false} FuelMonotone(files: Files, lines: seq<string>, rules: seq<Rule>, fuel: nat)
    requires ParseLines(files, lines, rules, fuel).Success?
    ensures ParseLines(files, lines, rules, fuel + 1) == ParseLines(files, lines, rules, fuel)
    decreases fuel, |lines|
  {
    if lines != [] {
      var line := lines[0];
      FuelMonotone(files, lines[1..], rules, fuel);
      if IsInclude(line) && fuel > 0 && IncludePath(line) in files {
        FuelMonotone(files, files[IncludePath(line)], rules, fuel - 1);
      }
    }
  }
}

=== FILE: linear_algebra.dfy ===
/**
 * The `vec4` value type of include/Math/linear_algebra.h, over mathematical
 * reals (no IEEE rounding).  In the source `vec3` is a macro for `vec4`, so a
 * single datatype serves both; "3D" operations simply ignore or zero `w`.
 */
module LinearAlgebra {

  datatype Vec4 = Vec4(x: real, y: real, z: real, w: real)

  /** `vec4()`: every component zero. */
  function Zero(): Vec4 { Vec4(0.0, 0.0, 0.0, 0.0) }

  /** `vec4(float val)`: the value in all four components. */
  function Splat(v: real): Vec4 { Vec4(v, v, v, v) }

  /** `vec4(x, y)`: z and w are zero. */
  function FromXY(x: real, y: real): Vec4 { Vec4(x, y, 0.0, 0.0) }

  /** `vec4(x, y, z)`, i.e. `vec3(x, y, z)`: w is zero. */
  function FromXYZ(x: real, y: real, z: real): Vec4 { Vec4(x, y, z, 0.0) }

  /** The xyz part of a vector, as a `vec3` (w dropped to zero). */
  function XYZ(v: Vec4): Vec4 { FromXYZ(v.x, v.y, v.z) }

  /** The four components in memory order (the `_v[4]` view of the union). */
  function Components(v: Vec4): seq<real> { [v.x, v.y, v.z, v.w] }

  /** The memory slot `operator[]` selects: 0, 1, 2 for those indices, 3 for anything else. */
  function Slot(i: int): (k: nat)
    ensures k < 4
    ensures 0 <= i < 3 ==> k == i
    ensures !(0 <= i < 3) ==> k == 3
  {
    if i == 0 then 0 else if i == 1 then 1 else if i == 2 then 2 else 3
  }

  /** `operator[](int) const`. */
  function Index(v: Vec4, i: int): real {
    if i == 0 then v.x else if i == 1 then v.y else if i == 2 then v.z else v.w
  }

  /** Assignment through the reference returned by `operator[](int)`. */
  function SetIndex(v: Vec4, i: int, a: real): Vec4 {
    if i == 0 then v.(x := a)
    else if i == 1 then v.(y := a)
    else if i == 2 then v.(z := a)
    else v.(w := a)
  }

  // Componentwise arithmetic, vector with scalar and vector with vector.
  function AddS(v: Vec4, a: real): Vec4 { Vec4(v.x + a, v.y + a, v.z + a, v.w + a) }
  function SubS(v: Vec4, a: real): Vec4 { Vec4(v.x - a, v.y - a, v.z - a, v.w - a) }
  function MulS(v: Vec4, a: real): Vec4 { Vec4(v.x * a, v.y * a, v.z * a, v.w * a) }
  function DivS(v: Vec4, a: real): Vec4
    requires a != 0.0
  {
    Vec4(v.x / a, v.y / a, v.z / a, v.w / a)
  }
  function Add(u: Vec4, v: Vec4): Vec4 { Vec4(u.x + v.x, u.y + v.y, u.z + v.z, u.w + v.w) }
  function Sub(u: Vec4, v: Vec4): Vec4 { Vec4(u.x - v.x, u.y - v.y, u.z - v.z, u.w - v.w) }
  function Mul(u: Vec4, v: Vec4): Vec4 { Vec4(u.x * v.x, u.y * v.y, u.z * v.z, u.w * v.w) }
  function Div(u: Vec4, v: Vec4): Vec4
    requires v.x != 0.0 && v.y != 0.0 && v.z != 0.0 && v.w != 0.0
  {
    Vec4(u.x / v.x, u.y / v.y, u.z / v.z, u.w / v.w)
  }

  // The free operators with the scalar on the left.
  function ScalarAdd(f: real, v: Vec4): Vec4 { AddS(v, f) }
  function ScalarSub(f: real, v: Vec4): Vec4 { Sub(Splat(f), v) }
  function ScalarMul(f: real, v: Vec4): Vec4 { MulS(v, f) }

  /** `operator!=`: only x, y and z are compared. */
  predicate NotEqual(u: Vec4, v: Vec4) {
    u.x != v.x || u.y != v.y || u.z != v.z
  }

  /** `fmin` / `fmax` on reals (no NaN). */
  function Min(a: real, b: real): real { if a <= b then a else b }
  function Max(a: real, b: real): real { if a >= b then a else b }

  function Min4(u: Vec4, v: Vec4): Vec4 { Vec4(Min(u.x, v.x), Min(u.y, v.y), Min(u.z, v.z), Min(u.w, v.w)) }
  function Max4(u: Vec4, v: Vec4): Vec4 { Vec4(Max(u.x, v.x), Max(u.y, v.y), Max(u.z, v.z), Max(u.w, v.w)) }
  function Min3(u: Vec4, v: Vec4): Vec4 { FromXYZ(Min(u.x, v.x), Min(u.y, v.y), Min(u.z, v.z)) }
  function Max3(u: Vec4, v: Vec4): Vec4 { FromXYZ(Max(u.x, v.x), Max(u.y, v.y), Max(u.z, v.z)) }

  function Dot(u: Vec4, v: Vec4): real { u.x * v.x + u.y * v.y + u.z * v.z }

  function Cross(u: Vec4, v: Vec4): Vec4 {
    FromXYZ(u.y * v.z - u.z * v.y, u.z * v.x - u.x * v.z, u.x * v.y - u.y * v.x)
  }

  /** `fract(x) = x - floor(x)`. */
  function Fract(a: real): (r: real)
    ensures 0.0 <= r < 1.0
    ensures (a - r).Floor as real == a - r
  {
    a - a.Floor as real
  }

  /** `operator[]` reads component Slot(i): 0, 1, 2 are x, y, z; every other index is w. */
  lemma IndexReadsSlot(v: Vec4, i: int)
    ensures Index(v, i) == Components(v)[Slot(i)]
  {
  }

  /** Writing through `operator[]` and reading back gives the written value; the other slots keep theirs. */
  lemma SetIndexThenIndex(v: Vec4, i: int, a: real, j: int)
    ensures Index(SetIndex(v, i, a), j) == if Slot(j) == Slot(i) then a else Index(v, j)
  {
  }

  /** The one-, two- and three-argument constructors fill the missing slots as documented. */
  lemma ConstructorsFillSlots(a: real, b: real, c: real, i: int)
    ensures Index(FromXYZ(a, b, c), i) == Components(Vec4(a, b, c, 0.0))[Slot(i)]
    ensures Index(FromXY(a, b), i) == Components(Vec4(a, b, 0.0, 0.0))[Slot(i)]
    ensures Index(Splat(a), i) == a
    ensures Index(Zero(), i) == 0.0
  {
  }

  /** `!=` ignores w: two vectors are unequal exactly when their xyz parts differ. */
  lemma NotEqualIgnoresW(u: Vec4, v: Vec4)
    ensures NotEqual(u, v) <==> XYZ(u) != XYZ(v)
    ensures u.x == v.x && u.y == v.y && u.z == v.z && u.w != v.w ==> u != v && !NotEqual(u, v)
  {
  }

  /** min4/max4 are the componentwise greatest lower / least upper bound, attained by an argument. */
  lemma MinMax4Bounds(u: Vec4, v: Vec4)
    ensures forall i :: Index(Min4(u, v), i) <= Index(u, i) && Index(Min4(u, v), i) <= Index(v, i)
    ensures forall i :: Index(Min4(u, v), i) == Index(u, i) || Index(Min4(u, v), i) == Index(v, i)
    ensures forall i :: Index(Max4(u, v), i) >= Index(u, i) && Index(Max4(u, v), i) >= Index(v, i)
    ensures forall i :: Index(Max4(u, v), i) == Index(u, i) || Index(Max4(u, v), i) == Index(v, i)
  {
  }

  /** min3/max3 agree with min4/max4 on xyz and zero w. */
  lemma MinMax3AreXYZOf4(u: Vec4, v: Vec4)
    ensures Min3(u, v) == XYZ(Min4(u, v))
    ensures Max3(u, v) == XYZ(Max4(u, v))
    ensures Min3(u, v).w == 0.0 && Max3(u, v).w == 0.0
  {
  }

  /** `dot` and `cross` read only xyz; `cross` has zero w and is orthogonal to both arguments. */
  lemma DotCrossUseXYZ(u: Vec4, v: Vec4)
    ensures Dot(u, v) == Dot(XYZ(u), XYZ(v)) == Dot(v, u)
    ensures Cross(u, v) == Cross(XYZ(u), XYZ(v))
    ensures Cross(u, v).w == 0.0
    ensures Cross(v, u) == MulS(Cross(u, v), -1.0)
    ensures Dot(Cross(u, v), u) == 0.0 && Dot(Cross(u, v), v) == 0.0
  {
  }

  /**
   * The scalar-first operators act as the vector-vector operators on the
   * broadcast scalar: `f + v` and `f * v` commute, and `f - v` is `-(v - f)`,
   * that is `f + (-v)`.
   */
  lemma ScalarFirstOperators(f: real, v: Vec4)
    ensures ScalarAdd(f, v) == Add(Splat(f), v) && ScalarAdd(f, v) == Add(v, Splat(f))
    ensures ScalarMul(f, v) == Mul(Splat(f), v) && ScalarMul(f, v) == Mul(v, Splat(f))
    ensures ScalarSub(f, v) == MulS(SubS(v, f), -1.0)
    ensures ScalarSub(f, v) == ScalarAdd(f, MulS(v, -1.0))
  {
  }
}

=== FILE: material.dfy ===
/**
 * The material and texture bit flags and the `Material` record of
 * include/Types/material.h.  Material flags are `uint16_t`, texture flags
 * `uint8_t`, so they are `bv16` and `bv8` here.
 */
module Materials {
  import opened LinearAlgebra

  const LIGHT: bv16 := 1 << 0
  const DIFF: bv16 := 1 << 1
  const COND: bv16 := 1 << 2
  const ROUGH_COND: bv16 := 1 << 10
  const DIEL: bv16 := 1 << 3
  const ROUGH_DIEL: bv16 := 1 << 11
  const COAT: bv16 := 1 << 4
  const VOL: bv16 := 1 << 5
  const TRANS: bv16 := 1 << 6
  const SPECSUB: bv16 := 1 << 7
  const ABS_REFR: bv16 := 1 << 8
  const ABS_REFR2: bv16 := 1 << 9

  /** The twelve material flags, in declaration order. */
  const MaterialFlags: seq<bv16> :=
    [LIGHT, DIFF, COND, ROUGH_COND, DIEL, ROUGH_DIEL, COAT, VOL, TRANS, SPECSUB, ABS_REFR, ABS_REFR2]

  const TOTAL_TEX_TYPES: bv8 := 4
  const TEX_NULL: bv8 := 0
  const TEX_1: bv8 := 1 << 0
  const TEX_2: bv8 := 1 << 1
  const TEX_3: bv8 := 1 << 2
  const TEX_4: bv8 := 1 << 3

  const TextureFlags: seq<bv8> := [TEX_1, TEX_2, TEX_3, TEX_4]

  /** A flag with exactly one bit set. */
  predicate SingleBit16(f: bv16) { f != 0 && f & (f - 1) == 0 }
  predicate SingleBit8(f: bv8) { f != 0 && f & (f - 1) == 0 }

  /**
   * The `Material` struct.  `t` is the `cl_ushort` type mask and `tex` the
   * `cl_uchar` texture mask; `b` is the flag the source leaves unnamed.
   */
  datatype Material = Material(color: Vec4, roughness: real, t: bv16, tex: bv8, b: bool)

  /** `Material()`: white colour with w = 0, roughness 0, diffuse, untextured, `b` set. */
  function DefaultMaterial(): (m: Material)
    ensures m.color == Vec4(1.0, 1.0, 1.0, 0.0) && m.roughness == 0.0
    ensures m.t == DIFF && SingleBit16(m.t)
    ensures m.tex == TEX_NULL && m.b
  {
    Material(Vec4(1.0, 1.0, 1.0, 0.0), 0.0, DIFF, TEX_NULL, true)
  }

  /** Each material flag is a single bit. */
  lemma MaterialFlagsAreSingleBits()
    ensures |MaterialFlags| == 12
    ensures forall i :: 0 <= i < |MaterialFlags| ==> SingleBit16(MaterialFlags[i])
  {
  }

  /** No two material flags share a bit, so in particular they are pairwise distinct. */
  lemma MaterialFlagsDisjoint()
    ensures forall i, j :: 0 <= i < j < |MaterialFlags| ==> MaterialFlags[i] & MaterialFlags[j] == 0
    ensures forall i, j :: 0 <= i < j < |MaterialFlags| ==> MaterialFlags[i] != MaterialFlags[j]
  {
  }

  /** Together the material flags fill exactly bits 0 to 11 of the 16-bit type field. */
  lemma MaterialFlagsCoverLowBits()
    ensures LIGHT | DIFF | COND | ROUGH_COND | DIEL | ROUGH_DIEL | COAT | VOL | TRANS | SPECSUB | ABS_REFR | ABS_REFR2 == 0x0FFF
    ensures forall i :: 0 <= i < |MaterialFlags| ==> MaterialFlags[i] < 0x1000
  {
  }

  /** TEX_NULL is no bit; TEX_1..TEX_4 are four distinct single bits. */
  lemma TextureFlagsAreBits()
    ensures TEX_NULL == 0 && TOTAL_TEX_TYPES as int == |TextureFlags|
    ensures forall i :: 0 <= i < |TextureFlags| ==> SingleBit8(TextureFlags[i])
    ensures forall i, j :: 0 <= i < j < |TextureFlags| ==> TextureFlags[i] & TextureFlags[j] == 0
  {
  }
}

=== FILE: math_help.dfy ===
/**
 * The bounding-box helpers of src/Math/MathHelp.cpp over reals.  A box is the
 * pair of out-parameters (`bbMin`, `bbMax`) the C++ functions write.
 */
module MathHelp {
  import opened LinearAlgebra

  datatype Box = Box(lo: Vec4, hi: Vec4)

  /** Four unsigned components (`cl_uint4`). */
  datatype Uint4 = Uint4(x: nat, y: nat, z: nat, w: nat)

  /** `Tri`: vertex and normal indices (the w of each holds the face's own index) and its box. */
  datatype Tri = Tri(face: Uint4, normals: Uint4, bbMin: Vec4, bbMax: Vec4)

  /** `lo` is componentwise at most `p` and `hi` at least `p`, on xyz. */
  predicate Encloses(b: Box, p: Vec4) {
    b.lo.x <= p.x <= b.hi.x && b.lo.y <= p.y <= b.hi.y && b.lo.z <= p.z <= b.hi.z
  }

  /** Every xyz bound of `b` is attained by some point of `ps`. */
  predicate Attained(b: Box, ps: seq<Vec4>) {
    && (exists i :: 0 <= i < |ps| && ps[i].x == b.lo.x) && (exists i :: 0 <= i < |ps| && ps[i].x == b.hi.x)
    && (exists i :: 0 <= i < |ps| && ps[i].y == b.lo.y) && (exists i :: 0 <= i < |ps| && ps[i].y == b.hi.y)
    && (exists i :: 0 <= i < |ps| && ps[i].z == b.lo.z) && (exists i :: 0 <= i < |ps| && ps[i].z == b.hi.z)
  }

  /**
   * `getAABB(vertices, ...)`: start from the first vertex (as a `vec3`, so w is
   * zero) and fold the later ones in, left to right, with `<` / `>` selections.
   */
  function PointAABB(vs: seq<Vec4>): (b: Box)
    requires |vs| > 0
    ensures b.lo.w == 0.0 && b.hi.w == 0.0
    ensures forall i :: 0 <= i < |vs| ==> Encloses(b, vs[i])
    ensures Attained(b, vs)
  {
    if |vs| == 1 then Box(XYZ(vs[0]), XYZ(vs[0]))
    else
      var acc := PointAABB(vs[..|vs| - 1]);
      var v := vs[|vs| - 1];
      assert forall i :: 0 <= i < |vs| - 1 ==> vs[..|vs| - 1][i] == vs[i];
      Box(FromXYZ(if acc.lo.x < v.x then acc.lo.x else v.x,
                  if acc.lo.y < v.y then acc.lo.y else v.y,
                  if acc.lo.z < v.z then acc.lo.z else v.z),
          FromXYZ(if acc.hi.x > v.x then acc.hi.x else v.x,
                  if acc.hi.y > v.y then acc.hi.y else v.y,
                  if acc.hi.z > v.z then acc.hi.z else v.z))
  }

  /** The enclosing box is the tightest one: any box enclosing all points contains it. */
  lemma PointAABBIsTightest(vs: seq<Vec4>, other: Box)
    requires |vs| > 0
    requires forall i :: 0 <= i < |vs| ==> Encloses(other, vs[i])
    ensures Encloses(other, PointAABB(vs).lo) && Encloses(other, PointAABB(vs).hi)
  {
    var b := PointAABB(vs);
    var i0 :| 0 <= i0 < |vs| && vs[i0].x == b.lo.x;
    var i1 :| 0 <= i1 < |vs| && vs[i1].x == b.hi.x;
    var i2 :| 0 <= i2 < |vs| && vs[i2].y == b.lo.y;
    var i3 :| 0 <= i3 < |vs| && vs[i3].y == b.hi.y;
    var i4 :| 0 <= i4 < |vs| && vs[i4].z == b.lo.z;
    var i5 :| 0 <= i5 < |vs| && vs[i5].z == b.hi.z;
    assert Encloses(other, vs[i0]) && Encloses(other, vs[i1]) && Encloses(other, vs[i2]);
    assert Encloses(other, vs[i3]) && Encloses(other, vs[i4]) && Encloses(other, vs[i5]);
  }

  /**
   * `getAABB(bbMins, bbMaxs, ...)`: componentwise `fmin` over the first
   * |bbMins| minima and `fmax` over as many maxima.  Only slots 0..2 of the
   * out-parameters are written, so their w (`prior`) survives.
   */
  function BoxUnion(mins: seq<Vec4>, maxs: seq<Vec4>, prior: Box): (b: Box)
    requires 0 < |mins| <= |maxs|
    ensures b.lo.w == prior.lo.w && b.hi.w == prior.hi.w
    ensures forall i :: 0 <= i < |mins| ==> b.lo.x <= mins[i].x && b.lo.y <= mins[i].y && b.lo.z <= mins[i].z
    ensures forall i :: 0 <= i < |mins| ==> b.hi.x >= maxs[i].x && b.hi.y >= maxs[i].y && b.hi.z >= maxs[i].z
  {
    if |mins| == 1 then
      Box(Vec4(mins[0].x, mins[0].y, mins[0].z, prior.lo.w), Vec4(maxs[0].x, maxs[0].y, maxs[0].z, prior.hi.w))
    else
      var n := |mins| - 1;
      var acc := BoxUnion(mins[..n], maxs[..n], prior);
      assert forall i :: 0 <= i < n ==> mins[..n][i] == mins[i] && maxs[..n][i] == maxs[i];
      Box(Vec4(Min(mins[n].x, acc.lo.x), Min(mins[n].y, acc.lo.y), Min(mins[n].z, acc.lo.z), acc.lo.w),
          Vec4(Max(maxs[n].x, acc.hi.x), Max(maxs[n].y, acc.hi.y), Max(maxs[n].z, acc.hi.z), acc.hi.w))
  }

  /** Every bound of the union is one of the boxes' own bounds. */
  lemma {:induction false} BoxUnionAttained(mins: seq<Vec4>, maxs: seq<Vec4>, prior: Box)
    requires 0 < |mins| <= |maxs|
    ensures var b := BoxUnion(mins, maxs, prior);
      && (exists i :: 0 <= i < |mins| && b.lo.x == mins[i].x) && (exists i :: 0 <= i < |mins| && b.hi.x == maxs[i].x)
      && (exists i :: 0 <= i < |mins| && b.lo.y == mins[i].y) && (exists i :: 0 <= i < |mins| && b.hi.y == maxs[i].y)
      && (exists i :: 0 <= i < |mins| && b.lo.z == mins[i].z) && (exists i :: 0 <= i < |mins| && b.hi.z == maxs[i].z)
  {
    if |mins| > 1 {
      var n := |mins| - 1;
      BoxUnionAttained(mins[..n], maxs[..n], prior);
      assert forall i :: 0 <= i < n ==> mins[..n][i] == mins[i] && maxs[..n][i] == maxs[i];
    } else {
      var b := BoxUnion(mins, maxs, prior);
      assert b.lo.x == mins[0].x && b.lo.y == mins[0].y && b.lo.z == mins[0].z;
      assert b.hi.x == maxs[0].x && b.hi.y == maxs[0].y && b.hi.z == maxs[0].z;
    }
  }

  /** Maxima past |bbMins| are never read. */
  lemma {:induction false} BoxUnionIgnoresExtraMaxima(mins: seq<Vec4>, maxs: seq<Vec4>, extra: seq<Vec4>, prior: Box)
    requires 0 < |mins| <= |maxs|
    ensures BoxUnion(mins, maxs + extra, prior) == BoxUnion(mins, maxs, prior)
  {
    if |mins| > 1 {
      var n := |mins| - 1;
      assert (maxs + extra)[..n] == maxs[..n];
      assert (maxs + extra)[n] == maxs[n];
    }
  }

  function Abs(a: real): real { if a < 0.0 then -a else a }

  /** `getSurfaceArea`: 2(xy + zy + xz) over the absolute extents. */
  function SurfaceArea(lo: Vec4, hi: Vec4): (r: real)
    ensures r >= 0.0
  {
    var dx := Abs(hi.x - lo.x);
    var dy := Abs(hi.y - lo.y);
    var dz := Abs(hi.z - lo.z);
    assert dx * dy >= 0.0 && dz * dy >= 0.0 && dx * dz >= 0.0 by {
      NonNegProduct(dx, dy); NonNegProduct(dz, dy); NonNegProduct(dx, dz);
    }
    2.0 * (dx * dy + dz * dy + dx * dz)
  }

  lemma NonNegProduct(a: real, b: real)
    requires a >= 0.0 && b >= 0.0
    ensures a * b >= 0.0
  {
  }

  lemma PosProduct(a: real, b: real)
    requires a > 0.0 && b > 0.0
    ensures a * b > 0.0
  {
  }

  /** Swapping the corners does not change the area, and for an ordered box it is the usual formula. */
  lemma SurfaceAreaSymmetric(lo: Vec4, hi: Vec4)
    ensures SurfaceArea(lo, hi) == SurfaceArea(hi, lo)
    ensures lo.x <= hi.x && lo.y <= hi.y && lo.z <= hi.z ==>
      SurfaceArea(lo, hi) == 2.0 * ((hi.x - lo.x) * (hi.y - lo.y) + (hi.y - lo.y) * (hi.z - lo.z) + (hi.x - lo.x) * (hi.z - lo.z))
  {
  }

  /** `getOverlapSA`: the area of the extents `a - b`, but 0 unless all three are strictly positive. */
  function OverlapSA(a: Vec4, b: Vec4): (r: real)
    ensures r >= 0.0
    ensures r > 0.0 <==> (a.x - b.x > 0.0 && a.y - b.y > 0.0 && a.z - b.z > 0.0)
  {
    var sx := a.x - b.x;
    var sy := a.y - b.y;
    var sz := a.z - b.z;
    if Min(sx, Min(sy, sz)) > 0.0 then
      PosProduct(sx, sy); PosProduct(sx, sz); PosProduct(sy, sz);
      2.0 * (sx * sy + sx * sz + sy * sz)
    else 0.0
  }

  /** `longestAxis`: compare x with y first, then the winner with z; ties go to y, then to z. */
  function LongestAxis(lo: Vec4, hi: Vec4): (axis: int)
    ensures 0 <= axis <= 2
    ensures var s := Sub(hi, lo);
      && (axis == 0 <==> s.x > s.y && s.x > s.z)
      && (axis == 1 <==> s.x <= s.y && s.y > s.z)
  {
    var sides := Sub(hi, lo);
    if Index(sides, 0) > Index(sides, 1) then
      (if Index(sides, 0) > Index(sides, 2) then 0 else 2)
    else
      (if Index(sides, 1) > Index(sides, 2) then 1 else 2)
  }

  /** The chosen axis has the largest extent. */
  lemma LongestAxisIsLongest(lo: Vec4, hi: Vec4)
    ensures forall i :: 0 <= i < 3 ==> Index(Sub(hi, lo), LongestAxis(lo, hi)) >= Index(Sub(hi, lo), i)
  {
  }

  /** `getTriangleAABB`: the point box of the three vertices. */
  function TriangleAABB(v0: Vec4, v1: Vec4, v2: Vec4): (b: Box)
    ensures Encloses(b, v0) && Encloses(b, v1) && Encloses(b, v2)
    ensures Attained(b, [v0, v1, v2])
    ensures b.lo.w == 0.0 && b.hi.w == 0.0
  {
    var b := PointAABB([v0, v1, v2]);
    assert [v0, v1, v2][0] == v0 && [v0, v1, v2][1] == v1 && [v0, v1, v2][2] == v2;
    b
  }

  /** `getTriangleCentroid`: the mean of the three xyz parts, w zero. */
  function TriangleCentroid(v0: Vec4, v1: Vec4, v2: Vec4): (c: Vec4)
    ensures c.w == 0.0
    ensures 3.0 * c.x == v0.x + v1.x + v2.x && 3.0 * c.y == v0.y + v1.y + v2.y && 3.0 * c.z == v0.z + v1.z + v2.z
  {
    DivS(Add(Add(XYZ(v0), XYZ(v1)), XYZ(v2)), 3.0)
  }

  /** The centroid lies inside the triangle's box. */
  lemma CentroidInsideBox(v0: Vec4, v1: Vec4, v2: Vec4)
    ensures Encloses(TriangleAABB(v0, v1, v2), TriangleCentroid(v0, v1, v2))
  {
  }

  /**
   * `getTriangleCenter` as written: `(bbMax - bbMin) / 2`, which is half the
   * box's extent rather than its centre.
   */
  function TriangleCenter(v0: Vec4, v1: Vec4, v2: Vec4): (c: Vec4)
    ensures var b := TriangleAABB(v0, v1, v2);
      2.0 * c.x == b.hi.x - b.lo.x && 2.0 * c.y == b.hi.y - b.lo.y && 2.0 * c.z == b.hi.z - b.lo.z
    ensures c.x >= 0.0 && c.y >= 0.0 && c.z >= 0.0 && c.w == 0.0
  {
    var b := TriangleAABB(v0, v1, v2);
    DivS(Sub(b.hi, b.lo), 2.0)
  }

  /**
   * Any triangle whose x coordinates all lie in [m, m + d] with 2m > d has a
   * "center" outside its own box.
   */
  lemma TriangleCenterOutsideBox(v0: Vec4, v1: Vec4, v2: Vec4, m: real, d: real)
    requires 2.0 * m > d
    requires m <= v0.x <= m + d && m <= v1.x <= m + d && m <= v2.x <= m + d
    ensures !Encloses(TriangleAABB(v0, v1, v2), TriangleCenter(v0, v1, v2))
  {
    var vs := [v0, v1, v2];
    var b := TriangleAABB(v0, v1, v2);
    assert forall i :: 0 <= i < 3 ==> m <= vs[i].x <= m + d;
    var i :| 0 <= i < 3 && vs[i].x == b.lo.x;
    var j :| 0 <= j < 3 && vs[j].x == b.hi.x;
    assert TriangleCenter(v0, v1, v2).x < b.lo.x;
  }

  /** The triangle (10,10,10), (12,10,10), (10,12,10): its "center" has x = 1, far outside [10, 12]. */
  lemma TriangleCenterCounterexample()
    ensures !Encloses(TriangleAABB(FromXYZ(10.0, 10.0, 10.0), FromXYZ(12.0, 10.0, 10.0), FromXYZ(10.0, 12.0, 10.0)),
                      TriangleCenter(FromXYZ(10.0, 10.0, 10.0), FromXYZ(12.0, 10.0, 10.0), FromXYZ(10.0, 12.0, 10.0)))
  {
    TriangleCenterOutsideBox(FromXYZ(10.0, 10.0, 10.0), FromXYZ(12.0, 10.0, 10.0), FromXYZ(10.0, 12.0, 10.0), 10.0, 2.0);
  }

  /** The corrected centre, `(bbMin + bbMax) / 2`. */
  function TriangleBoxCenter(v0: Vec4, v1: Vec4, v2: Vec4): (c: Vec4)
    ensures Encloses(TriangleAABB(v0, v1, v2), c)
    ensures var b := TriangleAABB(v0, v1, v2);
      c.x - b.lo.x == b.hi.x - c.x && c.y - b.lo.y == b.hi.y - c.y && c.z - b.lo.z == b.hi.z - c.z
  {
    var b := TriangleAABB(v0, v1, v2);
    assert b.lo.x <= b.hi.x && b.lo.y <= b.hi.y && b.lo.z <= b.hi.z by {
      assert Encloses(b, v0);
    }
    DivS(Add(b.lo, b.hi), 2.0)
  }

  /**
   * `triCalcAABB`: the triangle's box becomes the box of the vertices at
   * face.x/.y/.z. `RENDER_PHONGTESS` is the constant 0, so the function always
   * returns before the tessellation branch and never reads the normals.
   */
  function TriCalcAABB(tri: Tri, vertices: seq<Vec4>, normals: seq<Vec4>): (r: Tri)
    requires tri.face.x < |vertices| && tri.face.y < |vertices| && tri.face.z < |vertices|
    ensures r.face == tri.face && r.normals == tri.normals
    ensures Encloses(Box(r.bbMin, r.bbMax), vertices[tri.face.x])
    ensures Encloses(Box(r.bbMin, r.bbMax), vertices[tri.face.y])
    ensures Encloses(Box(r.bbMin, r.bbMax), vertices[tri.face.z])
  {
    var v := [vertices[tri.face.x], vertices[tri.face.y], vertices[tri.face.z]];
    var b := PointAABB(v);
    assert v[0] == vertices[tri.face.x] && v[1] == vertices[tri.face.y] && v[2] == vertices[tri.face.z];
    tri.(bbMin := b.lo, bbMax := b.hi)
  }

  /** The result is the triangle box of the three indexed vertices, whatever the normals are. */
  lemma TriCalcAABBIgnoresNormals(tri: Tri, vertices: seq<Vec4>, n1: seq<Vec4>, n2: seq<Vec4>)
    requires tri.face.x < |vertices| && tri.face.y < |vertices| && tri.face.z < |vertices|
    ensures TriCalcAABB(tri, vertices, n1) == TriCalcAABB(tri, vertices, n2)
    ensures var b := TriangleAABB(vertices[tri.face.x], vertices[tri.face.y], vertices[tri.face.z]);
      TriCalcAABB(tri, vertices, n1).bbMin == b.lo && TriCalcAABB(tri, vertices, n1).bbMax == b.hi
  {
  }
}

=== FILE: mesh_io.dfy ===
/**
 * The packed mesh buffers of include/Model/model_loader.h (namespace `IO`).
 * A mesh is a `MeshData` pair: `first` holds two header entries, of which
 * `first[1]` is the vertex count n, followed by the triangle indices;
 * `second` holds the vertex attributes back to back — 3n position floats,
 * 3n normal floats, 2n texture-coordinate floats and 3n tangent floats.
 * Floats are `real` here; only their positions are at stake.
 */
module MeshIO {
  import opened LinearAlgebra
  import opened MathHelp

  const U32: int := 0x1_0000_0000

  datatype MeshData = MeshData(first: seq<nat>, second: seq<real>)

  type SceneData = seq<MeshData>

  /** The four attribute blocks of `second`, in storage order. */
  datatype Attribute = Position | Normal | TexCoord | Tangent

  /** Start of the block, in units of n. */
  function Lo(a: Attribute): nat {
    match a
    case Position => 0
    case Normal => 3
    case TexCoord => 6
    case Tangent => 8
  }

  /** End of the block, in units of n. */
  function Hi(a: Attribute): nat {
    match a
    case Position => 3
    case Normal => 6
    case TexCoord => 8
    case Tangent => 11
  }

  /** Floats per vertex in the block. */
  function Width(a: Attribute): nat {
    match a
    case TexCoord => 2
    case _ => 3
  }

  /** Both header entries are present, so `first[1]` can be read. */
  predicate HasCount(d: MeshData) { |d.first| >= 2 }

  /** `first[1]`: the number of vertices of the mesh. */
  function Count(d: MeshData): nat
    requires HasCount(d)
  {
    d.first[1]
  }

  /** The block of attribute `a` lies inside `second`. */
  predicate Holds(d: MeshData, a: Attribute) {
    HasCount(d) && Hi(a) * Count(d) <= |d.second|
  }

  /** `getPositionsPtr`, `getNormalsPtr`, `getTextureCoordsPtr`, `getTangentsPtr`: where the block starts. */
  function PtrOffset(d: MeshData, a: Attribute): (p: nat)
    requires HasCount(d)
    ensures a == Position ==> p == 0
    ensures a == Normal ==> p == 3 * Count(d)
    ensures a == TexCoord ==> p == 6 * Count(d)
    ensures a == Tangent ==> p == 8 * Count(d)
  {
    match a
    case Position => 0
    case Normal => 3 * Count(d)
    case TexCoord => 6 * Count(d)
    case Tangent => 8 * Count(d)
  }

  /**
   * `getPositions`, `getNormals`, `getTextureCoords` and `getTangents` of one
   * mesh: the block of `a`, which has `Width(a)` floats per vertex and starts
   * where the matching pointer accessor points.
   */
  function Slice(d: MeshData, a: Attribute): (r: seq<real>)
    requires Holds(d, a)
    ensures |r| == Width(a) * Count(d)
    ensures forall k :: 0 <= k < |r| ==> r[k] == d.second[PtrOffset(d, a) + k]
  {
    match a
    case Position => d.second[..3 * Count(d)]
    case Normal => d.second[3 * Count(d)..6 * Count(d)]
    case TexCoord => d.second[6 * Count(d)..8 * Count(d)]
    case Tangent => d.second[8 * Count(d)..11 * Count(d)]
  }

  /** The blocks are adjacent: each ends where the next starts, and together they make up `second[..11n]`. */
  lemma SlicesAdjacent(d: MeshData)
    requires Holds(d, Tangent)
    ensures Hi(Position) == Lo(Normal) && Hi(Normal) == Lo(TexCoord) && Hi(TexCoord) == Lo(Tangent)
    ensures forall a :: Holds(d, a) && PtrOffset(d, a) == Lo(a) * Count(d)
    ensures forall a :: Width(a) == Hi(a) - Lo(a)
    ensures Slice(d, Position) + Slice(d, Normal) + Slice(d, TexCoord) + Slice(d, Tangent) == d.second[..11 * Count(d)]
  {
    var n := Count(d);
    assert forall a :: Holds(d, a) by {
      forall a ensures Hi(a) * n <= 11 * n { MulMonotone(Hi(a), 11, n); }
    }
    var s := d.second;
    calc {
      Slice(d, Position) + Slice(d, Normal) + Slice(d, TexCoord) + Slice(d, Tangent);
      s[..3 * n] + s[3 * n..6 * n] + s[6 * n..8 * n] + s[8 * n..11 * n];
      { assert s[..3 * n] + s[3 * n..6 * n] == s[..6 * n];
        assert s[..6 * n] + s[6 * n..8 * n] == s[..8 * n];
        assert s[..8 * n] + s[8 * n..11 * n] == s[..11 * n]; }
      s[..11 * n];
    }
  }

  lemma MulMonotone(a: nat, b: nat, n: nat)
    requires a <= b
    ensures a * n <= b * n
  {
  }

  /** `getIndices` of one mesh: `first` without its two header entries. */
  function Indices(d: MeshData): (r: seq<nat>)
    requires HasCount(d)
    ensures |r| == |d.first| - 2
    ensures forall k :: 0 <= k < |r| ==> r[k] == d.first[k + 2]
    ensures d.first == d.first[..2] + r
  {
    d.first[2..]
  }

  /** The triangle indices of the mesh can be read three at a time. */
  predicate Triangles(d: MeshData) { HasCount(d) && (|d.first| - 2) % 3 == 0 }

  // ---------------------------------------------------------------------------
  // Packing into 4-vectors

  /**
   * The `*4` loops: consecutive triples become one 4-vector each, `w` = 0.
   * Each iteration reads three elements after a single bounds test, so the
   * length must be a multiple of three.
   */
  function Pack3(xs: seq<real>): (r: seq<Vec4>)
    requires |xs| % 3 == 0
    ensures 3 * |r| == |xs|
    ensures forall k :: 0 <= k < |r| ==> r[k].w == 0.0
    decreases |xs|
  {
    if xs == [] then [] else [Vec4(xs[0], xs[1], xs[2], 0.0)] + Pack3(xs[3..])
  }

  /** The x, y and z of each vector, in order. */
  function Unpack3(vs: seq<Vec4>): (r: seq<real>)
    ensures |r| == 3 * |vs|
  {
    if vs == [] then [] else [vs[0].x, vs[0].y, vs[0].z] + Unpack3(vs[1..])
  }

  /** Packing loses nothing: unpacking gives back the input, and packing unpacked w = 0 vectors gives them back. */
  lemma {:induction false} Pack3RoundTrip(xs: seq<real>, vs: seq<Vec4>)
    requires |xs| % 3 == 0
    ensures Unpack3(Pack3(xs)) == xs
    ensures (forall k :: 0 <= k < |vs| ==> vs[k].w == 0.0) ==> Pack3(Unpack3(vs)) == vs
    decreases |xs| + |vs|
  {
    if xs != [] {
      Pack3RoundTrip(xs[3..], []);
      assert xs == [xs[0], xs[1], xs[2]] + xs[3..];
    }
    if vs != [] && forall k :: 0 <= k < |vs| ==> vs[k].w == 0.0 {
      Pack3RoundTrip([], vs[1..]);
      var u := Unpack3(vs);
      assert u[3..] == Unpack3(vs[1..]);
      assert forall k :: 0 <= k < |vs[1..]| ==> vs[1..][k].w == 0.0 by {
        forall k | 0 <= k < |vs[1..]| ensures vs[1..][k].w == 0.0 { assert vs[1..][k] == vs[k + 1]; }
      }
    }
  }

  /** Vector k of a pack is triple k of its input. */
  lemma {:induction false} Pack3At(xs: seq<real>, k: nat)
    requires |xs| % 3 == 0 && 3 * k + 2 < |xs|
    ensures k < |Pack3(xs)| && Pack3(xs)[k] == Vec4(xs[3 * k], xs[3 * k + 1], xs[3 * k + 2], 0.0)
    decreases k
  {
    if k > 0 {
      Pack3At(xs[3..], k - 1);
    }
  }

  /** Packing a concatenation packs the parts, as long as the first part is whole triples. */
  lemma {:induction false} Pack3Append(xs: seq<real>, ys: seq<real>)
    requires |xs| % 3 == 0 && |ys| % 3 == 0
    ensures Pack3(xs + ys) == Pack3(xs) + Pack3(ys)
    decreases |xs|
  {
    if xs == [] {
      assert xs + ys == ys;
    } else {
      assert (xs + ys)[3..] == xs[3..] + ys;
      Pack3Append(xs[3..], ys);
    }
  }

  /** `getIndices4` over a list of indices: consecutive triples become one record each, `w` = 0. */
  function Group3(xs: seq<nat>): (r: seq<Uint4>)
    requires |xs| % 3 == 0
    ensures 3 * |r| == |xs|
    ensures forall k :: 0 <= k < |r| ==> r[k].w == 0
    decreases |xs|
  {
    if xs == [] then [] else [Uint4(xs[0], xs[1], xs[2], 0)] + Group3(xs[3..])
  }

  /**
   * The x, y and z of each record, in order: the inverse of `Group3`, just as
   * `Unpack3` is the inverse of `Pack3`, but over the unsigned index records
   * rather than the float vectors.
   */
  function Corners(recs: seq<Uint4>): (r: seq<nat>)
    ensures |r| == 3 * |recs|
  {
    if recs == [] then [] else [recs[0].x, recs[0].y, recs[0].z] + Corners(recs[1..])
  }

  /** Record k of a grouping is triple k of its input. */
  lemma {:induction false} Group3At(xs: seq<nat>, k: nat)
    requires |xs| % 3 == 0 && 3 * k + 2 < |xs|
    ensures k < |Group3(xs)| && Group3(xs)[k] == Uint4(xs[3 * k], xs[3 * k + 1], xs[3 * k + 2], 0)
    decreases k
  {
    if k > 0 {
      Group3At(xs[3..], k - 1);
    }
  }

  /** Grouping loses nothing: the corners of the records are the input indices. */
  lemma {:induction false} Group3RoundTrip(xs: seq<nat>)
    requires |xs| % 3 == 0
    ensures Corners(Group3(xs)) == xs
    decreases |xs|
  {
    if xs != [] {
      Group3RoundTrip(xs[3..]);
      assert xs == [xs[0], xs[1], xs[2]] + xs[3..];
    }
  }

  /** Records whose x, y, z are the consecutive triples of `xs` have exactly `xs` as corners, whatever their `w`. */
  lemma {:induction false} CornersOfTriples(xs: seq<nat>, recs: seq<Uint4>)
    requires |xs| == 3 * |recs|
    requires forall k :: 0 <= k < |recs| ==> recs[k].x == xs[3 * k] && recs[k].y == xs[3 * k + 1] && recs[k].z == xs[3 * k + 2]
    ensures Corners(recs) == xs
    decreases |recs|
  {
    if recs != [] {
      forall k | 0 <= k < |recs[1..]|
        ensures recs[1..][k].x == xs[3..][3 * k] && recs[1..][k].y == xs[3..][3 * k + 1] && recs[1..][k].z == xs[3..][3 * k + 2]
      {
        assert recs[1..][k] == recs[k + 1];
      }
      CornersOfTriples(xs[3..], recs[1..]);
      assert xs == [xs[0], xs[1], xs[2]] + xs[3..];
    }
  }

  // ---------------------------------------------------------------------------
  // Per-mesh packed views

  /** `getIndices4` of one mesh. */
  function Indices4(d: MeshData): (r: seq<Uint4>)
    requires Triangles(d)
    ensures 3 * |r| == |d.first| - 2
    ensures Corners(r) == Indices(d)
  {
    Group3RoundTrip(Indices(d));
    Group3(Indices(d))
  }

  /** `getPositions4`, `getNormals4`, `getTangents4` of one mesh: one vector per vertex. */
  function Slice4(d: MeshData, a: Attribute): (r: seq<Vec4>)
    requires Holds(d, a) && Width(a) == 3
    ensures |r| == Count(d)
    ensures Unpack3(r) == Slice(d, a)
  {
    Pack3RoundTrip(Slice(d, a), []);
    Pack3(Slice(d, a))
  }

  /**
   * The index of the last element the stride-3 packing loop reads from a list
   * of `len` elements: the loop runs while its cursor is below `len` and reads
   * three elements per pass.
   */
  function LastRead(len: nat): int {
    if len == 0 then -1 else 3 * ((len + 2) / 3) - 1
  }

  /** The stride-3 loop stays inside its input exactly when the length is a multiple of three. */
  lemma LastReadInside(len: nat)
    ensures LastRead(len) < len <==> len % 3 == 0
  {
  }

  /**
   * `getTextureCoords4` as written packs the 2n texture-coordinate floats
   * three at a time.  The loop reads inside the block exactly when n is a
   * multiple of three; for a single-vertex mesh it reads index 2 of a
   * two-element list.
   */
  lemma TexCoordsStrideOverruns(d: MeshData)
    requires Holds(d, TexCoord)
    ensures LastRead(|Slice(d, TexCoord)|) < |Slice(d, TexCoord)| <==> Count(d) % 3 == 0
    ensures Count(d) == 1 ==> LastRead(|Slice(d, TexCoord)|) == 2 == |Slice(d, TexCoord)|
  {
    LastReadInside(2 * Count(d));
  }

  /** The texture coordinates as the source packs them: defined only when the stride happens to fit. */
  function TexCoords4AsWritten(d: MeshData): (r: seq<Vec4>)
    requires Holds(d, TexCoord) && Count(d) % 3 == 0
    ensures 3 * |r| == 2 * Count(d)
  {
    Pack3(Slice(d, TexCoord))
  }

  /** One (u, v, 0, 0) vector per consecutive pair. */
  function Pack2(xs: seq<real>): (r: seq<Vec4>)
    requires |xs| % 2 == 0
    ensures 2 * |r| == |xs|
    ensures forall k :: 0 <= k < |r| ==> r[k].z == 0.0 && r[k].w == 0.0
    decreases |xs|
  {
    if xs == [] then [] else [Vec4(xs[0], xs[1], 0.0, 0.0)] + Pack2(xs[2..])
  }

  /** The x and y of each vector, in order. */
  function Unpack2(vs: seq<Vec4>): (r: seq<real>)
    ensures |r| == 2 * |vs|
  {
    if vs == [] then [] else [vs[0].x, vs[0].y] + Unpack2(vs[1..])
  }

  lemma {:induction false} Pack2RoundTrip(xs: seq<real>)
    requires |xs| % 2 == 0
    ensures Unpack2(Pack2(xs)) == xs
    decreases |xs|
  {
    if xs != [] {
      Pack2RoundTrip(xs[2..]);
      assert xs == [xs[0], xs[1]] + xs[2..];
    }
  }

  /** The texture coordinates packed one vertex per vector: defined for every mesh and losing nothing. */
  function TexCoords4(d: MeshData): (r: seq<Vec4>)
    requires Holds(d, TexCoord)
    ensures |r| == Count(d)
    ensures Unpack2(r) == Slice(d, TexCoord)
  {
    Pack2RoundTrip(Slice(d, TexCoord));
    Pack2(Slice(d, TexCoord))
  }

  // ---------------------------------------------------------------------------
  // Scene-level overloads: the per-mesh results appended in mesh order

  /** Appending each list in turn to an initially empty result. */
  function Flatten<T>(ss: seq<seq<T>>): seq<T> {
    if ss == [] then [] else Flatten(ss[..|ss| - 1]) + ss[|ss| - 1]
  }

  /** Where the part of list `j` starts in the flattening. */
  function Before<T>(ss: seq<seq<T>>, j: nat): nat
    requires j <= |ss|
  {
    |Flatten(ss[..j])|
  }

  /** The flattening of a prefix is a prefix of the flattening. */
  lemma {:induction false} FlattenPrefix<T>(ss: seq<seq<T>>, j: nat)
    requires j <= |ss|
    ensures Flatten(ss[..j]) <= Flatten(ss)
    decreases |ss|
  {
    if j < |ss| {
      var init := ss[..|ss| - 1];
      assert init[..j] == ss[..j];
      FlattenPrefix(init, j);
    } else {
      assert ss[..j] == ss;
    }
  }

  /** The flattening of the first j + 1 lists extends that of the first j by list j. */
  lemma FlattenStep<T>(ss: seq<seq<T>>, j: nat)
    requires j < |ss|
    ensures Flatten(ss[..j + 1]) == Flatten(ss[..j]) + ss[j]
  {
    var pre := ss[..j + 1];
    assert pre[..|pre| - 1] == ss[..j];
  }

  /** Element k of list j sits at `Before(ss, j) + k` of the flattening, and the parts follow one another. */
  lemma FlattenAt<T>(ss: seq<seq<T>>, j: nat, k: nat)
    requires j < |ss| && k < |ss[j]|
    ensures Before(ss, j + 1) == Before(ss, j) + |ss[j]|
    ensures Before(ss, j) + k < |Flatten(ss)| && Flatten(ss)[Before(ss, j) + k] == ss[j][k]
  {
    FlattenStep(ss, j);
    FlattenPrefix(ss, j + 1);
  }

  /** Packing list by list and then appending is the same as appending and then packing. */
  lemma {:induction false} FlattenPack3(ss: seq<seq<real>>, ps: seq<seq<Vec4>>)
    requires |ps| == |ss|
    requires forall j :: 0 <= j < |ss| ==> |ss[j]| % 3 == 0 && ps[j] == Pack3(ss[j])
    ensures |Flatten(ss)| % 3 == 0 && Flatten(ps) == Pack3(Flatten(ss))
    decreases |ss|
  {
    if ss != [] {
      var n := |ss| - 1;
      assert forall j :: 0 <= j < n ==> |ss[..n][j]| % 3 == 0 && ps[..n][j] == Pack3(ss[..n][j]);
      FlattenPack3(ss[..n], ps[..n]);
      assert Flatten(ss) == Flatten(ss[..n]) + ss[n];
      assert Flatten(ps) == Flatten(ps[..n]) + ps[n];
      Pack3Append(Flatten(ss[..n]), ss[n]);
      ThreeDividesSum(|Flatten(ss[..n])|, |ss[n]|);
    }
  }

  lemma ThreeDividesSum(x: nat, y: nat)
    requires x % 3 == 0 && y % 3 == 0
    ensures (x + y) % 3 == 0
  {
  }

  /** Every mesh holds block `a`. */
  predicate AllHold(s: SceneData, a: Attribute) {
    forall j :: 0 <= j < |s| ==> Holds(s[j], a)
  }

  /** Every mesh holds whole triangles. */
  predicate AllTriangles(s: SceneData) {
    forall j :: 0 <= j < |s| ==> Triangles(s[j])
  }

  /** The vertex count of the meshes before mesh j. */
  function CountBefore(s: SceneData, j: nat): nat
    requires j <= |s| && forall i :: 0 <= i < j ==> HasCount(s[i])
  {
    if j == 0 then 0 else CountBefore(s, j - 1) + Count(s[j - 1])
  }

  /** The block of `a` of every mesh, in mesh order. */
  function Slices(s: SceneData, a: Attribute): (ss: seq<seq<real>>)
    requires AllHold(s, a)
    ensures |ss| == |s| && forall j :: 0 <= j < |s| ==> ss[j] == Slice(s[j], a)
  {
    seq(|s|, j requires 0 <= j < |s| => Slice(s[j], a))
  }

  /** The scene-level `getPositions`, `getNormals`, `getTextureCoords`, `getTangents`. */
  function SceneSlice(s: SceneData, a: Attribute): seq<real>
    requires AllHold(s, a)
  {
    Flatten(Slices(s, a))
  }

  /** Lists whose lengths are `w` times the meshes' vertex counts start at `w` times the count of the meshes before. */
  lemma {:induction false} BeforeScaled<T>(ss: seq<seq<T>>, s: SceneData, w: nat, j: nat)
    requires |ss| == |s| && j <= |s|
    requires forall i :: 0 <= i < |s| ==> HasCount(s[i]) && |ss[i]| == w * Count(s[i])
    ensures Before(ss, j) == w * CountBefore(s, j)
    decreases j
  {
    if j > 0 {
      BeforeScaled(ss, s, w, j - 1);
      FlattenStep(ss, j - 1);
      Distribute(w, CountBefore(s, j - 1), Count(s[j - 1]));
    }
  }

  /** In the scene-level block, mesh j's part starts at `Width(a)` times the vertex count of the meshes before it. */
  lemma SlicesBefore(s: SceneData, a: Attribute, j: nat)
    requires AllHold(s, a) && j <= |s|
    ensures Before(Slices(s, a), j) == Width(a) * CountBefore(s, j)
  {
    BeforeScaled(Slices(s, a), s, Width(a), j);
  }

  lemma Distribute(w: nat, x: nat, y: nat)
    ensures w * (x + y) == w * x + w * y
  {
  }

  /** Element k of mesh j's block is element `Width(a)·CountBefore(j) + k` of the scene-level block. */
  lemma SceneSliceAt(s: SceneData, a: Attribute, j: nat, k: nat)
    requires AllHold(s, a) && j < |s| && k < Width(a) * Count(s[j])
    ensures Width(a) * CountBefore(s, j) + k < |SceneSlice(s, a)|
    ensures SceneSlice(s, a)[Width(a) * CountBefore(s, j) + k] == Slice(s[j], a)[k]
  {
    SlicesBefore(s, a, j);
    FlattenAt(Slices(s, a), j, k);
  }

  /** The scene-level `getPositions4`, `getNormals4`, `getTangents4`: the per-mesh packs appended in mesh order. */
  function SceneSlice4(s: SceneData, a: Attribute): seq<Vec4>
    requires AllHold(s, a) && Width(a) == 3
  {
    Flatten(seq(|s|, j requires 0 <= j < |s| => Slice4(s[j], a)))
  }

  /** Packing mesh by mesh and then appending is the same as packing the scene-level block. */
  lemma SceneSlice4IsPacked(s: SceneData, a: Attribute)
    requires AllHold(s, a) && Width(a) == 3
    ensures |SceneSlice(s, a)| % 3 == 0
    ensures SceneSlice4(s, a) == Pack3(SceneSlice(s, a))
  {
    FlattenPack3(Slices(s, a), seq(|s|, j requires 0 <= j < |s| => Slice4(s[j], a)));
  }

  /** `getIndices` of every mesh, in mesh order. */
  function IndexLists(s: SceneData): (ss: seq<seq<nat>>)
    requires forall j :: 0 <= j < |s| ==> HasCount(s[j])
    ensures |ss| == |s| && forall j :: 0 <= j < |s| ==> ss[j] == Indices(s[j])
  {
    seq(|s|, j requires 0 <= j < |s| => Indices(s[j]))
  }

  /** The scene-level `getIndices`. */
  function SceneIndices(s: SceneData): seq<nat>
    requires forall j :: 0 <= j < |s| ==> HasCount(s[j])
  {
    Flatten(IndexLists(s))
  }

  /** The scene-level `getIndices4`. */
  function SceneIndices4(s: SceneData): seq<Uint4>
    requires AllTriangles(s)
  {
    Flatten(seq(|s|, j requires 0 <= j < |s| => Indices4(s[j])))
  }

  /** The scene-level index lists hold the local indices of each mesh unchanged: they are not rebased. */
  lemma SceneIndicesAt(s: SceneData, j: nat, k: nat)
    requires (forall i :: 0 <= i < |s| ==> HasCount(s[i])) && j < |s| && k + 2 < |s[j].first|
    ensures Before(IndexLists(s), j) + k < |SceneIndices(s)|
    ensures SceneIndices(s)[Before(IndexLists(s), j) + k] == s[j].first[k + 2]
  {
    FlattenAt(IndexLists(s), j, k);
  }

  /** The corners of the scene-level records are the scene-level indices. */
  lemma {:induction false} SceneIndices4Corners(s: SceneData)
    requires AllTriangles(s)
    ensures Corners(SceneIndices4(s)) == SceneIndices(s)
    decreases |s|
  {
    if s != [] {
      var init := s[..|s| - 1];
      var last := s[|s| - 1];
      assert AllTriangles(init);
      SceneIndices4Corners(init);
      assert IndexLists(init) == IndexLists(s)[..|s| - 1];
      assert seq(|init|, j requires 0 <= j < |init| => Indices4(init[j]))
        == seq(|s|, j requires 0 <= j < |s| => Indices4(s[j]))[..|s| - 1];
      assert SceneIndices4(s) == SceneIndices4(init) + Indices4(last);
      assert SceneIndices(s) == SceneIndices(init) + Indices(last);
      CornersAppend(SceneIndices4(init), Indices4(last));
    } else {
      assert IndexLists(s) == [];
    }
  }

  lemma {:induction false} CornersAppend(xs: seq<Uint4>, ys: seq<Uint4>)
    ensures Corners(xs + ys) == Corners(xs) + Corners(ys)
    decreases |xs|
  {
    if xs == [] {
      assert xs + ys == ys;
    } else {
      assert (xs + ys)[1..] == xs[1..] + ys;
      CornersAppend(xs[1..], ys);
    }
  }

  // ---------------------------------------------------------------------------
  // getFaces: vertex ids only

  /** The `id`s of a face's three vertices. */
  datatype FaceIds = FaceIds(a: nat, b: nat, c: nat)

  /** Local index `i` of a mesh whose vertices start at `offset`, as the `unsigned int` sum. */
  function GlobalId(offset: nat, i: nat): nat {
    (offset + i) % U32
  }

  /**
   * `getFaces`, as far as vertex ids go: one mesh per input mesh, one face per
   * index triple, each corner's id being its local index plus the running
   * `unsigned int` total of the vertex counts of the meshes before.
   */
  method GetFaces(s: SceneData) returns (meshes: seq<seq<FaceIds>>)
    requires AllTriangles(s)
    ensures |meshes| == |s|
    ensures forall j :: 0 <= j < |s| ==> 3 * |meshes[j]| == |s[j].first| - 2
    ensures forall j, t :: 0 <= j < |s| && 0 <= t < |meshes[j]| ==> meshes[j][t] == FaceIdsOf(s, j, t)
  {
    meshes := [];
    var offset: nat := 0;
    var j := 0;
    while j < |s|
      invariant 0 <= j <= |s| && |meshes| == j
      invariant offset == CountBefore(s, j) % U32
      invariant forall i :: 0 <= i < j ==> MeshFaces(s, i, meshes[i])
    {
      var mesh := ShiftFaces(Indices4(s[j]), offset);
      assert MeshFaces(s, j, mesh);
      WrapAdd(CountBefore(s, j), Count(s[j]));
      offset := (offset + Count(s[j])) % U32;
      meshes := meshes + [mesh];
      j := j + 1;
    }
    assert forall i :: 0 <= i < |s| ==> MeshFaces(s, i, meshes[i]);
  }

  /** `mesh` holds the faces of mesh j of the scene, in order. */
  predicate MeshFaces(s: SceneData, j: nat, mesh: seq<FaceIds>)
    requires AllTriangles(s) && j < |s|
  {
    && 3 * |mesh| == |s[j].first| - 2
    && forall t :: 0 <= t < |mesh| ==> mesh[t] == FaceIdsOf(s, j, t)
  }

  /** Adding to a wrapped total and wrapping again is wrapping the sum. */
  lemma WrapAdd(a: nat, b: nat)
    ensures (a % U32 + b) % U32 == (a + b) % U32
  {
  }

  /** The faces of one mesh, each corner's local index moved by `offset`. */
  method ShiftFaces(fs: seq<Uint4>, offset: nat) returns (mesh: seq<FaceIds>)
    ensures |mesh| == |fs|
    ensures forall t :: 0 <= t < |fs| ==> mesh[t] == Shift(fs[t], offset)
  {
    mesh := [];
    var t := 0;
    while t < |fs|
      invariant 0 <= t <= |fs| && |mesh| == t
      invariant forall u :: 0 <= u < t ==> mesh[u] == Shift(fs[u], offset)
    {
      mesh := mesh + [Shift(fs[t], offset)];
      t := t + 1;
    }
  }

  /** The corner ids of an index record moved by `offset`. */
  function Shift(f: Uint4, offset: nat): FaceIds {
    FaceIds(GlobalId(offset, f.x), GlobalId(offset, f.y), GlobalId(offset, f.z))
  }

  /** The vertex ids of face t of mesh j: its indices moved by the vertex count of the meshes before. */
  function FaceIdsOf(s: SceneData, j: nat, t: nat): FaceIds
    requires AllTriangles(s) && j < |s| && 3 * t < |s[j].first| - 2
  {
    Shift(Indices4(s[j])[t], CountBefore(s, j) % U32)
  }

  /** Every index of mesh j names one of its own vertices. */
  predicate LocalIndices(s: SceneData, j: nat)
    requires j < |s| && HasCount(s[j])
  {
    forall k :: 2 <= k < |s[j].first| ==> s[j].first[k] < Count(s[j])
  }

  lemma {:induction false} CountBeforeGrows(s: SceneData, i: nat, j: nat)
    requires i <= j <= |s| && forall m :: 0 <= m < j ==> HasCount(s[m])
    ensures CountBefore(s, i) <= CountBefore(s, j)
    decreases j
  {
    if i < j {
      CountBeforeGrows(s, i, j - 1);
    }
  }

  /**
   * When every mesh's indices are local and the scene has fewer than 2^32
   * vertices, the ids of mesh j lie in its own range
   * [CountBefore(j), CountBefore(j + 1)), so meshes share no vertex id.
   */
  lemma FaceIdsInMeshRange(s: SceneData, j: nat, t: nat)
    requires AllTriangles(s) && j < |s| && 3 * t < |s[j].first| - 2
    requires LocalIndices(s, j) && CountBefore(s, |s|) < U32
    ensures var f := FaceIdsOf(s, j, t);
      CountBefore(s, j) <= f.a < CountBefore(s, j + 1) &&
      CountBefore(s, j) <= f.b < CountBefore(s, j + 1) &&
      CountBefore(s, j) <= f.c < CountBefore(s, j + 1)
  {
    var d := s[j];
    IndexRecordAt(d, t);
    var f := Indices4(d)[t];
    assert f.x < Count(d) && f.y < Count(d) && f.z < Count(d) by {
      assert f.x == d.first[3 * t + 2] && f.y == d.first[3 * t + 3] && f.z == d.first[3 * t + 4];
    }
    CountBeforeGrows(s, j + 1, |s|);
    var off := CountBefore(s, j);
    assert CountBefore(s, j + 1) == off + Count(d);
    IdInRange(off, Count(d), f.x);
    IdInRange(off, Count(d), f.y);
    IdInRange(off, Count(d), f.z);
  }

  /** Record t of `getIndices4` of a mesh holds entries 3t + 2 to 3t + 4 of `first`. */
  lemma IndexRecordAt(d: MeshData, t: nat)
    requires Triangles(d) && 3 * t < |d.first| - 2
    ensures t < |Indices4(d)|
    ensures Indices4(d)[t] == Uint4(d.first[3 * t + 2], d.first[3 * t + 3], d.first[3 * t + 4], 0)
  {
    var xs := Indices(d);
    Group3At(xs, t);
  }

  lemma IdInRange(off: nat, n: nat, x: nat)
    requires off + n < U32 && x < n
    ensures off <= GlobalId(off % U32, x) < off + n
  {
  }
}

=== FILE: model_loader.dfy ===
/**
 * `ModelLoader::getFacesOfObject` and `getFaceNormalsOfObject` of
 * src/Models/model_loader.cpp: an object's flat list of vertex (or normal)
 * indices, read three at a time, is appended to an output list as one
 * `cl_uint4` record per triangle whose `w` is a running id.
 */
module ModelLoader {
  import opened MathHelp
  import MeshIO
  import ObjParser

  const U32: int := 0x1_0000_0000

  /**
   * `offset + faces->size()` stored in a `cl_uint`: `offset` is a signed
   * `cl_int` and the sum wraps modulo 2^32, so the id is congruent to the sum.
   */
  function RunningId(offset: int, size: nat): (id: nat)
    ensures id < U32 && (offset + size - id) % U32 == 0
  {
    (offset + size) % U32
  }

  /**
   * The loop shared by both members: for each triple of `ids` append
   * (a, b, c, offset + current size).  The loop reads three entries after a
   * single bounds test, so `ids` must hold whole triples.
   */
  method AppendTriples(ids: seq<nat>, faces: seq<Uint4>, offset: int) returns (out: seq<Uint4>)
    requires |ids| % 3 == 0
    ensures 3 * (|out| - |faces|) == |ids|
    ensures out[..|faces|] == faces
    ensures forall k :: 0 <= k < |out| - |faces| ==>
              out[|faces| + k].x == ids[3 * k] && out[|faces| + k].y == ids[3 * k + 1] && out[|faces| + k].z == ids[3 * k + 2]
    ensures forall k :: |faces| <= k < |out| ==> out[k].w == RunningId(offset, k)
  {
    out := faces;
    var i := 0;
    while i < |ids|
      invariant 0 <= i <= |ids| && i % 3 == 0
      invariant 3 * (|out| - |faces|) == i
      invariant out[..|faces|] == faces
      invariant forall k :: 0 <= k < |out| - |faces| ==>
                  out[|faces| + k].x == ids[3 * k] && out[|faces| + k].y == ids[3 * k + 1] && out[|faces| + k].z == ids[3 * k + 2]
      invariant forall k :: |faces| <= k < |out| ==> out[k].w == RunningId(offset, k)
    {
      var f := Uint4(ids[i], ids[i + 1], ids[i + 2], RunningId(offset, |out|));
      out := out + [f];
      i := i + 3;
    }
  }

  /** `getFacesOfObject`: the object's vertex-index triples appended to `faces`. */
  method GetFacesOfObject(obj: ObjParser.Object3D, faces: seq<Uint4>, offset: int) returns (out: seq<Uint4>)
    requires |obj.facesV| % 3 == 0
    ensures 3 * (|out| - |faces|) == |obj.facesV|
    ensures out[..|faces|] == faces
    ensures MeshIO.Corners(out[|faces|..]) == obj.facesV
    ensures forall k :: |faces| <= k < |out| ==> out[k].w == RunningId(offset, k)
  {
    out := AppendTriples(obj.facesV, faces, offset);
    AppendedCorners(obj.facesV, faces, out);
  }

  /** `getFaceNormalsOfObject`: the object's normal-index triples appended to `faceNormals`. */
  method GetFaceNormalsOfObject(obj: ObjParser.Object3D, faceNormals: seq<Uint4>, offset: int) returns (out: seq<Uint4>)
    requires |obj.facesVN| % 3 == 0
    ensures 3 * (|out| - |faceNormals|) == |obj.facesVN|
    ensures out[..|faceNormals|] == faceNormals
    ensures MeshIO.Corners(out[|faceNormals|..]) == obj.facesVN
    ensures forall k :: |faceNormals| <= k < |out| ==> out[k].w == RunningId(offset, k)
  {
    out := AppendTriples(obj.facesVN, faceNormals, offset);
    AppendedCorners(obj.facesVN, faceNormals, out);
  }

  /** The corners of the appended records are exactly the input indices: grouping loses nothing. */
  lemma AppendedCorners(ids: seq<nat>, faces: seq<Uint4>, out: seq<Uint4>)
    requires |faces| <= |out| && |ids| == 3 * (|out| - |faces|)
    requires forall k :: 0 <= k < |out| - |faces| ==>
               out[|faces| + k].x == ids[3 * k] && out[|faces| + k].y == ids[3 * k + 1] && out[|faces| + k].z == ids[3 * k + 2]
    ensures MeshIO.Corners(out[|faces|..]) == ids
  {
    var recs := out[|faces|..];
    forall k | 0 <= k < |recs|
      ensures recs[k].x == ids[3 * k] && recs[k].y == ids[3 * k + 1] && recs[k].z == ids[3 * k + 2]
    {
      assert recs[k] == out[|faces| + k];
    }
    MeshIO.CornersOfTriples(ids, recs);
  }
}

=== FILE: obj_parser.dfy ===
/**
 * The OBJ reader of src/Models/obj_parser.cpp.  The file is given as its
 * sequence of lines (what `getline` yields); `atol` and `atof` are given as
 * functions, since number parsing is not part of this model.
 */
module ObjParser {
  import opened StringHelpers

  /** 2^32: `cl_uint` arithmetic is modulo this. */
  const U32: int := 0x1_0000_0000

  /** `object3D`: a name and the vertex and normal indices of its faces. */
  datatype Object3D = Object3D(name: string, facesV: seq<nat>, facesVN: seq<nat>)

  /** The parser's eight output vectors (`mFacesMtl` is cleared and never filled). */
  datatype ObjData = ObjData(
    objects: seq<Object3D>,
    facesMtl: seq<int>,
    facesV: seq<nat>, facesVN: seq<nat>, facesVT: seq<nat>,
    normals: seq<real>, textures: seq<real>, vertices: seq<real>)

  /** The indices one `f` line adds. */
  datatype FaceIndices = FaceIndices(v: seq<nat>, vn: seq<nat>, vt: seq<nat>)

  /** What `load` does with a line, decided by its first two or three characters. */
  datatype LineKind = Comment | ObjectLine | VertexLine | NormalLine | TexCoordLine | FaceLine | Ignored

  const Delimiter: string := " "

  /** `line[k]`: past the end a `std::string` reads as '\0'. */
  function CharAt(line: string, k: nat): char {
    if k < |line| then line[k] else '\0'
  }

  /** The dispatch of `load`'s loop. */
  function KindOf(line: string): (k: LineKind)
    ensures k == Comment <==> CharAt(line, 0) == '#'
    ensures k == ObjectLine <==> CharAt(line, 0) == 'o'
    ensures k == VertexLine <==> CharAt(line, 0) == 'v' && CharAt(line, 1) == ' '
    ensures k == NormalLine <==> CharAt(line, 0) == 'v' && CharAt(line, 1) == 'n' && CharAt(line, 2) == ' '
    ensures k == TexCoordLine <==> CharAt(line, 0) == 'v' && CharAt(line, 1) == 't' && CharAt(line, 2) == ' '
    ensures k == FaceLine <==> CharAt(line, 0) == 'f' && CharAt(line, 1) == ' '
  {
    var c0 := CharAt(line, 0);
    var c1 := CharAt(line, 1);
    if c0 == '#' then Comment
    else if c0 == 'o' then ObjectLine
    else if c0 == 'v' then
      if c1 == ' ' then VertexLine
      else if c1 == 'n' && CharAt(line, 2) == ' ' then NormalLine
      else if c1 == 't' && CharAt(line, 2) == ' ' then TexCoordLine
      else Ignored
    else if c0 == 'f' && c1 == ' ' then FaceLine
    else Ignored
  }

  // ---------------------------------------------------------------------------
  // Face indices.

  /** `cl_uint a = atol(...)`: the long truncated to 32 bits. */
  function Uint(x: int): (a: nat)
    ensures a < U32
  {
    x % U32
  }

  /** `a - 1` on a `cl_uint`: 0 wraps to 2^32 - 1. */
  function Dec(a: nat): (r: nat)
    requires a < U32
    ensures r < U32
    ensures a > 0 ==> r == a - 1
    ensures a == 0 ==> r == U32 - 1
  {
    (a + U32 - 1) % U32
  }

  /** The zero-based index a face field names (the `a < 0` rebasing never applies to an unsigned `a`). */
  function IndexOf(field: string, atol: string -> int): nat {
    Dec(Uint(atol(field)))
  }

  /** A face token split at "/" (`e0`) and at "//" (`e1`). */
  datatype Fields = Fields(e0: seq<string>, e1: seq<string>)

  function Tokenize(tok: string): Fields {
    Fields(Split(tok, "/"), Split(tok, "//"))
  }

  /** A face token can be read: it is `v//vn`, or its "/" split has a first field. */
  predicate FieldsOk(f: Fields) {
    |f.e1| == 2 || |f.e0| >= 1
  }

  /** The vertex field of a face token. */
  function VertexField(f: Fields): string
    requires FieldsOk(f)
  {
    if |f.e1| == 2 then f.e1[0] else f.e0[0]
  }

  /** The indices of one face token: `v//vn`, or `v`, `v/vt`, `v/vt/vn` (fields past the third are ignored). */
  function TokenIndices(f: Fields, atol: string -> int): (r: FaceIndices)
    requires FieldsOk(f)
    ensures r.v == [IndexOf(VertexField(f), atol)]
    ensures |f.e1| == 2 ==> r.vn == [IndexOf(f.e1[1], atol)] && r.vt == []
    ensures |f.e1| != 2 ==>
      && r.vt == (if |f.e0| >= 2 then [IndexOf(f.e0[1], atol)] else [])
      && r.vn == (if |f.e0| >= 3 then [IndexOf(f.e0[2], atol)] else [])
  {
    if |f.e1| == 2 then
      FaceIndices([IndexOf(f.e1[0], atol)], [IndexOf(f.e1[1], atol)], [])
    else
      FaceIndices(
        [IndexOf(f.e0[0], atol)],
        if |f.e0| >= 3 then [IndexOf(f.e0[2], atol)] else [],
        if |f.e0| >= 2 then [IndexOf(f.e0[1], atol)] else [])
  }

  /** The tokens of a face line after the keyword, each split at "/" and at "//". */
  function FaceFields(parts: seq<string>): (fs: seq<Fields>)
    ensures |fs| == if |parts| == 0 then 0 else |parts| - 1
    ensures forall k :: 0 <= k < |fs| ==> fs[k] == Tokenize(parts[k + 1])
  {
    if |parts| == 0 then [] else seq(|parts| - 1, k requires 0 <= k < |parts| - 1 => Tokenize(parts[k + 1]))
  }

  /** Every token after the keyword can be read. */
  predicate FaceOk(parts: seq<string>) {
    forall k :: 0 <= k < |FaceFields(parts)| ==> FieldsOk(FaceFields(parts)[k])
  }

  predicate AllFieldsOk(fs: seq<Fields>) {
    forall k :: 0 <= k < |fs| ==> FieldsOk(fs[k])
  }

  /** The loop of `parseFace` over the tokens `fs[from..]`, appending each token's indices. */
  function FaceFrom(fs: seq<Fields>, from: nat, atol: string -> int): (r: FaceIndices)
    requires AllFieldsOk(fs) && from <= |fs|
    decreases |fs| - from
  {
    if from == |fs| then FaceIndices([], [], [])
    else
      var t := TokenIndices(fs[from], atol);
      var rest := FaceFrom(fs, from + 1, atol);
      FaceIndices(t.v + rest.v, t.vn + rest.vn, t.vt + rest.vt)
  }

  /** `parseFace` on a line that has been split at spaces (its first part is the keyword). */
  function ParseFace(parts: seq<string>, atol: string -> int): FaceIndices
    requires FaceOk(parts)
  {
    FaceFrom(FaceFields(parts), 0, atol)
  }

  /** One vertex index per token: the token's vertex field, one-based to zero-based. */
  lemma {:induction false} FaceFromVertices(fs: seq<Fields>, from: nat, atol: string -> int)
    requires AllFieldsOk(fs) && from <= |fs|
    ensures |FaceFrom(fs, from, atol).v| == |fs| - from
    ensures forall k :: from <= k < |fs| ==> FaceFrom(fs, from, atol).v[k - from] == IndexOf(VertexField(fs[k]), atol)
    decreases |fs| - from
  {
    if from < |fs| {
      FaceFromVertices(fs, from + 1, atol);
      var r := FaceFrom(fs, from, atol).v;
      var rest := FaceFrom(fs, from + 1, atol).v;
      assert r == [IndexOf(VertexField(fs[from]), atol)] + rest;
      forall k | from < k < |fs|
        ensures r[k - from] == IndexOf(VertexField(fs[k]), atol)
      {
        assert r[k - from] == rest[k - (from + 1)];
      }
    }
  }

  /** `parseFace` pushes exactly one vertex index per token after the keyword, in order. */
  lemma ParseFaceVertices(parts: seq<string>, atol: string -> int)
    requires FaceOk(parts) && |parts| >= 1
    ensures |ParseFace(parts, atol).v| == |parts| - 1
    ensures forall k :: 0 <= k < |parts| - 1 ==>
      ParseFace(parts, atol).v[k] == IndexOf(VertexField(FaceFields(parts)[k]), atol)
  {
    FaceFromVertices(FaceFields(parts), 0, atol);
  }

  /** Field "1" is index 0, and field "0" wraps round to the largest `cl_uint`. */
  lemma IndexOfExamples(atol: string -> int)
    requires atol("1") == 1 && atol("0") == 0 && atol("4294967296") == 0x1_0000_0000
    ensures IndexOf("1", atol) == 0
    ensures IndexOf("0", atol) == U32 - 1
    ensures IndexOf("4294967296", atol) == U32 - 1
  {
  }

  // ---------------------------------------------------------------------------
  // Vertex data.

  /** A line can be read: the parts each kind of line reads exist, and its face tokens can be read. */
  predicate LineOk(line: string) {
    var parts := Split(line, Delimiter);
    match KindOf(line)
    case ObjectLine => |parts| >= 2
    case VertexLine => |parts| >= 4
    case NormalLine => |parts| >= 4
    case TexCoordLine => |parts| >= 3
    case FaceLine => FaceOk(parts)
    case _ => true
  }

  /** `parseVertex` and `parseVertexNormal`: parts 1 to 3 as numbers. */
  function Triple(parts: seq<string>, atof: string -> real): (r: seq<real>)
    requires |parts| >= 4
    ensures |r| == 3 && forall k :: 0 <= k < 3 ==> r[k] == atof(parts[k + 1])
  {
    [atof(parts[1]), atof(parts[2]), atof(parts[3])]
  }

  /** `parseVertexTexture`: u, v and the weight, which is 0 when the line has none. */
  function TexCoord(parts: seq<string>, atof: string -> real): (r: seq<real>)
    requires |parts| >= 3
    ensures |r| == 3 && r[0] == atof(parts[1]) && r[1] == atof(parts[2])
    ensures r[2] == if |parts| >= 4 then atof(parts[3]) else 0.0
  {
    var weight := if |parts| >= 4 then atof(parts[3]) else 0.0;
    [atof(parts[1]), atof(parts[2]), weight]
  }

  // ---------------------------------------------------------------------------
  // load

  /** The state after the eight `clear()` calls. */
  function Cleared(): ObjData {
    ObjData([], [], [], [], [], [], [], [])
  }

  /** Appends a face line's indices to the global lists and to the last object, if there is one. */
  function AddFace(d: ObjData, f: FaceIndices): (r: ObjData)
    ensures r.facesV == d.facesV + f.v && r.facesVN == d.facesVN + f.vn && r.facesVT == d.facesVT + f.vt
    ensures |r.objects| == |d.objects|
  {
    var objects :=
      if |d.objects| > 0 then
        var last := d.objects[|d.objects| - 1];
        d.objects[|d.objects| - 1 := last.(facesV := last.facesV + f.v, facesVN := last.facesVN + f.vn)]
      else d.objects;
    d.(objects := objects, facesV := d.facesV + f.v, facesVN := d.facesVN + f.vn, facesVT := d.facesVT + f.vt)
  }

  /** One iteration of `load`'s loop. */
  function Step(d: ObjData, line: string, atol: string -> int, atof: string -> real): ObjData
    requires LineOk(line)
  {
    var parts := Split(line, Delimiter);
    match KindOf(line)
    case ObjectLine => d.(objects := d.objects + [Object3D(parts[1], [], [])])
    case VertexLine => d.(vertices := d.vertices + Triple(parts, atof))
    case NormalLine => d.(normals := d.normals + Triple(parts, atof))
    case TexCoordLine => d.(textures := d.textures + TexCoord(parts, atof))
    case FaceLine => AddFace(d, ParseFace(parts, atol))
    case _ => d
  }

  predicate LinesOk(lines: seq<string>) {
    forall i :: 0 <= i < |lines| ==> LineOk(lines[i])
  }

  /** The state after the first n lines. */
  function LoadUpTo(lines: seq<string>, n: nat, atol: string -> int, atof: string -> real): ObjData
    requires LinesOk(lines) && n <= |lines|
  {
    if n == 0 then Cleared() else Step(LoadUpTo(lines, n - 1, atol, atof), lines[n - 1], atol, atof)
  }

  /**
   * `ObjParser::load`: clears the outputs, then reads the lines one by one.
   * The result does not depend on what the parser held before.
   */
  method Load(previous: ObjData, lines: seq<string>, atol: string -> int, atof: string -> real) returns (d: ObjData)
    requires LinesOk(lines)
    ensures d == LoadUpTo(lines, |lines|, atol, atof)
    ensures d.facesMtl == []
  {
    d := Cleared();
    var i := 0;
    while i < |lines|
      invariant i <= |lines|
      invariant d == LoadUpTo(lines, i, atol, atof)
      invariant d.facesMtl == []
    {
      assert LineOk(lines[i]);
      d := Step(d, lines[i], atol, atof);
      i := i + 1;
    }
  }

  // ---------------------------------------------------------------------------
  // What each kind of line does.

  /** Comments and lines starting with anything but o, v or f change nothing. */
  lemma IgnoredLines(d: ObjData, line: string, atol: string -> int, atof: string -> real)
    requires CharAt(line, 0) == '#' || CharAt(line, 0) !in {'o', 'v', 'f'}
    ensures LineOk(line) && Step(d, line, atol, atof) == d
  {
  }

  /** An `o` line appends an object named by its second part, with no faces yet; nothing else changes. */
  lemma ObjectLineAppends(d: ObjData, line: string, atol: string -> int, atof: string -> real)
    requires CharAt(line, 0) == 'o' && |Split(line, Delimiter)| >= 2
    ensures var r := Step(d, line, atol, atof);
      && r.objects == d.objects + [Object3D(Split(line, Delimiter)[1], [], [])]
      && r.(objects := d.objects) == d
  {
  }

  /** `v `, `vn ` and `vt ` lines append exactly three numbers to their own list and change nothing else. */
  lemma VertexLinesAppendThree(d: ObjData, line: string, atol: string -> int, atof: string -> real)
    requires CharAt(line, 0) == 'v' && LineOk(line)
    ensures var r := Step(d, line, atol, atof);
      && |r.vertices| + |r.normals| + |r.textures| == |d.vertices| + |d.normals| + |d.textures| + (if KindOf(line) == Ignored then 0 else 3)
      && r.vertices[..|d.vertices|] == d.vertices
      && r.normals[..|d.normals|] == d.normals
      && r.textures[..|d.textures|] == d.textures
      && r.(vertices := d.vertices, normals := d.normals, textures := d.textures) == d
    ensures var r := Step(d, line, atol, atof);
      KindOf(line) == VertexLine ==> |r.vertices| == |d.vertices| + 3 && r.normals == d.normals && r.textures == d.textures
    ensures var r := Step(d, line, atol, atof);
      KindOf(line) == NormalLine ==> |r.normals| == |d.normals| + 3 && r.vertices == d.vertices && r.textures == d.textures
    ensures var r := Step(d, line, atol, atof);
      KindOf(line) == TexCoordLine ==> |r.textures| == |d.textures| + 3 && r.vertices == d.vertices && r.normals == d.normals
  {
  }

  /**
   * An `f ` line appends its indices to the global lists and to the last
   * object's lists; before the first `o` line only the global lists grow.
   */
  lemma FaceLineAppends(d: ObjData, line: string, atol: string -> int, atof: string -> real)
    requires KindOf(line) == FaceLine && LineOk(line)
    ensures var r := Step(d, line, atol, atof);
      var f := ParseFace(Split(line, Delimiter), atol);
      && r.facesV == d.facesV + f.v && r.facesVN == d.facesVN + f.vn && r.facesVT == d.facesVT + f.vt
      && |r.objects| == |d.objects|
      && (forall k :: 0 <= k < |d.objects| - 1 ==> r.objects[k] == d.objects[k])
      && (|d.objects| > 0 ==>
            var last := d.objects[|d.objects| - 1];
            r.objects[|d.objects| - 1] == Object3D(last.name, last.facesV + f.v, last.facesVN + f.vn))
      && r.vertices == d.vertices && r.normals == d.normals && r.textures == d.textures
  {
  }

  /** The number of lines of a kind among the first n. */
  function CountKind(lines: seq<string>, n: nat, kind: LineKind): nat
    requires n <= |lines|
  {
    if n == 0 then 0 else CountKind(lines, n - 1, kind) + if KindOf(lines[n - 1]) == kind then 1 else 0
  }

  /** After `load`: one object per `o` line and three numbers per vertex, normal and texture line. */
  lemma {:induction false} LoadCounts(lines: seq<string>, n: nat, atol: string -> int, atof: string -> real)
    requires LinesOk(lines) && n <= |lines|
    ensures var d := LoadUpTo(lines, n, atol, atof);
      && |d.objects| == CountKind(lines, n, ObjectLine)
      && |d.vertices| == 3 * CountKind(lines, n, VertexLine)
      && |d.normals| == 3 * CountKind(lines, n, NormalLine)
      && |d.textures| == 3 * CountKind(lines, n, TexCoordLine)
  {
    if n > 0 {
      LoadCounts(lines, n - 1, atol, atof);
      assert LineOk(lines[n - 1]);
    }
  }
}

=== FILE: random.dfy ===
/**
 * The 32-bit integer hashes of include/Math/random.h.  `uint32_t` is `bv32`,
 * so `+`, `*` and `<<` wrap around modulo 2^32 exactly as in the source.
 *
 * Each hash is a chain of steps, and every step is a bijection on 32-bit
 * words: adding a left shift of itself multiplies by an odd number, which
 * multiplying by the inverse modulo 2^32 undoes; xoring in a shift of
 * itself by k is undone by xoring in the shifts by k, 2k, 3k, ... below 32;
 * xor with a constant undoes itself.  So each hash comes with an explicit
 * inverse, which makes it injective.
 */
module Random {

  // ---------------------------------------------------------------------------
  // The steps, named by what they do, and their inverses.

  function AddShl10(x: bv32): bv32 { x + (x << 10) }
  function AddShl3(x: bv32): bv32 { x + (x << 3) }
  function AddShl15(x: bv32): bv32 { x + (x << 15) }
  function XorShr6(x: bv32): bv32 { x ^ (x >> 6) }
  function XorShr11(x: bv32): bv32 { x ^ (x >> 11) }
  function XorShr17(x: bv32): bv32 { x ^ (x >> 17) }
  function XorShr4(x: bv32): bv32 { x ^ (x >> 4) }
  function XorShr15(x: bv32): bv32 { x ^ (x >> 15) }
  function XorShl13(x: bv32): bv32 { x ^ (x << 13) }
  function XorShl5(x: bv32): bv32 { x ^ (x << 5) }
  /** The first step of `WangHash`: `(x ^ 61) ^ (x >> 16)`. */
  function Xor61Shr16(x: bv32): bv32 { (x ^ 61) ^ (x >> 16) }
  function Mul9(x: bv32): bv32 { x * 9 }
  function MulWang(x: bv32): bv32 { x * 0x27d4_eb2d }

  function UnAddShl10(y: bv32): bv32 { y * 0xc00f_fc01 }
  function UnAddShl3(y: bv32): bv32 { y * 0x38e3_8e39 }
  function UnAddShl15(y: bv32): bv32 { y * 0x3fff_8001 }
  function UnXorShr6(y: bv32): bv32 { y ^ (y >> 6) ^ (y >> 12) ^ (y >> 18) ^ (y >> 24) ^ (y >> 30) }
  function UnXorShr11(y: bv32): bv32 { y ^ (y >> 11) ^ (y >> 22) }
  function UnXorShr17(y: bv32): bv32 { y ^ (y >> 17) }
  function UnXorShr4(y: bv32): bv32 { y ^ (y >> 4) ^ (y >> 8) ^ (y >> 12) ^ (y >> 16) ^ (y >> 20) ^ (y >> 24) ^ (y >> 28) }
  function UnXorShr15(y: bv32): bv32 { y ^ (y >> 15) ^ (y >> 30) }
  function UnXorShl13(y: bv32): bv32 { y ^ (y << 13) ^ (y << 26) }
  function UnXorShl5(y: bv32): bv32 { y ^ (y << 5) ^ (y << 10) ^ (y << 15) ^ (y << 20) ^ (y << 25) ^ (y << 30) }
  function UnXor61Shr16(y: bv32): bv32 { (y ^ 61) ^ ((y ^ 61) >> 16) }
  function UnMul9(y: bv32): bv32 { y * 0x38e3_8e39 }
  function UnMulWang(y: bv32): bv32 { y * 0xfb69_9ca5 }

  // Every step is undone by its inverse.

  /** Adding a left shift by 10 multiplies by 1025. */
  lemma AddShl10IsMul(x: bv32)
    ensures AddShl10(x) == x * 1025
  {
  }

  lemma UnAddShl10OfMul(x: bv32)
    ensures UnAddShl10(x * 1025) == x
  {
  }

  lemma AddShl10Inverse(x: bv32)
    ensures UnAddShl10(AddShl10(x)) == x
  {
    AddShl10IsMul(x);
    UnAddShl10OfMul(x);
  }

  /** Adding a left shift by 3 multiplies by 9. */
  lemma AddShl3IsMul(x: bv32)
    ensures AddShl3(x) == x * 9
  {
  }

  lemma UnAddShl3OfMul(x: bv32)
    ensures UnAddShl3(x * 9) == x
  {
  }

  lemma AddShl3Inverse(x: bv32)
    ensures UnAddShl3(AddShl3(x)) == x
  {
    AddShl3IsMul(x);
    UnAddShl3OfMul(x);
  }

  /** Adding a left shift by 15 multiplies by 32769. */
  lemma AddShl15IsMul(x: bv32)
    ensures AddShl15(x) == x * 32769
  {
  }

  lemma UnAddShl15OfMul(x: bv32)
    ensures UnAddShl15(x * 32769) == x
  {
  }

  lemma AddShl15Inverse(x: bv32)
    ensures UnAddShl15(AddShl15(x)) == x
  {
    AddShl15IsMul(x);
    UnAddShl15OfMul(x);
  }

  lemma XorShr6Inverse(x: bv32)
    ensures UnXorShr6(XorShr6(x)) == x
  {
    assert UnXorShr6(x ^ (x >> 6)) == x;
  }

  lemma XorShr11Inverse(x: bv32)
    ensures UnXorShr11(XorShr11(x)) == x
  {
    assert UnXorShr11(x ^ (x >> 11)) == x;
  }

  lemma XorShr17Inverse(x: bv32)
    ensures UnXorShr17(XorShr17(x)) == x
  {
    assert UnXorShr17(x ^ (x >> 17)) == x;
  }

  lemma XorShr4Inverse(x: bv32)
    ensures UnXorShr4(XorShr4(x)) == x
  {
    assert UnXorShr4(x ^ (x >> 4)) == x;
  }

  lemma XorShr15Inverse(x: bv32)
    ensures UnXorShr15(XorShr15(x)) == x
  {
    assert UnXorShr15(x ^ (x >> 15)) == x;
  }

  lemma XorShl13Inverse(x: bv32)
    ensures UnXorShl13(XorShl13(x)) == x
  {
    assert UnXorShl13(x ^ (x << 13)) == x;
  }

  lemma XorShl5Inverse(x: bv32)
    ensures UnXorShl5(XorShl5(x)) == x
  {
    assert UnXorShl5(x ^ (x << 5)) == x;
  }

  lemma Xor61Shr16Inverse(x: bv32)
    ensures UnXor61Shr16(Xor61Shr16(x)) == x
  {
    assert UnXor61Shr16((x ^ 61) ^ (x >> 16)) == x;
  }

  lemma Mul9Inverse(x: bv32)
    ensures UnMul9(Mul9(x)) == x
  {
    assert UnMul9(x * 9) == x;
  }

  lemma MulWangInverse(x: bv32)
    ensures UnMulWang(MulWang(x)) == x
  {
    assert UnMulWang(x * 0x27d4_eb2d) == x;
  }

  // ---------------------------------------------------------------------------
  // Bob Jenkins' one-at-a-time mixing step.

  /** `BJXorShift`: shift-add by 10, xor-shift by 6, shift-add by 3, xor-shift by 11, shift-add by 15. */
  function BJXorShift(x: bv32): (r: bv32)
    ensures x == 0 ==> r == 0
  {
    AddShl15(XorShr11(AddShl3(XorShr6(AddShl10(x)))))
  }

  /** The inverse of `BJXorShift`, undoing its steps last to first. */
  function UnBJXorShift(y: bv32): bv32 {
    UnAddShl10(UnXorShr6(UnAddShl3(UnXorShr11(UnAddShl15(y)))))
  }

  lemma {:induction false} BJXorShiftRoundTrip(x: bv32)
    ensures UnBJXorShift(BJXorShift(x)) == x
  {
    var x1 := AddShl10(x);
    var x2 := XorShr6(x1);
    var x3 := AddShl3(x2);
    var x4 := XorShr11(x3);
    AddShl10Inverse(x);
    XorShr6Inverse(x1);
    AddShl3Inverse(x2);
    XorShr11Inverse(x3);
    AddShl15Inverse(x4);
  }

  /** Distinct seeds give distinct hashes. */
  lemma BJXorShiftInjective(a: bv32, b: bv32)
    ensures BJXorShift(a) == BJXorShift(b) ==> a == b
  {
    BJXorShiftRoundTrip(a);
    BJXorShiftRoundTrip(b);
  }

  // ---------------------------------------------------------------------------
  // Marsaglia's xor-shift.

  /** `GMXorShift`: xor-shifts left by 13, right by 17, left by 5. */
  function GMXorShift(x: bv32): (r: bv32)
    ensures x == 0 ==> r == 0
  {
    XorShl5(XorShr17(XorShl13(x)))
  }

  function UnGMXorShift(y: bv32): bv32 {
    UnXorShl13(UnXorShr17(UnXorShl5(y)))
  }

  lemma {:induction false} GMXorShiftRoundTrip(x: bv32)
    ensures UnGMXorShift(GMXorShift(x)) == x
  {
    XorShl13Inverse(x);
    XorShr17Inverse(XorShl13(x));
    XorShl5Inverse(XorShr17(XorShl13(x)));
  }

  lemma GMXorShiftInjective(a: bv32, b: bv32)
    ensures GMXorShift(a) == GMXorShift(b) ==> a == b
  {
    GMXorShiftRoundTrip(a);
    GMXorShiftRoundTrip(b);
  }

  // ---------------------------------------------------------------------------
  // Thomas Wang's integer hash.

  /** `WangHash`: xor with 61 and a right shift by 16, times 9, xor-shift by 4, times 0x27d4eb2d, xor-shift by 15. */
  function WangHash(x: bv32): bv32 {
    XorShr15(MulWang(XorShr4(Mul9(Xor61Shr16(x)))))
  }

  function UnWangHash(y: bv32): bv32 {
    UnXor61Shr16(UnMul9(UnXorShr4(UnMulWang(UnXorShr15(y)))))
  }

  lemma {:induction false} WangHashRoundTrip(x: bv32)
    ensures UnWangHash(WangHash(x)) == x
  {
    var x1 := Xor61Shr16(x);
    var x2 := Mul9(x1);
    var x3 := XorShr4(x2);
    var x4 := MulWang(x3);
    Xor61Shr16Inverse(x);
    Mul9Inverse(x1);
    XorShr4Inverse(x2);
    MulWangInverse(x3);
    XorShr15Inverse(x4);
  }

  lemma WangHashInjective(a: bv32, b: bv32)
    ensures WangHash(a) == WangHash(b) ==> a == b
  {
    WangHashRoundTrip(a);
    WangHashRoundTrip(b);
  }
}

=== FILE: scene.dfy ===
/**
 * `host_scene` of include/Scene/scene.h: the render settings, the flat mesh
 * array built from a scene document, the set of material kinds in use and the
 * list of light-emitting meshes.
 *
 * The document is a `Json.Value`.  The source reads several members without
 * checking them (array elements by position, `GetInt`/`GetFloat` on members it
 * only checked for presence, `HasMember` on values it never checked to be
 * objects); `DocumentOk` collects what it thereby relies on.
 */
module Scene {
  import opened LinearAlgebra
  import opened Materials
  import opened Geometry
  import opened Json
  import opened Bits

  // ---------------------------------------------------------------------------
  // Render settings.

  /** The bounce and ray-marching limits, `cl_int`s in the source. */
  datatype Settings = Settings(
    maxBounces: int, maxDiffBounces: int, maxSpecBounces: int, maxTransBounces: int,
    maxScatteringEvents: int, marchingSteps: int, shadowMarchingSteps: int)

  /** The document keys of the settings, in field order, and their defaults. */
  const SettingKeys: seq<string> :=
    ["MAX_BOUNCES", "MAX_DIFF_BOUNCES", "MAX_SPEC_BOUNCES", "MAX_TRANS_BOUNCES",
     "MAX_SCATTERING_EVENTS", "MARCHING_STEPS", "SHADOW_MARCHING_STEPS"]
  const SettingDefaults: seq<int> := [12, 4, 4, 12, 12, 128, 64]

  function SettingsList(s: Settings): seq<int> {
    [s.maxBounces, s.maxDiffBounces, s.maxSpecBounces, s.maxTransBounces,
     s.maxScatteringEvents, s.marchingSteps, s.shadowMarchingSteps]
  }

  /** The initial values of the fields. */
  function DefaultSettings(): Settings { Settings(12, 4, 4, 12, 12, 128, 64) }

  /** A present "settings" member is an object whose present settings are integers. */
  predicate SettingsOk(doc: Value) {
    Has(doc, "settings") ==>
      var st := Get(doc, "settings");
      st.Object? && forall k :: 0 <= k < |SettingKeys| && Has(st, SettingKeys[k]) ==> Get(st, SettingKeys[k]).Int?
  }

  function ReadSetting(st: Value, key: string, default: int): int {
    if Has(st, key) then IntOf(Get(st, key)) else default
  }

  /** The settings block of `load`: each setting is the document's value when it has one, else its default. */
  function LoadSettings(doc: Value): (s: Settings)
    ensures forall k :: 0 <= k < |SettingKeys| ==>
      SettingsList(s)[k] ==
        if Has(doc, "settings") && Has(Get(doc, "settings"), SettingKeys[k])
        then IntOf(Get(Get(doc, "settings"), SettingKeys[k]))
        else SettingDefaults[k]
  {
    if Has(doc, "settings") then
      var st := Get(doc, "settings");
      assert SettingKeys[0] == "MAX_BOUNCES" && SettingKeys[1] == "MAX_DIFF_BOUNCES";
      assert SettingKeys[2] == "MAX_SPEC_BOUNCES" && SettingKeys[3] == "MAX_TRANS_BOUNCES";
      assert SettingKeys[4] == "MAX_SCATTERING_EVENTS" && SettingKeys[5] == "MARCHING_STEPS";
      assert SettingKeys[6] == "SHADOW_MARCHING_STEPS";
      Settings(
        ReadSetting(st, "MAX_BOUNCES", 12),
        ReadSetting(st, "MAX_DIFF_BOUNCES", 4),
        ReadSetting(st, "MAX_SPEC_BOUNCES", 4),
        ReadSetting(st, "MAX_TRANS_BOUNCES", 12),
        ReadSetting(st, "MAX_SCATTERING_EVENTS", 12),
        ReadSetting(st, "MARCHING_STEPS", 128),
        ReadSetting(st, "SHADOW_MARCHING_STEPS", 64))
    else
      DefaultSettings()
  }

  // ---------------------------------------------------------------------------
  // Materials (the `parseMaterial` macro).

  /**
   * `_mat.t = 1 << type`: the shift happens on `int` (so `type` must be below
   * 31) and the result is stored into the 16-bit field, which keeps no bit
   * for types 16 and up.
   */
  function MaterialType(kind: int): bv16 {
    if 0 <= kind < 16 then (1 as bv16) << kind else 0
  }

  /** A present "color" array starts with numbers, a present integer "type" is a valid shift. */
  predicate MaterialOk(doc: Value) {
    && doc.Object?
    && (HasArray(doc, "color") ==>
          var items := Get(doc, "color").items;
          forall k :: 0 <= k < |items| && k < 4 ==> IsNumber(items[k]))
    && (HasInt(doc, "type") ==> 0 <= Get(doc, "type").i < 31)
  }

  /** Overwrites colour component k with item k, for the first `min(|items|, 4)` items. */
  function SetColor(c: Vec4, items: seq<Value>): (r: Vec4)
    ensures forall k :: 0 <= k < 4 ==> Index(r, k) == if k < |items| then Num(items[k]) else Index(c, k)
  {
    Vec4(
      if 0 < |items| then Num(items[0]) else c.x,
      if 1 < |items| then Num(items[1]) else c.y,
      if 2 < |items| then Num(items[2]) else c.z,
      if 3 < |items| then Num(items[3]) else c.w)
  }

  /** `parseMaterial` without its absorptive branch: colour, roughness and type, each only when given. */
  function ParseMaterial(doc: Value, mat: Material): (r: Material)
    ensures r.tex == mat.tex && r.b == mat.b
    ensures !HasArray(doc, "color") ==> r.color == mat.color
    ensures r.roughness == if HasNumber(doc, "roughness") then Num(Get(doc, "roughness")) else mat.roughness
    ensures !HasInt(doc, "type") ==> r.t == mat.t
  {
    var color := if HasArray(doc, "color") then SetColor(mat.color, Get(doc, "color").items) else mat.color;
    var roughness := if HasNumber(doc, "roughness") then Num(Get(doc, "roughness")) else mat.roughness;
    var t := if HasInt(doc, "type") then MaterialType(IntOf(Get(doc, "type"))) else mat.t;
    mat.(color := color, roughness := roughness, t := t)
  }

  /** The bits `ACTIVE_MATS |= _mat.t` adds for one material object. */
  function TypeBits(doc: Value): bv32 {
    if HasInt(doc, "type") then MaterialType(IntOf(Get(doc, "type"))) as bv32 else 0
  }

  /** Types 0 to 11 select exactly the twelve material flags; types 16 to 30 select nothing. */
  lemma MaterialTypeSelectsFlag(kind: int)
    requires 0 <= kind < 31
    ensures kind < 12 ==> MaterialType(kind) == MaterialFlags[[0, 1, 2, 4, 6, 7, 8, 9, 10, 11, 3, 5][kind]]
    ensures MaterialType(kind) in MaterialFlags <==> kind < 12
    ensures 16 <= kind ==> MaterialType(kind) == 0
  {
    if kind < 12 {
    } else if kind < 16 {
      assert MaterialType(kind) >= 0x1000;
      MaterialFlagsCoverLowBits();
    }
  }

  // ---------------------------------------------------------------------------
  // Meshes.

  /** The four arrays of a scene, in the order `load` reads them. */
  datatype Kind = Spheres | Sdfs | Boxes | Quads

  /** Where a kind's count lives in `object_count`. */
  function KindSlot(kind: Kind): nat {
    match kind
    case Spheres => 0
    case Sdfs => 1
    case Boxes => 2
    case Quads => 3
  }

  function Key(kind: Kind): string {
    match kind
    case Spheres => "spheres"
    case Sdfs => "sdfs"
    case Boxes => "boxes"
    case Quads => "quads"
  }

  function KindFlag(kind: Kind): bv32 {
    match kind
    case Spheres => SPHERE
    case Sdfs => SDF
    case Boxes => BOX
    case Quads => QUAD
  }

  /** The number of joker slots an item writes from a numeric array, and that array's key. */
  predicate ItemOk(kind: Kind, item: Value) {
    && item.Object?
    && (HasObject(item, "material") ==> MaterialOk(Get(item, "material")))
    && (kind != Quads && HasArray(item, "pos") ==> NumbersUpTo(Get(item, "pos"), 3))
    && (kind == Sdfs && HasInt(item, "type") ==> 0 <= Get(item, "type").i < 31)
    && (kind == Sdfs && HasArray(item, "params") ==>
          NumbersUpTo(Get(item, "params"), |Get(item, "params").items|) && |Get(item, "params").items| <= 16)
    && (kind == Boxes && HasArray(item, "scale") ==> NumbersUpTo(Get(item, "scale"), 3))
    && (kind == Quads && HasArray(item, "vertices") ==> NumbersUpTo(Get(item, "vertices"), 12))
  }

  /** Positions 0, 1 and 2 from the first three numbers; w is kept. */
  function SetXYZ(p: Vec4, v: Value): (r: Vec4)
    ensures forall k :: 0 <= k < 3 ==> Index(r, k) == Num(At(v, k))
    ensures r.w == p.w
  {
    Vec4(Num(At(v, 0)), Num(At(v, 1)), Num(At(v, 2)), p.w)
  }

  /** The first `n` numbers of an array, as reals. */
  function Numbers(v: Value, n: nat): (r: seq<real>)
    ensures |r| == n
  {
    seq(n, k requires 0 <= k < n => Num(At(v, k)))
  }

  /** Joker slots 0 to n-1 take the first `n` numbers; the others keep their value. */
  function WriteNumbers(joker: seq<real>, v: Value, n: nat): (r: seq<real>)
    requires n <= |joker|
    ensures |r| == |joker|
    ensures forall k :: 0 <= k < |r| ==> r[k] == if k < n then Num(At(v, k)) else joker[k]
  {
    Numbers(v, n) + joker[n..]
  }

  /** The subtype bit `1 << type` an SDF item names, or no bit when it has no integer type. */
  function SubtypeBit(item: Value): bv32 {
    var k := IntOf(Get(item, "type"));
    if HasInt(item, "type") && 0 <= k < 32 then (1 as bv32) << k else 0
  }

  /** Quad `joker[12]`: -1 for a boolean `flip_normal` that is true, 1 otherwise. */
  function FlipSign(item: Value): real {
    if Has(item, "flip_normal") && Get(item, "flip_normal").Bool? && Get(item, "flip_normal").b then -1.0 else 1.0
  }

  function MaterialOf(mat: Material, item: Value): Material {
    if HasObject(item, "material") then ParseMaterial(Get(item, "material"), mat) else mat
  }

  /** The body of one iteration of the loop over a kind's array: what it does to the mesh it fills. */
  function PlaceItem(kind: Kind, m: Mesh, item: Value): (r: Mesh)
    ensures kind != Sdfs ==> r.t == KindFlag(kind)
    ensures kind == Sdfs ==> r.t == SdfType(SubtypeBit(item))
    ensures kind == Quads ==> r.joker[12] == FlipSign(item)
    ensures r.mat == MaterialOf(m.mat, item)
  {
    var mat := MaterialOf(m.mat, item);
    var pos := if kind != Quads && HasArray(item, "pos") then SetXYZ(m.position, Get(item, "pos")) else m.position;
    match kind
    case Spheres =>
      var joker := if HasNumber(item, "radius") then m.joker[0 := Num(Get(item, "radius"))] else m.joker;
      Mesh(mat, pos, joker, SPHERE)
    case Sdfs =>
      var joker := if HasArray(item, "params")
        then WriteNumbers(m.joker, Get(item, "params"), ParamCount(Get(item, "params"))) else m.joker;
      Mesh(mat, pos, joker, SDF | SubtypeBit(item))
    case Boxes =>
      var joker := if HasArray(item, "scale") then WriteNumbers(m.joker, Get(item, "scale"), 3) else m.joker;
      Mesh(mat, pos, joker, BOX)
    case Quads =>
      var joker := if HasArray(item, "vertices") then WriteNumbers(m.joker, Get(item, "vertices"), 12) else m.joker;
      Mesh(mat, pos, joker[12 := FlipSign(item)], QUAD)
  }

  /**
   * The number of SDF parameters written: all of them.  More than sixteen
   * would overrun `joker`, which is undefined in the source; the model keeps
   * the first sixteen.
   */
  function ParamCount(v: Value): (n: nat)
    ensures n <= 16
    ensures v.Array? && |v.items| <= 16 ==> n == |v.items|
  {
    if v.Array? && |v.items| <= 16 then |v.items| else if v.Array? then 16 else 0
  }

  /** `cpu_meshes.resize(n)`: new meshes are default-constructed. */
  function Resize(meshes: seq<Mesh>, n: nat, junk: Joker): (r: seq<Mesh>)
    ensures |r| == n
    ensures forall k :: 0 <= k < n && k < |meshes| ==> r[k] == meshes[k]
    ensures forall k :: |meshes| <= k < n ==> r[k] == DefaultMesh(junk)
  {
    if n <= |meshes| then meshes[..n] else meshes + seq(n - |meshes|, _ => DefaultMesh(junk))
  }

  /** The loop over a kind's array: item j fills mesh `base + j`. */
  function Place(meshes: seq<Mesh>, kind: Kind, items: seq<Value>, base: nat): (r: seq<Mesh>)
    ensures |r| == |meshes|
  {
    seq(|meshes|, k requires 0 <= k < |meshes| =>
      if base <= k < base + |items| then PlaceItem(kind, meshes[k], items[k - base]) else meshes[k])
  }

  /** The bits one item's material adds to `ACTIVE_MATS`. */
  function ItemTypeBits(item: Value): bv32 {
    if HasObject(item, "material") then TypeBits(Get(item, "material")) else 0
  }

  /** The bits each item's material adds to `ACTIVE_MATS`, in array order. */
  function ItemBits(kind: Kind, items: seq<Value>): (ws: seq<bv32>)
    ensures |ws| == |items|
    ensures forall j :: 0 <= j < |items| ==> ws[j] == ItemTypeBits(items[j])
  {
    seq(|items|, j requires 0 <= j < |items| => ItemTypeBits(items[j]))
  }

  // ---------------------------------------------------------------------------
  // The mesh table.

  /**
   * The mesh part of `host_scene`: `object_count` (slots 0 to 3 count spheres,
   * SDFs, boxes and quads, slot 7 their total), `cpu_meshes` and the `H_*` flags.
   */
  datatype MeshTable = MeshTable(
    counts: seq<nat>,
    meshes: seq<Mesh>,
    hasSphere: bool, hasSdf: bool, hasBox: bool, hasQuad: bool)

  /**
   * The mesh table of a fresh scene: `new host_scene()` value-initialises the
   * heap object behind the global `scene` pointer, so its counts are zero and
   * its mesh list is empty.
   */
  function EmptyTable(): (t: MeshTable)
    ensures Layout(t) && Unread(t, Spheres) && t.meshes == []
  {
    MeshTable(seq(8, _ => 0), [], false, false, false, false)
  }

  /** The counts of the four kinds with `s[7]` their running total, and one mesh per counted object. */
  predicate Layout(t: MeshTable) {
    && |t.counts| == 8
    && t.counts[7] == t.counts[0] + t.counts[1] + t.counts[2] + t.counts[3]
    && |t.meshes| == t.counts[7]
  }

  /** The kinds not read yet have count zero. */
  predicate Unread(t: MeshTable, kind: Kind)
    requires |t.counts| == 8
  {
    forall j :: KindSlot(kind) <= j < 4 ==> t.counts[j] == 0
  }

  predicate ItemsOk(kind: Kind, sc: Value) {
    HasArray(sc, Key(kind)) ==>
      var items := Get(sc, Key(kind)).items;
      forall j :: 0 <= j < |items| ==> ItemOk(kind, items[j])
  }

  /** The bits a kind's array adds to `ACTIVE_MATS`, item by item. */
  function KindBits(kind: Kind, sc: Value): (ws: seq<bv32>)
    ensures |ws| == ArraySize(sc, Key(kind))
  {
    if HasArray(sc, Key(kind)) then ItemBits(kind, Get(sc, Key(kind)).items) else []
  }

  /** Sets the `H_*` flag of a kind. */
  function SetHas(t: MeshTable, kind: Kind, b: bool): (r: MeshTable)
    ensures r.counts == t.counts && r.meshes == t.meshes
  {
    match kind
    case Spheres => t.(hasSphere := b)
    case Sdfs => t.(hasSdf := b)
    case Boxes => t.(hasBox := b)
    case Quads => t.(hasQuad := b)
  }

  /** `object_count.s[slot] = n; object_count.s[7] += n`, on counts whose later kinds are still zero. */
  function Recount(c: seq<nat>, slot: nat, n: nat): (d: seq<nat>)
    requires |c| == 8 && slot < 4 && c[7] == c[0] + c[1] + c[2] + c[3]
    requires forall j :: slot <= j < 4 ==> c[j] == 0
    ensures |d| == 8 && d[slot] == n && d[7] == c[7] + n
    ensures forall j :: 0 <= j < 4 && j != slot ==> d[j] == c[j]
    ensures d[7] == d[0] + d[1] + d[2] + d[3]
    ensures forall j :: slot < j < 4 ==> d[j] == 0
    ensures Offset(d, slot) == c[7]
  {
    c[slot := n][7 := c[7] + n]
  }

  /** `arr_pos` at the start of a kind's loop: the counts of the kinds read before it. */
  function Offset(c: seq<nat>, slot: nat): nat
    requires |c| == 8 && slot < 4
  {
    if slot == 0 then 0
    else if slot == 1 then c[0]
    else if slot == 2 then c[0] + c[1]
    else c[0] + c[1] + c[2]
  }

  /** One of the four array blocks of `load`, without its `ACTIVE_MATS` part (see `KindBits`). */
  function LoadKind(t: MeshTable, kind: Kind, sc: Value, junk: Joker): (r: MeshTable)
    requires Layout(t) && Unread(t, kind)
    ensures Layout(r)
    ensures r.counts[KindSlot(kind)] == ArraySize(sc, Key(kind))
    ensures forall j :: 0 <= j < 4 && j != KindSlot(kind) ==> r.counts[j] == t.counts[j]
    ensures r.counts[7] == t.counts[7] + ArraySize(sc, Key(kind))
  {
    if HasArray(sc, Key(kind)) then
      var items := Get(sc, Key(kind)).items;
      var slot := KindSlot(kind);
      var counts := Recount(t.counts, slot, |items|);
      var meshes := Resize(t.meshes, counts[7], junk);
      var placed := Place(meshes, kind, items, Offset(counts, slot));
      SetHas(t, kind, |items| > 0).(counts := counts, meshes := placed)
    else
      t
  }

  /** A kind's block leaves the meshes of the kinds before it alone. */
  lemma LoadKindKeeps(t: MeshTable, kind: Kind, sc: Value, junk: Joker)
    requires Layout(t) && Unread(t, kind)
    ensures var r := LoadKind(t, kind, sc, junk);
      forall k :: 0 <= k < |t.meshes| ==> r.meshes[k] == t.meshes[k]
  {
  }

  /** Item j of a kind's array lands at `arr_pos + j`, placed over a default mesh. */
  lemma LoadKindPlaces(t: MeshTable, kind: Kind, sc: Value, junk: Joker, j: nat)
    requires Layout(t) && Unread(t, kind)
    requires HasArray(sc, Key(kind)) && j < |Get(sc, Key(kind)).items|
    ensures var r := LoadKind(t, kind, sc, junk);
      |t.meshes| + j < |r.meshes| &&
      r.meshes[|t.meshes| + j] == PlaceItem(kind, DefaultMesh(junk), Get(sc, Key(kind)).items[j])
  {
    var items := Get(sc, Key(kind)).items;
    var counts := Recount(t.counts, KindSlot(kind), |items|);
    var meshes := Resize(t.meshes, counts[7], junk);
    assert Offset(counts, KindSlot(kind)) == |t.meshes|;
    assert meshes[|t.meshes| + j] == DefaultMesh(junk);
    var placed := Place(meshes, kind, items, |t.meshes|);
    assert placed[|t.meshes| + j] == PlaceItem(kind, meshes[|t.meshes| + j], items[j]);
    assert LoadKind(t, kind, sc, junk).meshes == placed;
  }

  predicate KindsOk(sc: Value) {
    ItemsOk(Spheres, sc) && ItemsOk(Sdfs, sc) && ItemsOk(Boxes, sc) && ItemsOk(Quads, sc)
  }

  /** The kind `load` reads in the i-th array block. */
  function KindAt(i: nat): (kind: Kind)
    requires i < 4
    ensures KindSlot(kind) == i
  {
    if i == 0 then Spheres else if i == 1 then Sdfs else if i == 2 then Boxes else Quads
  }

  /** The number of meshes the first n array blocks create. */
  function StartAt(sc: Value, n: nat): nat
    requires n <= 4
  {
    if n == 0 then 0 else StartAt(sc, n - 1) + ArraySize(sc, Key(KindAt(n - 1)))
  }

  /** Where a kind's meshes start: after the meshes of the kinds read before it. */
  function KindStart(sc: Value, kind: Kind): nat {
    StartAt(sc, KindSlot(kind))
  }

  /** The number of meshes of all four kinds. */
  function TotalSize(sc: Value): nat {
    StartAt(sc, 4)
  }

  /** The mesh table after the first n array blocks of `load`. */
  function Stage(sc: Value, junk: Joker, n: nat): (t: MeshTable)
    requires n <= 4
    ensures Layout(t) && |t.meshes| == StartAt(sc, n)
    ensures forall i :: 0 <= i < n ==> t.counts[i] == ArraySize(sc, Key(KindAt(i)))
    ensures forall i :: n <= i < 4 ==> t.counts[i] == 0
  {
    if n == 0 then EmptyTable()
    else
      var kind := KindAt(n - 1);
      LoadKind(Stage(sc, junk, n - 1), kind, sc, junk)
  }

  /** The four array blocks of `load`: spheres, SDFs, boxes, quads. */
  function LoadTable(sc: Value, junk: Joker): (r: MeshTable)
    ensures Layout(r)
    ensures r.counts[0] == ArraySize(sc, "spheres") && r.counts[1] == ArraySize(sc, "sdfs")
    ensures r.counts[2] == ArraySize(sc, "boxes") && r.counts[3] == ArraySize(sc, "quads")
    ensures |r.meshes| == r.counts[7] == TotalSize(sc)
  {
    Stage(sc, junk, 4)
  }

  /** Item j of a kind's array, after the blocks up to and including that kind's. */
  lemma {:induction false} StagePlaces(sc: Value, junk: Joker, n: nat, kind: Kind, j: nat)
    requires KindSlot(kind) < n <= 4
    requires HasArray(sc, Key(kind)) && j < |Get(sc, Key(kind)).items|
    ensures var t := Stage(sc, junk, n);
      && KindStart(sc, kind) + j < |t.meshes|
      && t.meshes[KindStart(sc, kind) + j] == PlaceItem(kind, DefaultMesh(junk), Get(sc, Key(kind)).items[j])
  {
    if KindSlot(kind) == n - 1 {
      StageNewest(sc, junk, n, kind, j);
    } else {
      StagePlaces(sc, junk, n - 1, kind, j);
      StageKeeps(sc, junk, n, KindStart(sc, kind) + j);
    }
  }

  /** The block of a kind places its items after the meshes of the kinds before it. */
  lemma StageNewest(sc: Value, junk: Joker, n: nat, kind: Kind, j: nat)
    requires n == KindSlot(kind) + 1
    requires HasArray(sc, Key(kind)) && j < |Get(sc, Key(kind)).items|
    ensures var t := Stage(sc, junk, n);
      && KindStart(sc, kind) + j < |t.meshes|
      && t.meshes[KindStart(sc, kind) + j] == PlaceItem(kind, DefaultMesh(junk), Get(sc, Key(kind)).items[j])
  {
    StageStep(sc, junk, n, kind);
    LoadKindPlaces(Stage(sc, junk, n - 1), kind, sc, junk, j);
  }

  /** The stage that reads a kind is that kind's block applied after the kinds before it. */
  lemma StageStep(sc: Value, junk: Joker, n: nat, kind: Kind)
    requires n == KindSlot(kind) + 1
    ensures var prev := Stage(sc, junk, n - 1);
      && |prev.meshes| == KindStart(sc, kind)
      && Layout(prev) && Unread(prev, kind)
      && Stage(sc, junk, n) == LoadKind(prev, kind, sc, junk)
  {
    assert KindAt(n - 1) == kind;
  }

  /** A later block keeps the meshes already placed. */
  lemma StageKeeps(sc: Value, junk: Joker, n: nat, i: nat)
    requires 0 < n <= 4
    requires i < |Stage(sc, junk, n - 1).meshes|
    ensures i < |Stage(sc, junk, n).meshes|
    ensures Stage(sc, junk, n).meshes[i] == Stage(sc, junk, n - 1).meshes[i]
  {
    var k := KindAt(n - 1);
    LoadKindKeeps(Stage(sc, junk, n - 1), k, sc, junk);
  }

  /**
   * The mesh layout: spheres fill [0, n0), SDFs the next n1 slots, boxes the
   * next n2 and quads the last n3; each mesh is its item placed over a
   * default mesh.
   */
  lemma LoadTablePlaces(sc: Value, junk: Joker, kind: Kind, j: nat)
    requires HasArray(sc, Key(kind)) && j < |Get(sc, Key(kind)).items|
    ensures var r := LoadTable(sc, junk);
      && KindStart(sc, kind) + j < |r.meshes|
      && r.meshes[KindStart(sc, kind) + j] == PlaceItem(kind, DefaultMesh(junk), Get(sc, Key(kind)).items[j])
  {
    StagePlaces(sc, junk, 4, kind, j);
  }

  /** Spelled out, the start of each kind's meshes. */
  lemma KindStarts(sc: Value)
    ensures KindStart(sc, Spheres) == 0
    ensures KindStart(sc, Sdfs) == ArraySize(sc, "spheres")
    ensures KindStart(sc, Boxes) == ArraySize(sc, "spheres") + ArraySize(sc, "sdfs")
    ensures KindStart(sc, Quads) == ArraySize(sc, "spheres") + ArraySize(sc, "sdfs") + ArraySize(sc, "boxes")
    ensures TotalSize(sc) == KindStart(sc, Quads) + ArraySize(sc, "quads")
  {
  }

  // ---------------------------------------------------------------------------
  // The obj block.

  /** The "obj" block: a model file to build a BVH for, with an optional material. */
  predicate ObjOk(sc: Value) {
    WantsBvh(sc) && HasObject(Get(sc, "obj"), "material") ==> ObjMaterialOk(Get(Get(sc, "obj"), "material"))
  }

  /** The obj material's colour is read at positions 0 to 2 without a size check. */
  predicate ObjMaterialOk(m: Value) {
    && m.Object?
    && (HasArray(m, "color") ==> NumbersUpTo(Get(m, "color"), 3))
    && (HasInt(m, "type") ==> 0 <= Get(m, "type").i < 31)
  }

  /** `BUILD_BVH`: the scene has an "obj" object with a string "path". */
  predicate WantsBvh(sc: Value) {
    HasObject(sc, "obj") && Has(Get(sc, "obj"), "path") && Get(Get(sc, "obj"), "path").Str?
  }

  /**
   * The obj block's material: colour components 0 to 2, roughness and type,
   * each only when given. The absorptive branch is not modelled (see
   * `ParseMaterial`).
   */
  function ObjMaterial(m: Value, mat: Material): (r: Material)
    ensures r.tex == mat.tex && r.b == mat.b && r.color.w == mat.color.w
    ensures HasArray(m, "color") ==> forall k :: 0 <= k < 3 ==> Index(r.color, k) == Num(At(Get(m, "color"), k))
    ensures !HasArray(m, "color") ==> r.color == mat.color
    ensures r.roughness == if HasNumber(m, "roughness") then Num(Get(m, "roughness")) else mat.roughness
    ensures !HasInt(m, "type") ==> r.t == mat.t
  {
    var color := if HasArray(m, "color") then SetXYZ(mat.color, Get(m, "color")) else mat.color;
    var roughness := if HasNumber(m, "roughness") then Num(Get(m, "roughness")) else mat.roughness;
    var t := if HasInt(m, "type") then MaterialType(IntOf(Get(m, "type"))) else mat.t;
    mat.(color := color, roughness := roughness, t := t)
  }

  /** The bits the obj block adds to `ACTIVE_MATS`. */
  function ObjTypeBits(sc: Value): bv32 {
    if WantsBvh(sc) && HasObject(Get(sc, "obj"), "material") then
      var m := Get(Get(sc, "obj"), "material");
      if HasInt(m, "type") then MaterialType(IntOf(Get(m, "type"))) as bv32 else 0
    else 0
  }

  /** `BUILD_BVH`, `obj_path` and `*obj_mat` after the obj block. */
  datatype ObjInfo = ObjInfo(buildBvh: bool, path: string, mat: Material)

  /** The obj block of `load`, without its `ACTIVE_MATS` part (see `ObjTypeBits`). */
  function LoadObj(sc: Value): (r: ObjInfo)
    ensures r.buildBvh <==> WantsBvh(sc)
    ensures r.buildBvh ==> r.path == Get(Get(sc, "obj"), "path").s
    ensures !r.buildBvh ==> r.path == "" && r.mat == DefaultMaterial()
  {
    if !WantsBvh(sc) then ObjInfo(false, "", DefaultMaterial())
    else
      var obj := Get(sc, "obj");
      var mat := if HasObject(obj, "material") then ObjMaterial(Get(obj, "material"), DefaultMaterial()) else DefaultMaterial();
      ObjInfo(true, Get(obj, "path").s, mat)
  }

  // ---------------------------------------------------------------------------
  // Lights.

  /** The reference definition of the lights: indices below n whose material has the LIGHT bit, ascending. */
  function LightsBelow(meshes: seq<Mesh>, n: nat): seq<nat>
    requires n <= |meshes|
  {
    if n == 0 then []
    else LightsBelow(meshes, n - 1) + (if meshes[n - 1].mat.t & LIGHT != 0 then [n - 1] else [])
  }

  /** `LightsBelow` lists exactly the lights below n, in strictly increasing order. */
  lemma {:induction false} LightsBelowSpec(meshes: seq<Mesh>, n: nat)
    requires n <= |meshes|
    ensures forall i :: 0 <= i < |LightsBelow(meshes, n)| ==> LightsBelow(meshes, n)[i] < n
    ensures forall i, j :: 0 <= i < j < |LightsBelow(meshes, n)| ==> LightsBelow(meshes, n)[i] < LightsBelow(meshes, n)[j]
    ensures forall k :: 0 <= k < n ==> (k in LightsBelow(meshes, n) <==> meshes[k].mat.t & LIGHT != 0)
  {
    if n > 0 {
      LightsBelowSpec(meshes, n - 1);
    }
  }

  /** `getLights`: appends the lights below `object_count.s[7]` and counts each one. */
  method GetLights(meshes: seq<Mesh>, total: nat, lightCount: nat, lightIndices: seq<nat>)
    returns (count: nat, indices: seq<nat>)
    requires total <= |meshes|
    ensures indices == lightIndices + LightsBelow(meshes, total)
    ensures count == lightCount + |LightsBelow(meshes, total)|
  {
    count, indices := lightCount, lightIndices;
    var i := 0;
    while i < total
      invariant i <= total
      invariant indices == lightIndices + LightsBelow(meshes, i)
      invariant count == lightCount + |LightsBelow(meshes, i)|
    {
      if meshes[i].mat.t & LIGHT != 0 {
        count := count + 1;
        indices := indices + [i];
      }
      i := i + 1;
    }
  }

  // ---------------------------------------------------------------------------
  // `load`.

  predicate SceneOk(sc: Value) {
    sc.Object? && ObjOk(sc) && KindsOk(sc)
  }

  /** What `load` relies on about the document. */
  predicate DocumentOk(doc: Value) {
    && doc.Object?
    && SettingsOk(doc)
    && (Has(doc, "scene") ==> SceneOk(Get(doc, "scene")))
  }

  /** The parts of `host_scene` that `load` and `getLights` fill in. */
  datatype HostScene = HostScene(
    table: MeshTable,
    settings: Settings,
    activeMats: bv32,
    lightCount: nat,
    lightIndices: seq<nat>,
    hasGlobalMedium: bool,
    obj: ObjInfo)

  /**
   * Everything `load` or-s into `ACTIVE_MATS`, in order: the obj material's
   * type, then the type of every item with a material, kind by kind.
   */
  function TypeContributions(sc: Value): (ws: seq<bv32>)
    ensures |ws| == 1 + TotalSize(sc)
  {
    ContributionsUpTo(sc, 4)
  }

  /** The contributions of the obj block and the first n array blocks. */
  function ContributionsUpTo(sc: Value, n: nat): (ws: seq<bv32>)
    requires n <= 4
    ensures |ws| == 1 + StartAt(sc, n)
  {
    if n == 0 then [ObjTypeBits(sc)] else ContributionsUpTo(sc, n - 1) + KindBits(KindAt(n - 1), sc)
  }

  /** `ACTIVE_MATS` after `load`. */
  function SceneTypeBits(sc: Value): bv32 {
    OrAll(TypeContributions(sc))
  }

  /**
   * `load` on a fresh scene: settings, the obj block, spheres, SDFs, boxes and
   * quads, then `getLights`.  The global medium's numbers are not modelled,
   * only whether there is one.
   */
  function Load(doc: Value, junk: Joker): (s: HostScene)
    requires DocumentOk(doc)
    ensures Layout(s.table)
  {
    var hasScene := Has(doc, "scene");
    var table := if hasScene then LoadTable(Get(doc, "scene"), junk) else EmptyTable();
    var obj := if hasScene then LoadObj(Get(doc, "scene")) else ObjInfo(false, "", DefaultMaterial());
    var active: bv32 := if hasScene then SceneTypeBits(Get(doc, "scene")) else 0;
    var lights := LightsBelow(table.meshes, table.counts[7]);
    HostScene(table, LoadSettings(doc), active, 0 + |lights|, [] + lights, Has(doc, "global_medium"), obj)
  }

  // ---------------------------------------------------------------------------
  // What `load` produces.

  /** The counts and mesh layout of a loaded scene (see `LoadTablePlaces` for the meshes themselves). */
  lemma LoadLayout(doc: Value, junk: Joker, kind: Kind, j: nat)
    requires DocumentOk(doc) && Has(doc, "scene")
    requires HasArray(Get(doc, "scene"), Key(kind)) && j < |Get(Get(doc, "scene"), Key(kind)).items|
    ensures var s := Load(doc, junk);
      var sc := Get(doc, "scene");
      && s.table.counts[KindSlot(kind)] == |Get(sc, Key(kind)).items|
      && |s.table.meshes| == s.table.counts[7] == TotalSize(sc)
      && KindStart(sc, kind) + j < |s.table.meshes|
      && s.table.meshes[KindStart(sc, kind) + j] == PlaceItem(kind, DefaultMesh(junk), Get(sc, Key(kind)).items[j])
  {
    LoadTablePlaces(Get(doc, "scene"), junk, kind, j);
  }

  /** The type mask of each loaded mesh: its kind's flag, and for an SDF also its subtype bit. */
  lemma LoadMeshTypes(doc: Value, junk: Joker, kind: Kind, j: nat)
    requires DocumentOk(doc) && Has(doc, "scene")
    requires HasArray(Get(doc, "scene"), Key(kind)) && j < |Get(Get(doc, "scene"), Key(kind)).items|
    ensures var s := Load(doc, junk);
      var sc := Get(doc, "scene");
      var item := Get(sc, Key(kind)).items[j];
      && KindStart(sc, kind) + j < |s.table.meshes|
      && (kind != Sdfs ==> s.table.meshes[KindStart(sc, kind) + j].t == KindFlag(kind))
      && (kind == Sdfs ==> s.table.meshes[KindStart(sc, kind) + j].t == SDF | SubtypeBit(item))
      && (kind == Quads ==> s.table.meshes[KindStart(sc, kind) + j].joker[12] == FlipSign(item))
  {
    LoadTablePlaces(Get(doc, "scene"), junk, kind, j);
  }

  /** Without a "scene" member nothing is loaded: no meshes, no lights, no BVH. */
  lemma LoadWithoutScene(doc: Value, junk: Joker)
    requires DocumentOk(doc) && !Has(doc, "scene")
    ensures var s := Load(doc, junk);
      && s.table.meshes == [] && s.table.counts[7] == 0 && s.lightIndices == [] && !s.obj.buildBvh && s.activeMats == 0
  {
  }

  /** The settings and the medium flag of a loaded scene, and `BUILD_BVH` exactly for an obj with a path. */
  lemma LoadSettingsAndObj(doc: Value, junk: Joker)
    requires DocumentOk(doc)
    ensures var s := Load(doc, junk);
      && s.settings == LoadSettings(doc)
      && s.hasGlobalMedium == Has(doc, "global_medium")
      && (s.obj.buildBvh <==> Has(doc, "scene") && WantsBvh(Get(doc, "scene")))
  {
  }

  /** After `load`, `LIGHT_INDICES` lists exactly the light meshes in order and `LIGHT_COUNT` is its length. */
  lemma LoadLights(doc: Value, junk: Joker)
    requires DocumentOk(doc)
    ensures var s := Load(doc, junk);
      && s.lightCount == |s.lightIndices|
      && s.lightIndices == LightsBelow(s.table.meshes, |s.table.meshes|)
  {
  }

  /** Item j of a kind's array contributes right after the obj block and the items of the kinds before it. */
  lemma {:induction false} ContributionOfItem(sc: Value, n: nat, kind: Kind, j: nat)
    requires KindSlot(kind) < n <= 4
    requires HasArray(sc, Key(kind)) && j < |Get(sc, Key(kind)).items|
    ensures 1 + KindStart(sc, kind) + j < |ContributionsUpTo(sc, n)|
    ensures ContributionsUpTo(sc, n)[1 + KindStart(sc, kind) + j] == ItemTypeBits(Get(sc, Key(kind)).items[j])
  {
    if KindSlot(kind) == n - 1 {
      ContributionOfNewest(sc, n, kind, j);
    } else {
      ContributionOfItem(sc, n - 1, kind, j);
      assert ContributionsUpTo(sc, n) == ContributionsUpTo(sc, n - 1) + KindBits(KindAt(n - 1), sc);
    }
  }

  /** The slot of a kind names it back. */
  lemma KindAtSlot(kind: Kind)
    ensures KindAt(KindSlot(kind)) == kind
  {
  }

  /** The block of a kind appends its items' contributions after those of the kinds before it. */
  lemma ContributionOfNewest(sc: Value, n: nat, kind: Kind, j: nat)
    requires n == KindSlot(kind) + 1
    requires HasArray(sc, Key(kind)) && j < |Get(sc, Key(kind)).items|
    ensures 1 + KindStart(sc, kind) + j < |ContributionsUpTo(sc, n)|
    ensures ContributionsUpTo(sc, n)[1 + KindStart(sc, kind) + j] == ItemTypeBits(Get(sc, Key(kind)).items[j])
  {
    var prefix := ContributionsUpTo(sc, n - 1);
    var block := KindBits(kind, sc);
    assert KindAt(n - 1) == kind by { KindAtSlot(kind); }
    assert ContributionsUpTo(sc, n) == prefix + block;
    assert |prefix| == 1 + KindStart(sc, kind);
    assert block[j] == ItemTypeBits(Get(sc, Key(kind)).items[j]);
    assert (prefix + block)[|prefix| + j] == block[j];
  }

  /** The obj block contributes first. */
  lemma {:induction false} ContributionOfObj(sc: Value, n: nat)
    requires n <= 4
    ensures ContributionsUpTo(sc, n)[0] == ObjTypeBits(sc)
  {
    if n > 0 {
      ContributionOfObj(sc, n - 1);
    }
  }

  /**
   * `ACTIVE_MATS` after `load` is the or of the scene's contributions: the
   * obj material's type first, then item j of a kind's array at position
   * 1 + `KindStart` + j.
   */
  lemma LoadActiveMats(doc: Value, junk: Joker, kind: Kind, j: nat)
    requires DocumentOk(doc) && Has(doc, "scene")
    requires HasArray(Get(doc, "scene"), Key(kind)) && j < |Get(Get(doc, "scene"), Key(kind)).items|
    ensures var s := Load(doc, junk);
      var sc := Get(doc, "scene");
      var ws := TypeContributions(sc);
      && s.activeMats == OrAll(ws)
      && ws[0] == ObjTypeBits(sc)
      && 1 + KindStart(sc, kind) + j < |ws|
      && ws[1 + KindStart(sc, kind) + j] == ItemTypeBits(Get(sc, Key(kind)).items[j])
  {
    ContributionOfObj(Get(doc, "scene"), 4);
    ContributionOfItem(Get(doc, "scene"), 4, kind, j);
  }

  /** Every bit of an item's material type is set in `ACTIVE_MATS`, so the kernel keeps that material's code. */
  lemma ActiveMatsHoldsItem(doc: Value, junk: Joker, kind: Kind, j: nat)
    requires DocumentOk(doc) && Has(doc, "scene")
    requires HasArray(Get(doc, "scene"), Key(kind)) && j < |Get(Get(doc, "scene"), Key(kind)).items|
    ensures Within(ItemTypeBits(Get(Get(doc, "scene"), Key(kind)).items[j]), Load(doc, junk).activeMats)
  {
    var sc := Get(doc, "scene");
    LoadActiveMats(doc, junk, kind, j);
    OrAllContains(TypeContributions(sc), 1 + KindStart(sc, kind) + j);
  }

  /** Every bit of the obj material's type is set in `ACTIVE_MATS`. */
  lemma ActiveMatsHoldsObj(doc: Value, junk: Joker)
    requires DocumentOk(doc) && Has(doc, "scene")
    ensures Within(ObjTypeBits(Get(doc, "scene")), Load(doc, junk).activeMats)
  {
    ContributionOfObj(Get(doc, "scene"), 4);
    OrAllContains(TypeContributions(Get(doc, "scene")), 0);
  }

  /** A flag that neither the obj material nor any item's material has is not set in `ACTIVE_MATS`. */
  lemma ActiveMatsOnlyContributions(doc: Value, junk: Joker, m: bv32)
    requires DocumentOk(doc) && Has(doc, "scene")
    requires var ws := TypeContributions(Get(doc, "scene"));
      forall i :: 0 <= i < |ws| ==> !Meets(ws[i], m)
    ensures !Meets(Load(doc, junk).activeMats, m)
  {
    OrAllMisses(TypeContributions(Get(doc, "scene")), m);
  }

  /** SDF subtypes 5 to 8 name the four SDF flags, so an SDF mesh's type decodes into SDF and its subtype. */
  lemma SubtypeBitIsSdfFlag(item: Value)
    requires HasInt(item, "type") && 5 <= Get(item, "type").i <= 8
    ensures SubtypeBit(item) == SdfFlags[Get(item, "type").i - 5]
  {
  }
}

=== FILE: string_helpers.dfy ===
/**
 * `ltrim`, `rtrim`, `trim` and `split` of include/string_helper_functions.h,
 * on strings as sequences of characters (no locale beyond the C one).
 */
module StringHelpers {
  import opened Wrappers

  /** `isspace` in the C locale: space, and \t \n \v \f \r (codes 9 to 13). */
  predicate IsSpace(c: char) {
    c == ' ' || '\t' <= c <= '\r'
  }

  /** No whitespace at either end. */
  predicate IsTrimmed(s: string) {
    |s| == 0 || (!IsSpace(s[0]) && !IsSpace(s[|s| - 1]))
  }

  /** The index of the first non-whitespace character at or after `i` (the `find_if` of `ltrim`). */
  function SkipSpaces(s: string, i: nat): (k: nat)
    requires i <= |s|
    ensures i <= k <= |s|
    decreases |s| - i
  {
    if i < |s| && IsSpace(s[i]) then SkipSpaces(s, i + 1) else i
  }

  /** Everything `SkipSpaces` passes over is whitespace. */
  lemma {:induction false} SkipSpacesSkipsSpaces(s: string, i: nat)
    requires i <= |s|
    ensures forall j :: i <= j < SkipSpaces(s, i) ==> IsSpace(s[j])
    ensures SkipSpaces(s, i) == |s| || !IsSpace(s[SkipSpaces(s, i)])
    decreases |s| - i
  {
    if i < |s| && IsSpace(s[i]) {
      SkipSpacesSkipsSpaces(s, i + 1);
    }
  }

  /** One past the last non-whitespace character at or before `j` (the reverse `find_if` of `rtrim`). */
  function SkipSpacesBack(s: string, j: nat): (k: nat)
    requires j <= |s|
    ensures k <= j
  {
    if j > 0 && IsSpace(s[j - 1]) then SkipSpacesBack(s, j - 1) else j
  }

  /** Everything `SkipSpacesBack` passes over is whitespace. */
  lemma {:induction false} SkipSpacesBackSkipsSpaces(s: string, j: nat)
    requires j <= |s|
    ensures forall i :: SkipSpacesBack(s, j) <= i < j ==> IsSpace(s[i])
    ensures SkipSpacesBack(s, j) == 0 || !IsSpace(s[SkipSpacesBack(s, j) - 1])
  {
    if j > 0 && IsSpace(s[j - 1]) {
      SkipSpacesBackSkipsSpaces(s, j - 1);
    }
  }

  /** `ltrim`: erase the leading run of whitespace. */
  function LTrim(s: string): string {
    s[SkipSpaces(s, 0)..]
  }

  /** `rtrim`: erase the trailing run of whitespace. */
  function RTrim(s: string): string {
    s[..SkipSpacesBack(s, |s|)]
  }

  /** `trim`: `ltrim` then `rtrim`. */
  function Trim(s: string): string {
    RTrim(LTrim(s))
  }

  /** The bounds of the slice `trim` keeps. */
  function TrimStart(s: string): nat { SkipSpaces(s, 0) }

  /** `trim` keeps the slice of `s` between a leading and a trailing whitespace run; the slice itself has none at its ends. */
  lemma TrimIsSlice(s: string)
    ensures TrimStart(s) + |Trim(s)| <= |s|
    ensures Trim(s) == s[TrimStart(s)..TrimStart(s) + |Trim(s)|]
    ensures forall i :: 0 <= i < TrimStart(s) ==> IsSpace(s[i])
    ensures forall i :: TrimStart(s) + |Trim(s)| <= i < |s| ==> IsSpace(s[i])
    ensures IsTrimmed(Trim(s))
  {
    var a := SkipSpaces(s, 0);
    var l := s[a..];
    var b := SkipSpacesBack(l, |l|);
    SkipSpacesSkipsSpaces(s, 0);
    SkipSpacesBackSkipsSpaces(l, |l|);
    assert Trim(s) == l[..b];
    assert l[..b] == s[a..a + b];
    assert forall i :: a + b <= i < |s| ==> s[i] == l[i - a];
    assert b > 0 ==> !IsSpace(l[0]);
  }

  /** Trimming a trimmed string changes nothing; in particular `trim` is idempotent. */
  lemma TrimOfTrimmed(s: string)
    requires IsTrimmed(s)
    ensures Trim(s) == s
  {
    assert SkipSpaces(s, 0) == 0;
    assert LTrim(s) == s;
    assert SkipSpacesBack(s, |s|) == |s|;
  }

  lemma TrimIdempotent(s: string)
    ensures Trim(Trim(s)) == Trim(s)
  {
    TrimIsSlice(s);
    TrimOfTrimmed(Trim(s));
  }

  /** `trim` empties a string exactly when it is all whitespace. */
  lemma TrimEmptyIffAllSpace(s: string)
    ensures Trim(s) == [] <==> forall i :: 0 <= i < |s| ==> IsSpace(s[i])
  {
    TrimIsSlice(s);
    if Trim(s) != [] {
      assert s[TrimStart(s)] == Trim(s)[0];
    }
  }

  // ---------------------------------------------------------------------------
  // Substring search (`std::string::find`).

  predicate OccursAt(s: string, pat: string, k: nat) {
    k + |pat| <= |s| && s[k..k + |pat|] == pat
  }

  predicate Contains(s: string, pat: string) {
    exists k: nat | k <= |s| :: OccursAt(s, pat, k)
  }

  /** `s.find(pat, from)`: the first occurrence at or after `from`, or None for `npos`. */
  function Find(s: string, pat: string, from: nat): (r: Option<nat>)
    ensures r.Some? ==> from <= r.value && OccursAt(s, pat, r.value)
    ensures r.Some? ==> forall j :: from <= j < r.value ==> !OccursAt(s, pat, j)
    ensures r.None? ==> forall j :: from <= j ==> !OccursAt(s, pat, j)
    decreases |s| - from
  {
    if from + |pat| > |s| then None
    else if s[from..from + |pat|] == pat then Some(from)
    else Find(s, pat, from + 1)
  }

  // ---------------------------------------------------------------------------
  // split

  /**
   * The `do ... while` loop of `split`, from position `prev` onwards, with
   * the work done on each piece left as `step` (for `split` itself: trim the
   * piece and keep it when it is not empty).  In the source `pos` is an
   * `unsigned int`, which cannot hold `string::npos`, so "not found" leaves
   * `pos` huge instead of `str.length()`; `substr` clamps and the loop
   * condition fails all the same, which is the behaviour written here.
   */
  function SplitLoop(str: string, delim: string, prev: nat, step: string -> seq<string>): seq<string>
    requires |delim| > 0 && prev <= |str|
    decreases |str| - prev
  {
    var pos := NextPos(str, delim, prev);
    if pos < |str| && pos + |delim| < |str| then step(str[prev..pos]) + SplitLoop(str, delim, pos + |delim|, step)
    else step(str[prev..pos])
  }

  /** Where the loop's `find` stops: the next occurrence, or the end of the string. */
  function NextPos(str: string, delim: string, prev: nat): (pos: nat)
    requires prev <= |str|
    ensures prev <= pos <= |str|
  {
    var f := Find(str, delim, prev);
    if f.Some? then f.value else |str|
  }

  /** The loop body of `split`: trim the piece, push it unless it came out empty. */
  function Token(piece: string): (r: seq<string>)
    ensures |r| <= 1
    ensures |r| == 1 <==> Trim(piece) != []
    ensures |r| == 1 ==> r[0] == Trim(piece)
  {
    var token := Trim(piece);
    if |token| == 0 then [] else [token]
  }

  /**
   * `split(str, delim)`.  An empty `delim` makes the source loop forever
   * (every `find` succeeds at `prev` without advancing), hence the requirement.
   */
  function Split(str: string, delim: string): seq<string>
    requires |delim| > 0
  {
    SplitLoop(str, delim, 0, Token)
  }

  /** Reference definition: the pieces of `s[from..]` between occurrences of `d`, left to right. */
  function SegmentsFrom(s: string, d: string, from: nat): (r: seq<string>)
    requires |d| > 0 && from <= |s|
    ensures |r| > 0
    decreases |s| - from
  {
    var f := Find(s, d, from);
    if f.None? then [s[from..]] else [s[from..f.value]] + SegmentsFrom(s, d, f.value + |d|)
  }

  function Segments(s: string, d: string): (r: seq<string>)
    requires |d| > 0
  {
    SegmentsFrom(s, d, 0)
  }

  /** Pieces glued back with the delimiter between them. */
  function Join(parts: seq<string>, d: string): string {
    if |parts| == 0 then []
    else if |parts| == 1 then parts[0]
    else parts[0] + d + Join(parts[1..], d)
  }

  /** `step` applied to every piece, the results concatenated in order. */
  function FlatMap(parts: seq<string>, step: string -> seq<string>): seq<string> {
    if |parts| == 0 then [] else step(parts[0]) + FlatMap(parts[1..], step)
  }

  lemma {:induction false} FlatMapAppend(a: seq<string>, b: seq<string>, step: string -> seq<string>)
    ensures FlatMap(a + b, step) == FlatMap(a, step) + FlatMap(b, step)
  {
    if |a| > 0 {
      assert (a + b)[1..] == a[1..] + b;
      FlatMapAppend(a[1..], b, step);
    } else {
      assert a + b == b;
    }
  }

  lemma FlatMapSingle(x: string, step: string -> seq<string>)
    ensures FlatMap([x], step) == step(x)
  {
    assert [x][1..] == [];
  }

  /** One cut of `SegmentsFrom` where `d` is found at `k`. */
  lemma SegmentsFromCut(s: string, d: string, from: nat, k: nat, next: nat)
    requires |d| > 0 && from <= |s| && Find(s, d, from) == Some(k) && next == k + |d|
    ensures from <= k && next <= |s|
    ensures SegmentsFrom(s, d, from) == [s[from..k]] + SegmentsFrom(s, d, next)
  {
  }

  /** `SegmentsFrom` where `d` is not found past `from`. */
  lemma SegmentsFromRest(s: string, d: string, from: nat)
    requires |d| > 0 && from <= |s| && Find(s, d, from).None?
    ensures SegmentsFrom(s, d, from) == [s[from..]]
  {
  }

  /** Gluing the segments back together with `d` restores the string. */
  lemma {:induction false} SegmentsFromJoin(s: string, d: string, from: nat)
    requires |d| > 0 && from <= |s|
    ensures Join(SegmentsFrom(s, d, from), d) == s[from..]
    decreases |s| - from
  {
    var f := Find(s, d, from);
    if f.Some? {
      var k := f.value;
      var next := k + |d|;
      SegmentsFromCut(s, d, from, k, next);
      var rest := SegmentsFrom(s, d, next);
      SegmentsFromJoin(s, d, next);
      var segs := [s[from..k]] + rest;
      assert segs[0] == s[from..k] && segs[1..] == rest;
      assert Join(segs, d) == s[from..k] + d + Join(rest, d);
      assert s[k..next] == d;
      assert s[from..] == s[from..k] + s[k..next] + s[next..];
    } else {
      SegmentsFromRest(s, d, from);
    }
  }

  lemma SegmentsJoin(s: string, d: string)
    requires |d| > 0
    ensures Join(Segments(s, d), d) == s
  {
    SegmentsFromJoin(s, d, 0);
    assert s[0..] == s;
  }

  /** A slice that meets no occurrence of `d` in `s` does not contain `d`. */
  lemma SliceAvoids(s: string, d: string, from: nat, to: nat)
    requires from <= to <= |s|
    requires forall j :: from <= j && j + |d| <= to ==> !OccursAt(s, d, j)
    ensures !Contains(s[from..to], d)
  {
    forall j: nat | OccursAt(s[from..to], d, j) ensures false {
      var window := s[from + j..from + j + |d|];
      forall i | 0 <= i < |d| ensures window[i] == d[i] {
        assert d[i] == s[from..to][j..j + |d|][i];
      }
      assert window == d;
      assert OccursAt(s, d, from + j);
    }
  }

  /** No segment contains the delimiter. */
  lemma {:induction false} SegmentsAvoidDelim(s: string, d: string, from: nat)
    requires |d| > 0 && from <= |s|
    ensures forall i :: 0 <= i < |SegmentsFrom(s, d, from)| ==> !Contains(SegmentsFrom(s, d, from)[i], d)
    decreases |s| - from
  {
    var f := Find(s, d, from);
    if f.None? {
      SegmentsFromRest(s, d, from);
      SliceAvoids(s, d, from, |s|);
      assert s[from..|s|] == s[from..];
    } else {
      var k := f.value;
      var next := k + |d|;
      SegmentsFromCut(s, d, from, k, next);
      SegmentsAvoidDelim(s, d, next);
      SliceAvoids(s, d, from, k);
      var rest := SegmentsFrom(s, d, next);
      forall i | 0 <= i < |SegmentsFrom(s, d, from)| ensures !Contains(SegmentsFrom(s, d, from)[i], d) {
        if i > 0 {
          assert SegmentsFrom(s, d, from)[i] == rest[i - 1];
        }
      }
    }
  }

  /**
   * The loop visits exactly the segments, in order: stopping when the last
   * delimiter ends the string only skips an empty final piece, which `step`
   * must drop.
   */
  lemma {:induction false} SplitLoopIsFlatMap(str: string, d: string, prev: nat, step: string -> seq<string>)
    requires |d| > 0 && prev <= |str| && step([]) == []
    ensures SplitLoop(str, d, prev, step) == FlatMap(SegmentsFrom(str, d, prev), step)
    decreases |str| - prev
  {
    var f := Find(str, d, prev);
    if f.None? {
      assert str[prev..|str|] == str[prev..];
      FlatMapSingle(str[prev..], step);
    } else {
      var pos := f.value;
      var next := pos + |d|;
      assert NextPos(str, d, prev) == pos;
      FlatMapAppend([str[prev..pos]], SegmentsFrom(str, d, next), step);
      FlatMapSingle(str[prev..pos], step);
      if next < |str| {
        SplitLoopIsFlatMap(str, d, next, step);
      } else {
        assert Find(str, d, next).None?;
        assert str[next..] == [];
        FlatMapSingle([], step);
      }
    }
  }

  /** Every element of `FlatMap(parts, Token)` is the non-empty trim of some piece. */
  lemma {:induction false} TokensOfPieces(parts: seq<string>, d: string)
    requires forall i :: 0 <= i < |parts| ==> !Contains(parts[i], d)
    ensures forall i :: 0 <= i < |FlatMap(parts, Token)| ==>
      FlatMap(parts, Token)[i] != [] && IsTrimmed(FlatMap(parts, Token)[i]) && !Contains(FlatMap(parts, Token)[i], d)
  {
    if |parts| > 0 {
      TokensOfPieces(parts[1..], d);
      var p := parts[0];
      var t := Trim(p);
      TrimIsSlice(p);
      var a := TrimStart(p);
      assert forall j: nat :: j <= |p| ==> !OccursAt(p, d, j);
      SliceAvoids(p, d, a, a + |t|);
    }
  }

  /** `split` is exactly: cut at every delimiter, trim every piece, drop the empty ones. */
  lemma SplitIsTrimmedSegments(str: string, d: string)
    requires |d| > 0
    ensures Split(str, d) == FlatMap(Segments(str, d), Token)
  {
    assert Trim([]) == [];
    SplitLoopIsFlatMap(str, d, 0, Token);
  }

  /** Every token of `split` is non-empty, already trimmed, and free of the delimiter. */
  lemma SplitTokens(str: string, d: string)
    requires |d| > 0
    ensures forall i :: 0 <= i < |Split(str, d)| ==>
      Split(str, d)[i] != [] && IsTrimmed(Split(str, d)[i]) && !Contains(Split(str, d)[i], d)
  {
    SplitIsTrimmedSegments(str, d);
    SegmentsAvoidDelim(str, d, 0);
    TokensOfPieces(Segments(str, d), d);
  }

  /** The empty string splits into nothing; a string without the delimiter into its trim, if that is not empty. */
  lemma SplitWithoutDelim(str: string, d: string)
    requires |d| > 0 && !Contains(str, d)
    ensures Split(str, d) == if Trim(str) == [] then [] else [Trim(str)]
    ensures str == [] ==> Split(str, d) == []
  {
    assert str[0..|str|] == str;
  }
}

=== FILE: utils.dfy ===
/**
 * `formatBytes` of include/utils.h: a byte count scaled into the largest of
 * bytes, KB, MB and GB that keeps the value at least 1.  The source works in
 * `float`; here the value is an exact `real`, so rounding is not modelled.
 */
module Utils {

  /** The unit names, indexed by how many times the count is divided by 1024. */
  const Units: seq<string> := ["bytes", "KB", "MB", "GB"]

  function Pow1024(k: nat): (r: real)
    ensures r >= 1.0
  {
    if k == 0 then 1.0 else 1024.0 * Pow1024(k - 1)
  }

  /** Reference definition: the largest power of 1024, up to 1024^3, not above the count (0 for counts below 1024). */
  function Level(bytes: nat): (k: nat)
    ensures k < |Units|
  {
    if bytes >= 1024 * 1024 * 1024 then 3
    else if bytes >= 1024 * 1024 then 2
    else if bytes >= 1024 then 1
    else 0
  }

  datatype Formatted = Formatted(value: real, unit: string)

  /** One of the three guarded steps: divide by 1024 and take the next unit when the value is at least 1024. */
  function Step(f: Formatted, next: string): Formatted {
    if f.value >= 1024.0 then Formatted(f.value / 1024.0, next) else f
  }

  /** `formatBytes`: the unit is the one `Level` names, and the value times its power of 1024 gives the count back. */
  function FormatBytes(bytes: nat): (r: Formatted)
    ensures r.unit == Units[Level(bytes)]
    ensures r.value * Pow1024(Level(bytes)) == bytes as real
    ensures r.unit != "GB" ==> r.value < 1024.0
    ensures r.unit != "bytes" ==> r.value >= 1.0
    ensures bytes < 1024 ==> r == Formatted(bytes as real, "bytes")
  {
    var f0 := Formatted(bytes as real, "bytes");
    var f1 := Step(f0, "KB");
    var f2 := Step(f1, "MB");
    var f3 := Step(f2, "GB");
    assert Pow1024(1) == 1024.0 && Pow1024(2) == 1024.0 * 1024.0 && Pow1024(3) == 1024.0 * 1024.0 * 1024.0;
    f3
  }
}

=== FILE: wrappers.dfy ===
/** Option and Result, used where the modelled C++ returns "nothing" or fails. */
module Wrappers {

  datatype Option<+T> = None | Some(value: T) {

    /** The wrapped value, or `default` when there is none. */
    function GetOr(default: T): T {
      match this
      case Some(v) => v
      case None => default
    }
  }

  datatype Result<+T, +E> = Success(value: T) | Failure(error: E)
}
